=== FILE: README.md ===
# niwot quiz: a Dafny model of the game core

niwot is a multiplayer quiz game. Players gather in a room identified by a
six-character code. The host configures the room, starts the quiz and can
kick, ban or hand over the host role. Each round shows one question with a
timer. Players type guesses, which are normalised (accents stripped, only
ASCII letters and digits kept, upper-cased) and compared with the answer and
its alternatives. Points are awarded once per round, either degressively
(10, 9, 8 … down to 1) or as a fixed 10. The first player to reach the
target score ends the quiz.

Around that socket orchestrator sit HTTP routes, and each is modelled here:

- room creation, join and settings;
- question suggestion and listing;
- the wins and proposers leaderboards;
- admin slugs, statuses and category names;
- registration, login and `/me`;
- the authentication middleware;
- media URL helpers;
- the web app's logout cookie purge.

## Modules

| file | module | models |
|---|---|---|
| `wrappers.dfy` | `Wrappers` | `Option` and `Result` (an HTTP status with a message) |
| `text.dfy` | `Text` | ASCII classes, case mapping, trim, split, filter, prefix |
| `sorting.dfy` | `Sorting` | insertion sort by a total preorder: sorted and a permutation |
| `normalize.dfy` | `Normalize` | `utils/normalize.ts` |
| `media.dfy` | `Media` | `web/src/lib/media.ts` |
| `room_types.dfy` | `RoomTypes` | the value types and pure helpers of `sockets/index.ts` |
| `room.dfy` | `Rooms` | `class Room`, one method per socket handler of `sockets/index.ts` |
| `registry.dfy` | `Registry` | the global `rooms` map, `room:join`'s lookup, `disconnect`, `snapshotPublicRooms` |
| `rooms_http.dfy` | `RoomsHttp` | `routes/rooms.ts` |
| `questions.dfy` | `Questions` | `routes/questions.ts` |
| `leaderboard.dfy` | `Leaderboard` | `routes/leaderboard.ts` (the in-place `leaders.sort` is an array method) |
| `misc.dfy` | `Misc` | `routes/misc.ts` |
| `admin.dfy` | `Admin` | `routes/admin.ts` |
| `auth_middleware.dfy` | `AuthMiddleware` | `middleware/auth.ts` (`class Request` for the stamped request) |
| `auth_routes.dfy` | `AuthRoutes` | `routes/auth.ts` |
| `logout.dfy` | `Logout` | `web/src/pages/api/logout.ts` |

## How the socket side is modelled

- **Rooms.** A room is an object whose handlers update its fields in place, so it is a Dafny `class`. Its roster, proposal table and ban list are `seq` fields that the methods reassign.
- **Events.** Every emitted event is returned as a list of `Event` values. A store write that a handler attempts becomes an event too (`SaveOwner`, `SaveConfig`, `AddWin`).
- **Round timer.** The timer handle is the field `timeout: NoTimer | Pending(ms) | Fired`.
  - `FireRoundTimeout` runs the callback. The fired handle stays set, just as the source never resets it to null.
  - `pendingDraws` counts post-round `setTimeout`s. Arming one emits `DrawScheduled(delayMs)`. `FireNextDraw` runs one of them.
- **Store reads.** The random question draw, the stored settings and the stored room record are parameters (`Option` values, `None` meaning nothing was found).
- **Environment.** `process.env.PUBLIC_UPLOADS_BASE` is the parameter `env` (`None` when unset) of the operations that build a question.

Behaviours the model keeps as written:

- `room:config` has no host check.
- Capacity counts disconnected roster entries.
- The ban list is checked before a returning player is rebound.
- `room:start` resets only connected players, while `quiz:restart` resets everyone.
- Kick and ban of the host user keep `hostUserId` when nobody is connected, while leave clears it.
- `disconnect` never touches `hostUserId`.
- A scheduled next draw is not cancelled by restart or going back to the lobby.
- After the timer has fired, a late answer can still score and can end the round again.
- HTTP PATCH accepts `maxPlayers` in [2,16], whereas `room:config` clamps to [2,20].
- A blank PATCH name is stored as "".
- `/me` ignores the `token` cookie.
- A player whose name carries trailing spaces is not matched by the trimmed name that `room:ban` stores.

## Model

| member | source | states |
|---|---|---|
| RoomTypes.NormalizeAnswer | niwot/api/src/sockets/index.ts:10-16 | the empty input gives ""; every output character is an upper-case ASCII letter or a digit |
| RoomTypes.NormalizeAnswerIdempotent | niwot/api/src/sockets/index.ts:10-16 | normalising an already normalised answer changes nothing |
| RoomTypes.CopiesAgreeForAnyDecomposition | niwot/api/src/utils/normalize.ts:1-8 | for every decomposition function, the socket copy (strip `\p{Diacritic}`) and the utility copy (strip `\p{M}`) give the same result, because neither mark class contains an ASCII letter or digit |
| RoomTypes.CopiesAgree | niwot/api/src/utils/normalize.ts:1-8 | the two `normalizeAnswer` copies agree on every input |
| RoomTypes.ToAbsoluteImage | niwot/api/src/sockets/index.ts:108-113 | null exactly for a missing or empty path; an http(s) path is kept; any other path becomes the configured uploads base (or the default when it is unset or empty), one '/', then the path; the result is an http(s) URL when that base is, and always with the default base |
| RoomTypes.BuildQuestion | niwot/api/src/sockets/index.ts:247-262 | the answer is normalised; each alternative is the normalised stored alternative at the same place; the image path (image path, else image URL) is null exactly when both are missing or empty, and is an http(s) URL whenever the uploads base is; an untyped question is CITATION exactly when it has citation text |
| RoomTypes.ActivePlayers | niwot/api/src/sockets/index.ts:64 | only entries with a socket id, never more than the roster; empty exactly when nobody is connected; its head is the first connected entry |
| RoomTypes.ActivePlayersMembers | niwot/api/src/sockets/index.ts:64 | a player is active exactly when it is on the roster with a non-empty id |
| RoomTypes.AllActiveAnswered | niwot/api/src/sockets/index.ts:682-683 | true exactly when some roster entry is connected and every connected entry has answered |
| RoomTypes.FirstWinner | niwot/api/src/sockets/index.ts:312 | the first roster entry, connected or not, at or past the target points; none exactly when every entry is below it |
| RoomTypes.PlayerPublic | niwot/api/src/sockets/index.ts:99-102 | a player's broadcast view: user id, name, points and ready flag, an empty avatar sent as null, never the socket |
| RoomTypes.RoomPublic | niwot/api/src/sockets/index.ts:94-106 | the code, host user, parameters and status, with one player view per connected entry |
| RoomTypes.RoomPublicMembers | niwot/api/src/sockets/index.ts:95-104 | every connected entry's view is listed, and every listed view is a connected entry's |
| RoomTypes.QuestionPublic | niwot/api/src/sockets/index.ts:282-285 | the broadcast question: id, text, type, citation and image, and no answer or alternatives (its type has none) |
| RoomTypes.IsExcluded | niwot/api/src/sockets/index.ts:415 | a name on the ban list is excluded, and nothing is excluded by an empty list |
| RoomTypes.CountAnswered | niwot/api/src/sockets/index.ts:670 | the number of players who have answered is at most the roster size |
| RoomTypes.AwardedPoints | niwot/api/src/sockets/index.ts:669-673 | between 1 and 10; fixed scoring gives 10; degressive gives 11 minus the answer order, and 1 from the 11th answer on |
| RoomTypes.ByPointsDescIsPreorder | niwot/api/src/sockets/index.ts:316 | points descending with roster position as tie-break is a total preorder, so the sort is stable on ties |
| RoomTypes.Ranked | niwot/api/src/sockets/index.ts:316 | the active players with their positions, permuted and sorted by points descending, ties in roster order |
| RoomTypes.Top3 | niwot/api/src/sockets/index.ts:316 | at most three entries (fewer only when fewer are active), points non-increasing, each one the name and points of the ranked player at that place |
| RoomTypes.Top3Leads | niwot/api/src/sockets/index.ts:316 | with anyone active, the first entry has at least the points of every active player |
| RoomTypes.Top3FromRoster | niwot/api/src/sockets/index.ts:316 | every top entry is the name and points of an active player |
| RoomTypes.PutProposal | niwot/api/src/sockets/index.ts:661-662 | the proposal table grows by at most one entry |
| RoomTypes.PutProposalUpdates | niwot/api/src/sockets/index.ts:662 | after the write the socket's guess is the new one, every other socket's guess is unchanged, and the table grows only for a new socket |
| RoomTypes.PutProposalDistinct | niwot/api/src/sockets/index.ts:662 | the table stays keyed by distinct socket ids |
| RoomTypes.VisibleProposals | niwot/api/src/sockets/index.ts:290-291 | empty when proposals are hidden; otherwise the wrong guesses (completeness in VisibleProposalsComplete) |
| RoomTypes.WrongGuesses | niwot/api/src/sockets/index.ts:292-301 | at most one view per recorded proposal |
| RoomTypes.WrongGuessesComplete | niwot/api/src/sockets/index.ts:292-301 | every wrong guess whose socket is bound to a roster entry is listed, with that entry's id, name, avatar or null, and points |
| RoomTypes.VisibleProposalsComplete | niwot/api/src/sockets/index.ts:290-302 | with proposals shown, every wrong guess from a bound socket is broadcast |
| RoomTypes.VisibleProposalsHideAnswer | niwot/api/src/sockets/index.ts:290-302 | no published guess equals the answer or an alternative |
| RoomTypes.WrongGuessesHideAnswer | niwot/api/src/sockets/index.ts:293-296 | no listed guess equals the answer or an alternative |
| RoomTypes.WrongGuessesFromRoster | niwot/api/src/sockets/index.ts:295-299 | every listed view carries the guess of a recorded proposal and the name of a roster entry bound to that proposal's socket |
| RoomTypes.Clamp | niwot/api/src/sockets/index.ts:485-487 | the result lies in [lo,hi], equals x inside the range and the nearer bound outside it |
| RoomTypes.ApplyConfig | niwot/api/src/sockets/index.ts:483-495 | maxPlayers is clamped to [2,20], answerTimeSec to [5,60] and targetPoints to [10,1000], each from the input or else the old value; scoring is fixe exactly for "fixe"; approvedOnly is forced true and preCountdownSec 0; privacy, the join-mid-quiz flag, the ban list, the categories, showProposals and the result delay each come from the input or are kept |
| RoomTypes.ApplyConfigIdempotent | niwot/api/src/sockets/index.ts:483-497 | sending the same configuration twice gives the same parameters |
| RoomTypes.Refresh | niwot/api/src/sockets/index.ts:161-173 | a missing stored room changes nothing; otherwise targetPoints, answerTimeSec, showProposals, maxPlayers, the ban list and the categories each take the stored value when the column is not null; scoring changes only when pointMode or scoring is non-empty, and is then fixe exactly for "fixed"/"fixe"; privacy, approvedOnly, countdown, result delay and the join-mid-quiz flag are never refreshed |
| RoomTypes.AddExcluded | niwot/api/src/sockets/index.ts:548-550 | a non-empty name becomes excluded; a blank or already excluded name (case-insensitively) leaves the list unchanged; otherwise one name is appended |
| RoomTypes.ExcludedAfterAppend | niwot/api/src/sockets/index.ts:549-550 | an appended name is excluded and the old list is a prefix |
| RoomTypes.AddExcludedIdempotent | niwot/api/src/sockets/index.ts:548-550 | banning the same name twice equals banning it once |
| RoomTypes.RemoveExcluded | niwot/api/src/sockets/index.ts:582-584 | afterwards the name is no longer excluded; an absent name leaves the list unchanged; exactly the entries that do not match case-insensitively remain |
| RoomTypes.BanMissesPaddedName | niwot/api/src/sockets/index.ts:415 | a username ending in a space, banned through its trimmed form, still passes the join-time ban check |
| Rooms.HydratePlayers | niwot/api/src/sockets/index.ts:137-143 | one roster entry per stored member, disconnected, with 0 points, not ready, not answered, and the member's user id, username ("user" when missing) and profile image |
| Rooms.HydrateHostUserId | niwot/api/src/sockets/index.ts:147 | the stored owner id, else the stored host user id, else the first member's user id, else 0 |
| Rooms.HydrateParams | niwot/api/src/sockets/index.ts:121-135 | private when the visibility is "private" or the legacy private flag is set; fixed scoring when the point mode is "fixed" or the legacy scoring is "fixe"; maximum players, answer time, target points and proposals taken from the record or defaulted to 10, 15, 100 and true; approved questions only, no pre-countdown, a 5-second result delay, joining mid-quiz allowed |
| Rooms.HydrateThenRefresh | niwot/api/src/sockets/index.ts:121-135 | refreshing hydrated parameters with the settings read from the same record changes nothing |
| Rooms.HydrateDefaults | niwot/api/src/sockets/index.ts:121-135 | a stored room with no settings, legacy fields included, hydrates to the default parameters |
| Rooms.RoundWindow | niwot/api/src/sockets/index.ts:268-273 | the round starts now, or after the pre-countdown when there is one, and lasts the answer time, or 5 s when the answer time is shorter (neither case arises from config, hydration or the defaults, which keep the answer time at 5 s or more and the pre-countdown at 0) |
| Rooms.TimerMatchesWindow | niwot/api/src/sockets/index.ts:269-276 | for answer times of at least 5 s, the timer fires exactly at the announced end |
| Rooms.TimerDelayMs | niwot/api/src/sockets/index.ts:276 | the round timer's delay: the answer time, plus the pre-countdown when there is one, in milliseconds, never clamped to 5 s |
| Rooms.TimerBeatsShortWindow | niwot/api/src/sockets/index.ts:271-276 | for answer times under 5 s, the timer fires before the announced end |
| Rooms.Admit | niwot/api/src/sockets/index.ts:418-422 | a new user is appended with 0 points; a known user's entry is rebound (socket, name, avatar) and keeps its points; every other entry is untouched |
| Rooms.AdmitFindsJoiner | niwot/api/src/sockets/index.ts:418-422 | after admission the user is found at its old place, or last, and never twice |
| Rooms.Scorer | niwot/api/src/sockets/index.ts:666-667 | only the first entry bound to the socket, and only if it has not answered yet |
| Rooms.ScoreCorrect | niwot/api/src/sockets/index.ts:665-673 | the roster keeps its length |
| Rooms.ScoreCorrectSpec | niwot/api/src/sockets/index.ts:665-673 | the scorer is marked answered and gains the points for its answer order (the answered count including itself); nobody else changes; without a scorer nothing changes |
| Rooms.CountAfterMark | niwot/api/src/sockets/index.ts:668-670 | marking one more player answered raises the answer order by one |
| Rooms.ScoreOnce | niwot/api/src/sockets/index.ts:667 | a second correct answer from the same socket in a round scores nothing |
| Rooms.RoundEndEventsShape | niwot/api/src/sockets/index.ts:304-323 | proposals then the result always; with a winner (the first roster entry at the target) a win is recorded and the top three of the active players are announced, and nothing else; without one, the next draw is scheduled after the result delay (`max(0, resultDelaySec)` seconds) |
| Rooms.RoundEndEvents | niwot/api/src/sockets/index.ts:304-323 | three or four events: the proposals (never the answer), the result with the first finder or null and the author, and a scheduled draw last exactly when there is no winner |
| Rooms.DrawnEvents | niwot/api/src/sockets/index.ts:241-287 | one event, `quiz:ended` exactly when nothing is drawn |
| Rooms.DrawnEventsQuestion | niwot/api/src/sockets/index.ts:266-287 | a drawn question is broadcast to the room built with the uploads base, with the server time, the parameters and a window that opens no earlier than now and lasts the answer time (at least 5 s) |
| Rooms.ResultDelayMs | niwot/api/src/sockets/index.ts:321 | the delay before the next draw is the setting in milliseconds, and 0 for a negative setting |
| Rooms.Room.Ephemeral | niwot/api/src/sockets/index.ts:402-409 | a room created on the fly has the joining socket and user as host, default parameters, an empty roster, the lobby status and no timer |
| Rooms.Room.IsHostSocket | niwot/api/src/sockets/index.ts:58-62 | true exactly when the socket is the host socket or the first roster entry bound to it belongs to the host user |
| Rooms.Room.View | niwot/api/src/sockets/index.ts:94-106 | the room's code, host user, parameters and status, with one view per connected entry (which ones: RoomTypes.RoomPublicMembers) |
| Rooms.Room.Hydrated | niwot/api/src/sockets/index.ts:115-153 | a room rebuilt from the store has no host socket, the stored or derived host user, hydrated parameters (with the legacy private and scoring fallbacks) and roster, the lobby status and no timer |
| Rooms.Room.PublicProposals | niwot/api/src/sockets/index.ts:290-302 | the loop builds exactly the visible proposals |
| Rooms.Room.ClearAnsweredFlags | niwot/api/src/sockets/index.ts:264 | every roster entry has answered cleared |
| Rooms.Room.ResetScores | niwot/api/src/sockets/index.ts:605 | points and answered flags are zeroed for connected players only, or for everyone |
| Rooms.Room.NextQuestion | niwot/api/src/sockets/index.ts:241-287 | the events are `quiz:ended` alone with no question drawn, else the one `quiz:question` with the public question and the round window; with no question drawn, the quiz ends and nothing else changes; otherwise the question built with the uploads base is current, answered flags and proposals are cleared, the round window is set and the timer is pending for the countdown plus the raw answer time |
| Rooms.Room.OpenRound | niwot/api/src/sockets/index.ts:251-287 | the state a drawn question leaves, and the one `quiz:question` broadcast with its window |
| Rooms.Room.EndRound | niwot/api/src/sockets/index.ts:304-323 | nothing without a current question; otherwise the round-end events; a winner ends the quiz and schedules nothing, while no winner schedules one more draw (the draw event carries its delay) |
| Rooms.Room.FireRoundTimeout | niwot/api/src/sockets/index.ts:276 | the timer is marked fired and the question kept; without a question nothing else happens; otherwise the round-end events, and a winner ends the quiz while no winner schedules one more draw |
| Rooms.Room.FireNextDraw | niwot/api/src/sockets/index.ts:322 | one scheduled draw is consumed; no question ends the quiz with only `quiz:ended` and leaves the question, roster, proposals, first finder, window and timer as they were; a question opens a round without changing the status: the built question, the round window, an empty first finder and proposals, the timer armed, and one `quiz:question` |
| Rooms.Room.BindHost | niwot/api/src/sockets/index.ts:424-429 | with no host socket, the recorded host user reclaims it, or with no host user the joiner becomes host (and the owner is saved); otherwise nothing changes |
| Rooms.Room.CatchUp | niwot/api/src/sockets/index.ts:436-449 | a joiner of a running round receives the current question with the stored or fallback window, then the visible proposals; nothing outside a round |
| Rooms.Room.CatchUpEvents | niwot/api/src/sockets/index.ts:436-449 | nothing unless a round is running with a question; then the question to the joiner alone with the stored start (or now) and the stored end (or start plus the answer time), followed by the visible proposals to the joiner |
| Rooms.Room.Join | niwot/api/src/sockets/index.ts:415-434 | a banned name is refused with "banned" even for a returning user, and a new user in a room at capacity with "Salle pleine"; a refused join changes nothing; success exactly otherwise, with the roster admitted, and the results of Rooms.Room.Enter |
| Rooms.Room.Enter | niwot/api/src/sockets/index.ts:418-450 | the roster admits the joiner; a host-less room is reclaimed by its recorded host user, or taken when none is recorded (the owner is then saved first); any other case keeps the host; the events are that owner write, the room update and the private catch-up |
| Rooms.Room.Leave | niwot/api/src/sockets/index.ts:457-476 | the socket's first entry is disconnected; if it was the host user, the host passes to the first connected player, or host socket and host user are both cleared |
| Rooms.Room.Config | niwot/api/src/sockets/index.ts:479-498 | the parameters become the clamped configuration, whoever sends it |
| Rooms.Room.Evict | niwot/api/src/sockets/index.ts:526-535 | the target is disconnected; if it was the host user, the host passes to the first connected player (and the owner is saved), or only the host socket is cleared; the events are the earlier ones, that owner write, then the room update |
| Rooms.Room.Kick | niwot/api/src/sockets/index.ts:519-538 | a non-host gets "not_host" and an unknown user "user_not_found", both with no change; otherwise the target is evicted: a connected target is notified first, the host passes on as in Rooms.Room.Evict, and the room sees the update |
| Rooms.Room.Ban | niwot/api/src/sockets/index.ts:541-571 | as kick, and the trimmed name is added to the ban list, so a non-empty name is excluded afterwards; the list is saved first when it changed, then the connected target is notified, then the owner write and the update as in kick |
| Rooms.Room.Unban | niwot/api/src/sockets/index.ts:574-591 | a non-host gets "not_host" and a blank name "bad_username", both with no change; otherwise every case-insensitive match is removed |
| Rooms.Room.Start | niwot/api/src/sockets/index.ts:594-610 | a non-host gets "not_host" with no change to any field it may write; otherwise the parameters are refreshed, the room update and start events go out, connected players are reset and the first question is drawn: with none, the quiz ends after the two start events with only `quiz:ended` and the question, timer, proposals, first finder and window untouched; with one, the room is running with the built question, answered flags and proposals cleared, the round window and the timer, and the events end with its `quiz:question` |
| Rooms.Room.Launch | niwot/api/src/sockets/index.ts:599-605 | refreshed parameters, running status, connected players reset, and the two start events |
| Rooms.Room.Kickoff | niwot/api/src/sockets/index.ts:598-608 | the host's start past the host check: refreshed parameters, the two start events followed by the drawn events, connected players reset; with a question, a running round with its window and timer and empty proposals; with none, ended and nothing else changed |
| Rooms.Room.Restart | niwot/api/src/sockets/index.ts:613-635 | as start, but the timer and the round are cleared first and every player is reset: a non-host gets "not_host" with no change to any field it may write; with no question drawn the quiz ends with no question, no timer and no window, the proposals and first finder kept |
| Rooms.Room.Rewind | niwot/api/src/sockets/index.ts:619-629 | timer, current question and window cleared, running status, everyone reset |
| Rooms.Room.Rerun | niwot/api/src/sockets/index.ts:619-635 | the host's restart past the host check: as Kickoff, but every player is reset and, with no question, the question, window and timer are cleared |
| Rooms.Room.GotoLobby | niwot/api/src/sockets/index.ts:637-654 | a non-host gets "not_host" with no change to status, question, window or timer; otherwise the lobby status, no question, no window, no timer, and the room URL; a scheduled draw is not cancelled; the room stays well formed |
| Rooms.Room.ScoreGuess | niwot/api/src/sockets/index.ts:665-676 | scores exactly when the socket has an entry that has not answered, as `ScoreCorrect` does; the first finder is set only once |
| Rooms.Room.RecordGuess | niwot/api/src/sockets/index.ts:660-677 | the guess is always recorded; correct means equal to the answer or an alternative; only a correct guess can score, and the first scorer of the round becomes the first finder |
| Rooms.Room.PlayAnswer | niwot/api/src/sockets/index.ts:660-680 | the recorded guess, the scoring and the first finder; the room sees the update only when the guess scored, then the proposals |
| Rooms.Room.Answer | niwot/api/src/sockets/index.ts:656-685 | ignored entirely unless the room is running with a question; otherwise the normalised guess is recorded and scored, the first scorer becomes the first finder, and the update (when it scored) and the proposals are broadcast; when every connected player has answered and a timer is set, the timer is cleared and the round ends |
| Rooms.Room.CloseIfAllAnswered | niwot/api/src/sockets/index.ts:682-684 | the round ends exactly when someone is connected, every connected player has answered and a timer handle is set |
| Rooms.Room.TransferHost | niwot/api/src/sockets/index.ts:687-701 | a non-host gets "not_host", and a target without a live socket "target_not_connected", both with no change; otherwise the target's socket and user become host; the room stays well formed |
| Rooms.Room.Disconnect | niwot/api/src/sockets/index.ts:705-710 | every entry bound to the socket loses it, the host socket is cleared if it was this one, and the host user never changes |
| Registry.RoomUrl | niwot/api/src/sockets/index.ts:74-76 | the quiz page for a running room, the room page otherwise |
| Registry.CodeLeTotal | niwot/api/src/sockets/index.ts:90 | the code tie-break compares any two codes |
| Registry.CodeLeTrans | niwot/api/src/sockets/index.ts:90 | the code tie-break is transitive |
| Registry.CodeLeAntisym | niwot/api/src/sockets/index.ts:90 | the code tie-break is antisymmetric |
| Registry.CodeLe | niwot/api/src/sockets/index.ts:90 | code order: a prefix sorts first, and a code sorts first only if its first character is not greater |
| Registry.SnapshotCompare | niwot/api/src/sockets/index.ts:87-91 | as written: different statuses give a negative result exactly when the first room runs; equal statuses order by players descending, then by code, zero only for equal codes |
| Registry.CodeCompare | niwot/api/src/sockets/index.ts:90 | zero exactly for equal codes; negative only when the first code sorts first |
| Registry.SnapshotCompareInconsistent | niwot/api/src/sockets/index.ts:87-91 | the comparator as written puts each of a lobby room and an ended room after the other |
| Registry.SnapshotBeforeIsPreorder | niwot/api/src/sockets/index.ts:86-91 | running rooms first, then players descending, then code ascending, is a total preorder |
| Registry.SnapshotBeforeAgrees | niwot/api/src/sockets/index.ts:87-91 | wherever the written comparator is consistent (same status, or one room running), it orders as the corrected order does |
| Registry.MissingRoomAck | niwot/api/src/sockets/index.ts:455-689 | for an unknown code, `quiz:answer` stays silent, only leave succeeds, config answers "Salle introuvable", and the other handlers answer "room_not_found" in their own shape; join is not among them, since it opens the room (Registry.Registry.Join) |
| Registry.Registry.constructor | niwot/api/src/sockets/index.ts:55 | an empty room map |
| Registry.Registry.Find | niwot/api/src/sockets/index.ts:399-400 | the room stored under the upper-cased code, if any |
| Registry.Registry.Join | niwot/api/src/sockets/index.ts:398-434 | the room under the upper-cased code is reused, or a hydrated or ephemeral one is added at the end of the iteration order; an ephemeral room has the default parameters, the joiner as host and admits them; a hydrated one has the stored parameters, legacy fallbacks included, and admits exactly as its roster of members allows; on success the joiner's entry holds its socket |
| Registry.Registry.Open | niwot/api/src/sockets/index.ts:400-411 | an existing room is returned untouched; otherwise a fresh lobby is stored under the key and appended to the order: hydrated (no host socket, the recorded owner or host user, the stored parameters with their legacy fallbacks, the members disconnected) or ephemeral (the joiner as host, the default parameters, no players) |
| Registry.Registry.JoinIn | niwot/api/src/sockets/index.ts:415-434 | the stored room's join: success exactly when the name is not banned and the user is known or there is room; the roster is admitted on success and unchanged otherwise; parameters and status stay; a bound host socket stays |
| Registry.Registry.DisconnectIn | niwot/api/src/sockets/index.ts:706-709 | one room's share of a disconnect: only that room's roster and host socket may change, and they become the unbound ones; its host user stays |
| Registry.Registry.DisconnectFrom | niwot/api/src/sockets/index.ts:705-710 | the rooms from a position of the insertion order on are unbound, the ones before it are untouched, and nothing but rosters and host sockets changes |
| Registry.Registry.Disconnect | niwot/api/src/sockets/index.ts:703-711 | every room unbinds the socket from its roster and host socket and keeps its host user; only rosters and host sockets change; the events are one room update per room, in insertion order, each with that room's new state |
| Registry.Registry.Updates | niwot/api/src/sockets/index.ts:709 | one room update per listed code, in order, each with that room's current public view |
| Registry.Registry.SummaryOf | niwot/api/src/sockets/index.ts:68-84 | the code, status, URL and connected-player count of one room |
| Registry.Registry.Summaries | niwot/api/src/sockets/index.ts:67-85 | only public rooms, each with its URL, and every public room among the codes is listed |
| Registry.Registry.SnapshotPublicRooms | niwot/api/src/sockets/index.ts:65-92 | a permutation of the public rooms' summaries, sorted by the corrected order: every listed room is public and every public room is listed |
| RoomsHttp.CodeIndex | niwot/api/src/routes/rooms.ts:13 | every code character has a place in the alphabet |
| RoomsHttp.AlphabetIndex | niwot/api/src/routes/rooms.ts:13 | every alphabet character is an upper-case letter or digit, found at its own place |
| RoomsHttp.Code6 | niwot/api/src/routes/rooms.ts:12-15 | six characters, each from A-Z0-9 |
| RoomsHttp.Code6Injective | niwot/api/src/routes/rooms.ts:12-15 | different draws give different codes |
| RoomsHttp.Code6Onto | niwot/api/src/routes/rooms.ts:12-15 | every six-character A-Z0-9 code can be drawn |
| RoomsHttp.GenCodeUnique | niwot/api/src/routes/rooms.ts:16-22 | returns only a well-formed code the store does not hold, drawn in one of the attempts; none exactly when every attempt was taken |
| RoomsHttp.MemberOut | niwot/api/src/routes/rooms.ts:35-41 | id, ready and host flags copied; name "" and no image for a member without a user |
| RoomsHttp.Serialize | niwot/api/src/routes/rooms.ts:29-53 | youAreHost exactly when the room's host id is the requester; one member view per member; missing lists become empty; visibility, maximum players, answer time, target points, point mode and proposals flag copied from the row |
| RoomsHttp.CreateName | niwot/api/src/routes/rooms.ts:62 | the trimmed name cut to 80 characters, or "Salle de <username>" for a missing or blank name; never empty |
| RoomsHttp.VisibilityOf | niwot/api/src/routes/rooms.ts:63 | private exactly for "private" |
| RoomsHttp.CreateRoom | niwot/api/src/routes/rooms.ts:56-89 | 401 exactly for an unknown user; otherwise the room has the drawn code, the creator as host and the default settings |
| RoomsHttp.CreatorIsHost | niwot/api/src/routes/rooms.ts:65-89 | the created room's only member is its host, and the creator sees youAreHost |
| RoomsHttp.HttpJoin | niwot/api/src/routes/rooms.ts:93-125 | 401 for an unknown user, 404 for an unknown room, 403 for an excluded name and 409 for a new member of a full room; an existing member is never re-added; a new one is appended as a non-host |
| RoomsHttp.HttpJoinIdempotent | niwot/api/src/routes/rooms.ts:110-117 | joining twice equals joining once |
| RoomsHttp.Ranged | niwot/api/src/routes/rooms.ts:165 | a value is kept only if finite and within the bounds, as its integer part |
| RoomsHttp.FiniteOnly | niwot/api/src/routes/rooms.ts:167 | exactly the finite category ids remain |
| RoomsHttp.BuildPatch | niwot/api/src/routes/rooms.ts:162-171 | each field is set only when sent: a non-empty name trimmed and cut to 80; maxPlayers in [2,16], answerTimeSec in [5,60] and targetPoints in [50,500], out-of-range dropped; non-finite categories dropped; visibility private and mode fixed only for those exact words |
| RoomsHttp.ApplyPatch | niwot/api/src/routes/rooms.ts:173 | absent fields keep their stored value; code, host and members never change |
| RoomsHttp.HttpPatch | niwot/api/src/routes/rooms.ts:155-176 | 404 for an unknown room; 403 for a non-host with no update; success exactly for the host; each numeric field takes the body value when it is finite and in range (cut to an integer) and is kept otherwise; a non-empty name is trimmed and cut to 80, so a name of spaces is stored as ""; visibility and point mode follow a non-empty value; showProposals, the ban list and the finite categories replace the stored ones when present |
| Questions.NormalizedAll | niwot/api/src/routes/questions.ts:44-45 | each alternative normalised in place |
| Questions.Alternatives | niwot/api/src/routes/questions.ts:44-46 | no stored alternative is empty or equal to the answer |
| Questions.AlternativesMembers | niwot/api/src/routes/questions.ts:44-46 | a string is stored exactly when it is a non-empty normalised alternative different from the answer |
| Questions.AlternativesAreNormal | niwot/api/src/routes/questions.ts:44-46 | every stored alternative is already in normal form |
| Questions.StatusFor | niwot/api/src/routes/questions.ts:47 | approved exactly for admins, never refused |
| Questions.Suggest | niwot/api/src/routes/questions.ts:37-66 | a missing field gives 400 "Champs manquants", then a type other than CITATION or IMAGE gives 400 "Type invalide"; a stored question keeps the text, explanation and category ids, has the role's status, a normalised answer and the normalised alternatives without blanks or the answer; citation text (or "") only for CITATION; an image path only for IMAGE with an upload |
| Questions.DigitsValue | niwot/api/src/routes/questions.ts:77 | the empty digit string is 0 |
| Questions.DigitsValueAppend | niwot/api/src/routes/questions.ts:77 | a digit appended multiplies the value by ten and adds the digit |
| Questions.DigitsValueLeadingZero | niwot/api/src/routes/questions.ts:77 | a leading zero does not change the value |
| Questions.DigitsValueZero | niwot/api/src/routes/questions.ts:77 | a digit string is worth 0 exactly when all its digits are 0 |
| Questions.PieceNumber | niwot/api/src/routes/questions.ts:77 | a blank piece converts to 0 |
| Questions.Numbers | niwot/api/src/routes/questions.ts:77 | one conversion per piece |
| Questions.NonZero | niwot/api/src/routes/questions.ts:77 | exactly the numbers other than 0 remain; NaN is dropped |
| Questions.CategoryIds | niwot/api/src/routes/questions.ts:77 | the ids are exactly the non-zero numbers among the comma-separated pieces |
| Questions.QuestionsWhere | niwot/api/src/routes/questions.ts:72-79 | the status filter applies exactly for a non-empty status; the category filter applies exactly when some id remains |
| Questions.ZerosDoNotFilter | niwot/api/src/routes/questions.ts:76-78 | a list of zeros and non-numbers adds no category filter |
| Questions.NoIdsFromZeros | niwot/api/src/routes/questions.ts:77 | zeros and non-numbers leave no id |
| Leaderboard.LeaderLeIsPreorder | niwot/api/src/routes/leaderboard.ts:22 | wins descending (missing as 0), then createdAt ascending, then id ascending, is a total preorder |
| Leaderboard.LeaderLeTrans | niwot/api/src/routes/leaderboard.ts:22 | that order is transitive |
| Leaderboard.LeaderLeAntisymmetric | niwot/api/src/routes/leaderboard.ts:22 | two rows each ranked before the other agree on wins, createdAt and id |
| Leaderboard.SwapDown | niwot/api/src/routes/leaderboard.ts:22 | one swap moves the inserted row one place down and keeps the rows |
| Leaderboard.SinkDone | niwot/api/src/routes/leaderboard.ts:22 | once the inserted row is in place the prefix is sorted |
| Leaderboard.Sink | niwot/api/src/routes/leaderboard.ts:22 | inserting one row extends the sorted prefix by one and keeps the rows |
| Leaderboard.SortLeaders | niwot/api/src/routes/leaderboard.ts:22 | the array is sorted in place and is a permutation of the input |
| Leaderboard.Leaders | niwot/api/src/routes/leaderboard.ts:22-24 | min(10, n) rows, sorted, taken from the input; any row left out ranks after all ten returned |
| Leaderboard.PrefixOfSorted | niwot/api/src/routes/leaderboard.ts:24 | the first ten of a sorted list are rows of it, and every row left out ranks after them |
| Leaderboard.IdCounts | niwot/api/src/routes/leaderboard.ts:44-46 | exactly the rows with a creator, as (id, count) |
| Leaderboard.UsersById | niwot/api/src/routes/leaderboard.ts:56 | every user is found under its id, and every entry is a user with that id |
| Leaderboard.Known | niwot/api/src/routes/leaderboard.ts:59 | exactly the counts whose id has a user |
| Leaderboard.CountLeIsPreorder | niwot/api/src/routes/leaderboard.ts:60 | count descending then id ascending is a total preorder |
| Leaderboard.RankProposers | niwot/api/src/routes/leaderboard.ts:44-65 | at most ten proposers; none when no row has a creator |
| Leaderboard.ProposersJoined | niwot/api/src/routes/leaderboard.ts:58-65 | every proposer comes from a row with a creator and carries that user's name and image and that row's count |
| Leaderboard.IdCountsEmpty | niwot/api/src/routes/leaderboard.ts:44-48 | nothing to rank exactly when no row has a creator |
| Leaderboard.ProposersSorted | niwot/api/src/routes/leaderboard.ts:60-61 | proposers by count descending, then id ascending |
| Leaderboard.ProposersTopTen | niwot/api/src/routes/leaderboard.ts:58-61 | a known proposer left out means ten were returned, all ranked at least as high |
| Misc.Proposers | niwot/api/src/routes/misc.ts:27-48 | at most ten; none when no row has a creator; each from a row with a creator; sorted by count descending then id |
| Normalize.DecomposeChar | niwot/api/src/utils/normalize.ts:4 | ASCII letters and digits decompose to themselves |
| Normalize.Canonical | niwot/api/src/utils/normalize.ts:3-7 | for any decomposition and mark class, the output is upper-case letters and digits |
| Normalize.NormalizeAnswer | niwot/api/src/utils/normalize.ts:1-8 | the empty input gives ""; every output character is in [0-9A-Z] |
| Normalize.NormalizeIdempotent | niwot/api/src/utils/normalize.ts:3-7 | normalising twice equals normalising once |
| Normalize.MarkStripInvisible | niwot/api/src/utils/normalize.ts:5-6 | removing marks before keeping letters and digits changes nothing when no mark is a letter or digit |
| Normalize.CanonicalIgnoresMarks | niwot/api/src/utils/normalize.ts:4-7 | the result depends on the decomposition only, not on which mark class is stripped |
| Normalize.DecomposeKeepsCanonical | niwot/api/src/utils/normalize.ts:4 | decomposition leaves a normalised answer unchanged |
| Media.UploadsBase | niwot/web/src/lib/media.ts:4 | the configured base when it is non-empty, else the default |
| Media.AbsoluteMediaUrl | niwot/web/src/lib/media.ts:1-6 | null exactly for a missing or empty path; an http(s) URL (any case) is kept; otherwise base, one '/', then the path; an http base gives an http URL |
| Media.AvatarUrl | niwot/web/src/lib/media.ts:7-14 | never empty; the fallback for a missing or blank path; otherwise the absolute URL |
| Media.HttpUrlNotBlank | niwot/web/src/lib/media.ts:8-10 | an http URL is never blank |
| Media.FallbackIsHttp | niwot/web/src/lib/media.ts:13 | the fallback avatar is an https URL |
| Media.AvatarUrlIsHttp | niwot/web/src/lib/media.ts:7-14 | with an http base, every avatar URL is an http URL |
| Media.AvatarUrlIdempotent | niwot/web/src/lib/media.ts:7-14 | with an http base, applying `avatarUrl` to its own result changes nothing |
| Admin.ParseStatus | niwot/api/src/routes/admin.ts:36-44 | accepted exactly for the three statuses, and anything else gives 400 "Statut invalide" |
| Admin.StatusRoundTrip | niwot/api/src/routes/admin.ts:39 | every status's name parses back to it |
| Admin.CategoryName | niwot/api/src/routes/admin.ts:81 | 400 "Nom requis" exactly for a missing or blank name; otherwise the trimmed name, non-empty and without outer spaces |
| Admin.CreateCategory | niwot/api/src/routes/admin.ts:79-99 | a blank name gives 400 and a duplicate 409; it succeeds exactly otherwise, with the trimmed name and its slug |
| Admin.RenameCategory | niwot/api/src/routes/admin.ts:101-125 | a blank name gives 400, a duplicate 409 and a missing category 404; success exactly otherwise, with the trimmed name and its slug |
| Admin.DropNonSlug | niwot/api/src/routes/admin.ts:60 | what remains starts with a slug character |
| Admin.Dashify | niwot/api/src/routes/admin.ts:60 | only [a-z0-9-] with no two dashes in a row; empty exactly for empty input; leads with a dash exactly when the input leads with a non-slug character |
| Admin.DropLeadingDashes | niwot/api/src/routes/admin.ts:61 | a suffix that does not start with '-' |
| Admin.DropTrailingDashes | niwot/api/src/routes/admin.ts:61 | a prefix that does not end with '-' |
| Admin.SliceSlugShaped | niwot/api/src/routes/admin.ts:61 | any slice of a slug-shaped string is slug-shaped |
| Admin.Finish | niwot/api/src/routes/admin.ts:61 | slug-shaped, not starting with '-', at most 60 characters |
| Admin.Slugify | niwot/api/src/routes/admin.ts:57-62 | only [a-z0-9-] with no two dashes in a row; never starts with '-'; at most 60 characters |
| Admin.SlugifyIdempotent | niwot/api/src/routes/admin.ts:57-62 | a slug that does not end with '-' is its own slug |
| Admin.SlugCutMayEndWithDash | niwot/api/src/routes/admin.ts:61 | the cut at 60 runs after the dash stripping, so a slug can end with '-' |
| AuthMiddleware.ExtractToken | niwot/api/src/middleware/auth.ts:9-16 | the `token` cookie if non-empty, else the `niwot_token` cookie if non-empty, else the text after "Bearer ", else none |
| AuthMiddleware.BearerRoundTrip | niwot/api/src/middleware/auth.ts:13-14 | with no cookies, "Bearer " + t yields t |
| AuthMiddleware.Request.StampUser | niwot/api/src/middleware/auth.ts:18-22 | userId, role and user are all taken from the one payload |
| AuthMiddleware.RequireAuth | niwot/api/src/middleware/auth.ts:24-34 | no token, an empty one, or a failed verification gives 401 and leaves the request unstamped; otherwise the request is stamped and passed on |
| AuthMiddleware.RequireAdmin | niwot/api/src/middleware/auth.ts:36-47 | as requireAuth, except that a verified non-admin gets 403 and is not stamped; passes exactly for a verified admin with a non-empty token |
| AuthRoutes.Test | niwot/api/src/routes/auth.ts:33 | a class test holds exactly when some character is in the class |
| AuthRoutes.ValidatePassword | niwot/api/src/routes/auth.ts:32-34 | holds exactly when there is an upper-case ASCII letter, a lower-case ASCII letter and at least 8 characters |
| AuthRoutes.ValidatePasswordExtends | niwot/api/src/routes/auth.ts:32-34 | a valid password stays valid when extended |
| AuthRoutes.Register | niwot/api/src/routes/auth.ts:46-60 | guards in order: missing field, mismatch, weak password, taken name (409); each is reached only after the earlier ones pass; success makes a plain user whose avatar is "/uploads/" plus the uploaded file name, or none |
| AuthRoutes.Login | niwot/api/src/routes/auth.ts:66-75 | a missing field gives 400; an unknown user and a wrong password both give 401 "Identifiants invalides"; success exactly otherwise |
| AuthRoutes.LoginHidesWhichFailed | niwot/api/src/routes/auth.ts:71-73 | an unknown name and a wrong password give the same response |
| AuthRoutes.MeToken | niwot/api/src/routes/auth.ts:88 | the middleware's token extraction with no `token` cookie |
| AuthRoutes.Me | niwot/api/src/routes/auth.ts:86-96 | no token, an empty one, or a failed verification gives a null user; with a non-empty token that verifies, the user is the stored one under the payload's id (null when none) |
| Logout.Segments | niwot/web/src/pages/api/logout.ts:9 | at least one segment; no segment contains ';' |
| Logout.NameOf | niwot/web/src/pages/api/logout.ts:9 | the text before the first '=' |
| Logout.NonEmptyNames | niwot/web/src/pages/api/logout.ts:9 | exactly the non-empty segment names |
| Logout.Dedup | niwot/web/src/pages/api/logout.ts:8-10 | no repeats, same members |
| Logout.DedupPrefix | niwot/web/src/pages/api/logout.ts:8-10 | first occurrences keep their order: deduplicating a prefix gives a prefix of the result |
| Logout.CookieNames | niwot/web/src/pages/api/logout.ts:7-10 | distinct, non-empty names without '=', exactly the names of the header's segments |
| Logout.Render | niwot/web/src/pages/api/logout.ts:22-23 | a Set-Cookie value starts with the name and '=' |
| Logout.Block | niwot/web/src/pages/api/logout.ts:20-24 | six expiries per name |
| Logout.BlockPair | niwot/web/src/pages/api/logout.ts:20-24 | for each of the three domains, a Lax expiry followed by a None expiry |
| Logout.Purged | niwot/web/src/pages/api/logout.ts:19-25 | six expiries per name |
| Logout.PurgedAt | niwot/web/src/pages/api/logout.ts:19-25 | the expiries of the i-th name sit at places 6i to 6i+5 |
| Logout.PurgeCookies | niwot/web/src/pages/api/logout.ts:18-25 | the nested loops push exactly the rendered expiries, in order |
| Logout.LaxCleared | niwot/web/src/pages/api/logout.ts:22 | every name gets a Lax expiry for every domain |
| Logout.NoneCleared | niwot/web/src/pages/api/logout.ts:23 | every name gets a None expiry for every domain |
| Logout.HandleLogout | niwot/web/src/pages/api/logout.ts:3-32 | always 302 to `next`, else "/"; no Set-Cookie header exactly when the header has no names; otherwise the six expiries per name |

## Left out

- Socket.IO transport (rooms, acknowledgement callbacks, `socket.join/leave/disconnect`): events and acknowledgements are returned values; whether a target socket exists is not modelled, so a kick notification names the target's id.
- Timers and the clock: `setTimeout`/`clearTimeout` are the `timeout` field and the `pendingDraws` counter. Arming the post-round draw is the `DrawScheduled` event, which carries its delay. `Date.now()` is a parameter.
- Prisma and raw SQL: the question draw, hydration and settings refresh are parameters. Store writes are events, and their failures are swallowed in the source, so they have no effect here.
- The question draw's two strategies (Prisma count/skip, then the SQL fallback) are not modelled: only the drawn question, or none, reaches the model.
- Async interleaving across `await`: each handler runs as one atomic step.
- `profile:update`, `decodeBase64Image`, `auth:hello` and the `socketUsers` map: file writes, base64, hashing and a map the core never reads.
- JWT signing and verification, bcrypt, multer and cookie issuing: verification and password checks are parameters (`verified`, `passwordMatches`, `found`), and the upload is its file name.
- Unicode: NFD is a partial table of precomposed Latin letters, and the mark classes are code-point ranges. Case mapping is ASCII only.
- `Number()` coercion: category pieces are digit strings (a non-digit piece is NaN); PATCH numbers are finite reals or non-finite; other numeric inputs are integers.
- Sorting: `Array.prototype.sort` is modelled as a sort by a total preorder. Where the source relies on stability (the top three), the roster position is part of the order. The one inconsistent comparator is listed under Findings.
- `routes/users.ts`, `routes/categories.ts`, the category listings, the DELETE routes, `prisma/seed.ts`, `index.ts` and the web pages are not part of this model.
- `GET /rooms/:code` and `GET /rooms/public` are covered only through `RoomsHttp.Serialize` and `Registry.Registry.SnapshotPublicRooms`.
- RoomsHttp.GenCodeUnique: the endless retry is bounded by a finite list of draws, and it returns none when every draw is taken.
- Admin.SlugifyIdempotent: requires a slug that does not end with '-', because a cut at 60 can leave a trailing dash (Admin.SlugCutMayEndWithDash).
- Registry.Registry.Disconnect: the handler's loop over the rooms is the recursion DisconnectFrom, and the room updates are gathered by Updates after the unbinding pass instead of between rooms. Rooms share no state, so each update carries the view it would have carried in the loop; only the interleaving of emits and writes is not modelled.
- Kick and ban end with `s.disconnect(true)` on the target socket (niwot/api/src/sockets/index.ts:528 and 561), which runs the disconnect handler (niwot/api/src/sockets/index.ts:703-710) for that socket in every room. Rooms.Room.Kick and Rooms.Room.Ban return the notice only; the handler is Registry.Registry.Disconnect, and the model does not chain the two.
- String lengths: JavaScript's `.length` and `.slice` count UTF-16 code units, while a `string` here is a sequence of code points. AuthRoutes.ValidatePassword, RoomsHttp.CreateName and RoomsHttp.BuildPatch therefore differ from the source on text outside the Basic Multilingual Plane. For example, "Aa😀😀😀" is 8 units long, so the source accepts it as a password, but it is 5 characters here, so the model rejects it.
- Registry.CodeLe: `localeCompare` is modelled as code-point order. The two agree on codes made only of A-Z and 0-9, which covers every generated code. But room:join opens an ephemeral room under any upper-cased code, and on such codes the locale's collation (accents, punctuation, digits against letters) can order rooms differently.
- Leaderboard.Leaders: its input is the rows the store returns, at most 100 of them, fetched by wins ascending (niwot/api/src/routes/leaderboard.ts:15-19). The query is a parameter and is not modelled. With more than 100 users, the source ranks only the hundred users with the fewest wins.
- Questions.Suggest: the 500 answer is not modelled. It is caused by a thrown exception (malformed JSON in `alternatives` or `categoryIds`, or a store failure), and the parsed fields are parameters here.
- Registry.Registry.JoinIn: states the admission result, the roster, and that a bound host socket stays; the host binding of a host-less room and the events are stated by Rooms.Room.Join and Rooms.Room.Enter.

## Findings

| source | as written | input that shows it | evidently intended | confidence | as-written member | corrected member |
|---|---|---|---|---|---|---|
| niwot/api/src/sockets/index.ts:87-91 | the comparator returns 1 for any two rooms of different statuses where the first is not running, so a lobby room and an ended room each sort after the other and the order depends on the engine | a public lobby room "AAAAAA" and a public ended room "BBBBBB", both empty | running rooms first, then players descending, then code ascending, a consistent total preorder | not executed | Registry.SnapshotCompareInconsistent | Registry.SnapshotBeforeIsPreorder |

=== FILE: admin.dfy ===
/**
 * The administration routes (niwot/api/src/routes/admin.ts): the question
 * status whitelist, the category-name guard of create and rename, and
 * `slugify`. Every route sits behind the admin check; the store calls are
 * parameters or left out.
 */
module Admin {
  import opened Wrappers
  import opened Text
  import Normalize
  import RoomTypes
  import Questions

  // ---------------------------------------------------------------------
  // PATCH /questions/:id

  function StatusName(s: Questions.QuestionStatus): string {
    match s
    case AwaitingApproval => "awaiting_approval"
    case Approved => "approved"
    case Refused => "refused"
  }

  /** The body's `status`, accepted only when it is one of the three names; anything else is 400. */
  function ParseStatus(status: string): (r: Result<Questions.QuestionStatus>)
    ensures r.Ok? <==> status in ["awaiting_approval", "approved", "refused"]
    ensures r.Ok? ==> StatusName(r.value) == status
    ensures r.Err? ==> r == Err(400, "Statut invalide")
  {
    if status == "awaiting_approval" then Ok(Questions.AwaitingApproval)
    else if status == "approved" then Ok(Questions.Approved)
    else if status == "refused" then Ok(Questions.Refused)
    else Err(400, "Statut invalide")
  }

  /** Every status is accepted under its own name, and only under it. */
  lemma StatusRoundTrip(s: Questions.QuestionStatus)
    ensures ParseStatus(StatusName(s)) == Ok(s)
  {
  }

  // ---------------------------------------------------------------------
  // POST /categories and PUT /categories/:id

  /** The name guard shared by create and rename: 400 when missing or blank, else the trimmed name. */
  function CategoryName(name: Option<string>): (r: Result<string>)
    ensures r.Err? <==> name.None? || IsBlank(name.value)
    ensures r.Err? ==> r == Err(400, "Nom requis")
    ensures r.Ok? ==> r.value == Trim(name.value) && r.value != ""
    ensures r.Ok? ==> !IsSpace(r.value[0]) && !IsSpace(r.value[|r.value| - 1])
  {
    if name.None? || name.value == "" || Trim(name.value) == "" then Err(400, "Nom requis")
    else Ok(Trim(name.value))
  }

  /** What the store reports for a category write. */
  datatype StoreOutcome = Stored | UniqueViolation | RecordMissing

  /** A category as returned: the stored (trimmed) name and the slug of the name as sent. */
  datatype CategoryReply = CategoryReply(name: string, slug: string)

  /** POST /categories: the guard, then 409 when the name is taken. */
  function CreateCategory(name: Option<string>, duplicate: bool): (r: Result<CategoryReply>)
    ensures CategoryName(name).Err? ==> r == Err(400, "Nom requis")
    ensures CategoryName(name).Ok? && duplicate ==> r == Err(409, "Catégorie déjà existante")
    ensures r.Ok? <==> CategoryName(name).Ok? && !duplicate
    ensures r.Ok? ==> r.value.name == Trim(name.value) && r.value.slug == Slugify(name.value)
  {
    match CategoryName(name)
    case Err(s, m) => Err(s, m)
    case Ok(n) => if duplicate then Err(409, "Catégorie déjà existante") else Ok(CategoryReply(n, Slugify(name.value)))
  }

  /** PUT /categories/:id: the guard, then 409 for a taken name and 404 for an unknown id. */
  function RenameCategory(name: Option<string>, outcome: StoreOutcome): (r: Result<CategoryReply>)
    ensures CategoryName(name).Err? ==> r == Err(400, "Nom requis")
    ensures CategoryName(name).Ok? && outcome == UniqueViolation ==> r == Err(409, "Catégorie déjà existante")
    ensures CategoryName(name).Ok? && outcome == RecordMissing ==> r == Err(404, "Catégorie introuvable")
    ensures r.Ok? <==> CategoryName(name).Ok? && outcome == Stored
    ensures r.Ok? ==> r.value.name == Trim(name.value) && r.value.slug == Slugify(name.value)
  {
    match CategoryName(name)
    case Err(s, m) => Err(s, m)
    case Ok(n) =>
      match outcome
      case UniqueViolation => Err(409, "Catégorie déjà existante")
      case RecordMissing => Err(404, "Catégorie introuvable")
      case Stored => Ok(CategoryReply(n, Slugify(name.value)))
  }

  // ---------------------------------------------------------------------
  // slugify

  predicate IsSlugChar(c: char) { IsLower(c) || IsDigit(c) }

  /** Every character is `[a-z0-9-]` and no two dashes are adjacent. */
  predicate SlugShaped(s: string) {
    && (forall i :: 0 <= i < |s| ==> IsSlugChar(s[i]) || s[i] == '-')
    && (forall i :: 0 <= i < |s| - 1 ==> s[i] != '-' || s[i + 1] != '-')
  }

  /** Drops the leading characters outside `[a-z0-9]`. */
  function DropNonSlug(s: string): (r: string)
    ensures |r| <= |s|
    ensures r == [] || IsSlugChar(r[0])
  {
    if s != [] && !IsSlugChar(s[0]) then DropNonSlug(s[1..]) else s
  }

  /** `.replace(/[^a-z0-9]+/g, "-")`: every run of other characters becomes one dash. */
  function Dashify(s: string): (r: string)
    ensures SlugShaped(r)
    ensures r == [] <==> s == []
    ensures r != [] ==> (r[0] == '-' <==> !IsSlugChar(s[0]))
    decreases |s|
  {
    if s == [] then []
    else if IsSlugChar(s[0]) then [s[0]] + Dashify(s[1..])
    else "-" + Dashify(DropNonSlug(s[1..]))
  }

  /** `.replace(/^-+/, "")`. */
  function DropLeadingDashes(s: string): (r: string)
    ensures |r| <= |s| && r == s[|s| - |r|..]
    ensures r == [] || r[0] != '-'
  {
    if s != [] && s[0] == '-' then DropLeadingDashes(s[1..]) else s
  }

  /** `.replace(/-+$/, "")`. */
  function DropTrailingDashes(s: string): (r: string)
    ensures |r| <= |s| && r == s[..|r|]
    ensures r == [] || r[|r| - 1] != '-'
  {
    if s != [] && s[|s| - 1] == '-' then DropTrailingDashes(s[..|s| - 1]) else s
  }

  /** A slice of a slug-shaped text is slug-shaped. */
  lemma SliceSlugShaped(s: string, i: int, j: int)
    requires SlugShaped(s) && 0 <= i <= j <= |s|
    ensures SlugShaped(s[i..j])
  {
    var t := s[i..j];
    forall k | 0 <= k < |t| - 1 ensures t[k] != '-' || t[k + 1] != '-' {
      assert t[k] == s[i + k] && t[k + 1] == s[i + k + 1];
    }
  }

  /** `.normalize("NFD").replace(/\p{Diacritic}+/gu, "").toLowerCase()`. */
  function Prepared(name: string): string {
    ToLower(Filter(Normalize.Decompose(name), RoomTypes.NotDiacritic))
  }

  /** Dashes stripped from both ends, then `.slice(0, 60)`. */
  function Finish(d: string): (r: string)
    requires SlugShaped(d)
    ensures SlugShaped(r)
    ensures r == [] || r[0] != '-'
    ensures |r| <= 60
  {
    var lead := DropLeadingDashes(d);
    var both := DropTrailingDashes(lead);
    SliceSlugShaped(d, |d| - |lead|, |d|);
    SliceSlugShaped(lead, 0, |both|);
    SliceSlugShaped(both, 0, |Prefix(both, 60)|);
    Prefix(both, 60)
  }

  /**
   * slugify: NFD, diacritics removed, lower-cased, runs of other characters
   * turned into one dash, dashes stripped from both ends, cut to 60 characters.
   */
  function Slugify(name: string): (r: string)
    ensures SlugShaped(r)
    ensures r == [] || r[0] != '-'
    ensures |r| <= 60
  {
    Finish(Dashify(Prepared(name)))
  }

  /** A slug that does not end with a dash is its own slug. */
  lemma SlugifyIdempotent(name: string)
    requires Slugify(name) == [] || Slugify(name)[|Slugify(name)| - 1] != '-'
    ensures Slugify(Slugify(name)) == Slugify(name)
  {
    var s := Slugify(name);
    PreparedKeepsSlug(s);
    DashifyKeepsSlug(s);
    assert DropLeadingDashes(s) == s;
    assert DropTrailingDashes(s) == s;
  }

  /**
   * The cut to 60 characters comes after the dashes are stripped, so it can
   * leave one at the end: 59 letters, a space and a letter give the 59
   * letters and a dash.
   */
  lemma SlugCutMayEndWithDash(t: string)
    requires |t| == 59 && forall i :: 0 <= i < |t| ==> IsLower(t[i])
    ensures Slugify(t + " b") == t + "-"
  {
    PreparedLetters(t);
    DashifyAppendSlug(t, " b");
    DashifySpaceB();
    var d := t + "-b";
    assert DropLeadingDashes(d) == d;
    assert DropTrailingDashes(d) == d;
    assert Prefix(d, 60) == t + "-";
  }

  lemma DashifySpaceB()
    ensures Dashify(" b") == "-b"
  {
    assert " b"[1..] == "b";
    assert DropNonSlug("b") == "b";
    assert "b"[1..] == "";
  }

  /** Lower-case letters, then a space and a 'b', come through the first three stages unchanged. */
  lemma PreparedLetters(t: string)
    requires forall i :: 0 <= i < |t| ==> IsLower(t[i])
    ensures Prepared(t + " b") == t + " b"
  {
    DecomposeLetters(t);
    FilterLetters(t);
    var s := t + " b";
    assert ToLower(s) == s;
  }

  lemma DecomposeLetters(t: string)
    requires forall i :: 0 <= i < |t| ==> IsLower(t[i])
    ensures Normalize.Decompose(t + " b") == t + " b"
  {
    assert SlugShaped(t);
    DecomposeAppend(t, " b");
    DecomposeKeepsSlug(t);
    DecomposeSpaceB();
  }

  lemma DecomposeSpaceB()
    ensures Normalize.Decompose(" b") == " b"
  {
    DecomposeAscii(' ');
    DecomposeAscii('b');
    assert " b"[1..] == "b";
    assert "b"[1..] == "";
  }

  lemma FilterLetters(t: string)
    requires forall i :: 0 <= i < |t| ==> IsLower(t[i])
    ensures Filter(t + " b", RoomTypes.NotDiacritic) == t + " b"
  {
    FilterAppend(t, " b", RoomTypes.NotDiacritic);
    FilterKeepsLetters(t);
    FilterSpaceB();
  }

  lemma FilterKeepsLetters(t: string)
    requires forall i :: 0 <= i < |t| ==> IsLower(t[i])
    ensures Filter(t, RoomTypes.NotDiacritic) == t
  {
  }

  lemma FilterSpaceB()
    ensures Filter(" b", RoomTypes.NotDiacritic) == " b"
  {
    assert " b"[1..] == "b";
    assert "b"[1..] == "";
  }

  /** A slug-shaped text comes through the first three stages unchanged. */
  lemma PreparedKeepsSlug(s: string)
    requires SlugShaped(s)
    ensures Prepared(s) == s
  {
    DecomposeKeepsSlug(s);
    assert Filter(s, RoomTypes.NotDiacritic) == s;
  }

  /** NFD leaves ASCII alone. */
  lemma DecomposeAscii(c: char)
    requires c as int < 128
    ensures Normalize.DecomposeChar(c) == [c]
  {
  }

  // The lemmas below are the steps of the two above.

  lemma {:induction false} DecomposeKeepsSlug(s: string)
    requires SlugShaped(s)
    ensures Normalize.Decompose(s) == s
  {
    if s != [] {
      assert SlugShaped(s[1..]) by { SliceSlugShaped(s, 1, |s|); }
      DecomposeKeepsSlug(s[1..]);
      DecomposeAscii(s[0]);
    }
  }

  /** On a slug-shaped text, Dashify changes nothing. */
  lemma {:induction false} DashifyKeepsSlug(s: string)
    requires SlugShaped(s)
    ensures Dashify(s) == s
    decreases |s|
  {
    if s != [] {
      assert SlugShaped(s[1..]) by { SliceSlugShaped(s, 1, |s|); }
      if IsSlugChar(s[0]) {
        DashifyKeepsSlug(s[1..]);
      } else {
        assert DropNonSlug(s[1..]) == s[1..];
        DashifyKeepsSlug(s[1..]);
      }
    }
  }

  lemma {:induction false} DecomposeAppend(u: string, v: string)
    ensures Normalize.Decompose(u + v) == Normalize.Decompose(u) + Normalize.Decompose(v)
  {
    if u != [] {
      assert (u + v)[1..] == u[1..] + v;
      DecomposeAppend(u[1..], v);
    } else {
      assert u + v == v;
    }
  }

  /** A prefix already in `[a-z0-9]` passes through Dashify unchanged. */
  lemma {:induction false} DashifyAppendSlug(u: string, v: string)
    requires forall i :: 0 <= i < |u| ==> IsSlugChar(u[i])
    ensures Dashify(u + v) == u + Dashify(v)
    decreases |u|
  {
    if u != [] {
      assert (u + v)[1..] == u[1..] + v;
      DashifyAppendSlug(u[1..], v);
    } else {
      assert u + v == v;
    }
  }
}

=== FILE: auth_middleware.dfy ===
/**
 * The authentication middleware (niwot/api/src/middleware/auth.ts): where a
 * request's token is taken from, and the two guards that verify it and stamp
 * the caller's identity on the request. Signature verification is a
 * parameter: the payload the token verifies to, or None when it does not.
 */
module AuthMiddleware {
  import opened Wrappers
  import opened Text

  datatype Role = UserRole | AdminRole

  /** A verified token's payload. */
  datatype Payload = Payload(id: int, role: Role)

  /** The two cookies the middleware looks at; a cookie that is not a string is None. */
  datatype Cookies = Cookies(token: Option<string>, niwotToken: Option<string>)

  const BearerPrefix := "Bearer "

  /**
   * extractToken: the `token` cookie if non-empty, else the `niwot_token`
   * cookie if non-empty, else what follows "Bearer " in the Authorization
   * header (section 2.1 of RFC 6750), else nothing.
   */
  function ExtractToken(c: Cookies, authorization: Option<string>): (t: Option<string>)
    ensures c.token.Some? && c.token.value != "" ==> t == c.token
    ensures !(c.token.Some? && c.token.value != "") && c.niwotToken.Some? && c.niwotToken.value != "" ==> t == c.niwotToken
    ensures t.None? <==>
      !(c.token.Some? && c.token.value != "") && !(c.niwotToken.Some? && c.niwotToken.value != "")
      && !(authorization.Some? && |authorization.value| >= 7 && authorization.value[..7] == BearerPrefix)
    ensures t.Some? && t != c.token && t != c.niwotToken ==>
      authorization.value == BearerPrefix + t.value
  {
    if c.token.Some? && c.token.value != "" then c.token
    else if c.niwotToken.Some? && c.niwotToken.value != "" then c.niwotToken
    else if authorization.Some? && |authorization.value| >= 7 && authorization.value[..7] == BearerPrefix then
      assert authorization.value == BearerPrefix + authorization.value[7..];
      Some(authorization.value[7..])
    else None
  }

  /** A header built from a token gives that token back, when no cookie holds one. */
  lemma BearerRoundTrip(token: string)
    ensures ExtractToken(Cookies(None, None), Some(BearerPrefix + token)) == Some(token)
  {
    assert (BearerPrefix + token)[..7] == BearerPrefix;
    assert (BearerPrefix + token)[7..] == token;
  }

  /** The identity stamped on the request as `user`. */
  datatype Caller = Caller(id: int, role: Role)

  /** The part of an Express request the guards write. */
  class Request {
    var userId: Option<int>
    var role: Option<Role>
    var user: Option<Caller>

    constructor ()
      ensures userId.None? && role.None? && user.None?
    {
      userId := None;
      role := None;
      user := None;
    }

    /** The three fields agree with one payload. */
    predicate StampedWith(p: Payload)
      reads this
    {
      userId == Some(p.id) && role == Some(p.role) && user == Some(Caller(p.id, p.role))
    }

    /** stampUser. */
    method StampUser(p: Payload)
      modifies this
      ensures StampedWith(p)
    {
      userId := Some(p.id);
      role := Some(p.role);
      user := Some(Caller(p.id, p.role));
    }
  }

  /** What a guard does: pass to the next handler, or answer with an error. */
  datatype Outcome = Next | Respond(status: int, error: string)

  /**
   * requireAuth: 401 without a token or when it does not verify, and the
   * request is left as it was; otherwise the caller is stamped and the chain goes on.
   */
  method RequireAuth(req: Request, c: Cookies, authorization: Option<string>, verified: Option<Payload>)
    returns (outcome: Outcome)
    modifies req
    ensures ExtractToken(c, authorization).None? ==> outcome == Respond(401, "Non authentifié")
    ensures !Truthy(ExtractToken(c, authorization)) ==> outcome == Respond(401, "Non authentifié")
    ensures outcome == Next <==> Truthy(ExtractToken(c, authorization)) && verified.Some?
    ensures outcome == Next ==> req.StampedWith(verified.value)
    ensures outcome != Next ==>
      outcome == Respond(401, "Non authentifié")
      && req.userId == old(req.userId) && req.role == old(req.role) && req.user == old(req.user)
  {
    var token := ExtractToken(c, authorization);
    if !Truthy(token) {
      return Respond(401, "Non authentifié");
    }
    if verified.None? {
      return Respond(401, "Non authentifié");
    }
    req.StampUser(verified.value);
    outcome := Next;
  }

  /**
   * requireAdmin: as requireAuth, except that a verified caller who is not an
   * admin gets 403 and is not stamped.
   */
  method RequireAdmin(req: Request, c: Cookies, authorization: Option<string>, verified: Option<Payload>)
    returns (outcome: Outcome)
    modifies req
    ensures ExtractToken(c, authorization).None? ==> outcome == Respond(401, "Non authentifié")
    ensures !Truthy(ExtractToken(c, authorization)) ==> outcome == Respond(401, "Non authentifié")
    ensures Truthy(ExtractToken(c, authorization)) && verified.Some? && verified.value.role != AdminRole ==>
      outcome == Respond(403, "Interdit")
    ensures outcome == Next <==> Truthy(ExtractToken(c, authorization)) && verified.Some? && verified.value.role == AdminRole
    ensures outcome == Next ==> req.StampedWith(verified.value)
    ensures outcome != Next ==> req.userId == old(req.userId) && req.role == old(req.role) && req.user == old(req.user)
  {
    var token := ExtractToken(c, authorization);
    if !Truthy(token) {
      return Respond(401, "Non authentifié");
    }
    if verified.None? {
      return Respond(401, "Non authentifié");
    }
    if verified.value.role != AdminRole {
      return Respond(403, "Interdit");
    }
    req.StampUser(verified.value);
    outcome := Next;
  }
}

=== FILE: auth_routes.dfy ===
/**
 * The account routes (niwot/api/src/routes/auth.ts): the password rule, the
 * order of the registration guards, the login failures that must not tell an
 * unknown user from a wrong password, and /me without a token. Hashing,
 * token signing and cookies are outside the model; the store lookups and the
 * password comparison are parameters.
 */
module AuthRoutes {
  import opened Wrappers
  import opened Text
  import AuthMiddleware

  /** `regex.test(s)` for a one-character class: some character satisfies `p`. */
  function Test(s: string, p: char -> bool): (found: bool)
    ensures found <==> exists i :: 0 <= i < |s| && p(s[i])
  {
    if s == [] then false
    else if p(s[0]) then true
    else
      assert forall i :: 1 <= i < |s| ==> s[i] == s[1..][i - 1];
      Test(s[1..], p)
  }

  /** validatePassword: an upper-case ASCII letter, a lower-case one, and at least 8 characters. */
  function ValidatePassword(pw: string): (ok: bool)
    ensures ok <==>
      (exists i :: 0 <= i < |pw| && IsUpper(pw[i]))
      && (exists i :: 0 <= i < |pw| && IsLower(pw[i]))
      && |pw| >= 8
  {
    Test(pw, IsUpper) && Test(pw, IsLower) && |pw| >= 8
  }

  /** A password that passes keeps passing with more characters appended. */
  lemma ValidatePasswordExtends(pw: string, more: string)
    requires ValidatePassword(pw)
    ensures ValidatePassword(pw + more)
  {
    var i :| 0 <= i < |pw| && IsUpper(pw[i]);
    var j :| 0 <= j < |pw| && IsLower(pw[j]);
    assert (pw + more)[i] == pw[i] && (pw + more)[j] == pw[j];
  }

  datatype NewUser = NewUser(username: string, role: AuthMiddleware.Role, profileImage: Option<string>)

  /**
   * POST /auth/register. The guards run in order: missing field (400), then
   * the two passwords differ (400), then a weak password (400), then a taken
   * name (409); otherwise a user with the role "user" and the uploaded avatar.
   */
  function Register(username: Option<string>, password: Option<string>, password2: Option<string>,
                    taken: bool, avatarFile: Option<string>): (r: Result<NewUser>)
    ensures !Truthy(username) || !Truthy(password) || !Truthy(password2) ==> r == Err(400, "Champs manquants")
    ensures Truthy(username) && Truthy(password) && Truthy(password2) ==>
      (password != password2 <==> r == Err(400, "Les mots de passe ne correspondent pas"))
    ensures Truthy(username) && Truthy(password) && password == password2 ==>
      (!ValidatePassword(password.value) <==> r == Err(400, "Mot de passe trop faible (8+ car., 1 maj., 1 min.)"))
    ensures Truthy(username) && Truthy(password) && password == password2 && ValidatePassword(password.value) ==>
      (taken <==> r == Err(409, "Nom d'utilisateur déjà utilisé"))
    ensures r.Ok? <==>
      Truthy(username) && Truthy(password) && password == password2 && ValidatePassword(password.value) && !taken
    ensures r.Ok? ==>
      r.value.username == username.value && r.value.role == AuthMiddleware.UserRole
      && (r.value.profileImage.Some? <==> avatarFile.Some?)
    ensures r.Ok? && avatarFile.Some? ==> r.value.profileImage == Some("/uploads/" + avatarFile.value)
  {
    if !Truthy(username) || !Truthy(password) || !Truthy(password2) then Err(400, "Champs manquants")
    else if password != password2 then Err(400, "Les mots de passe ne correspondent pas")
    else if !ValidatePassword(password.value) then Err(400, "Mot de passe trop faible (8+ car., 1 maj., 1 min.)")
    else if taken then Err(409, "Nom d'utilisateur déjà utilisé")
    else Ok(NewUser(username.value, AuthMiddleware.UserRole,
                    if avatarFile.Some? then Some("/uploads/" + avatarFile.value) else None))
  }

  /** A stored account, as far as login reads it. */
  datatype Account = Account(id: int, username: string, role: AuthMiddleware.Role, profileImage: Option<string>)

  /**
   * POST /auth/login: 400 for a missing field, the same 401 for an unknown
   * name and for a wrong password, otherwise the account. `passwordMatches`
   * is the hash comparison's verdict.
   */
  function Login(username: Option<string>, password: Option<string>, found: Option<Account>, passwordMatches: bool)
    : (r: Result<Account>)
    ensures !Truthy(username) || !Truthy(password) ==> r == Err(400, "Champs manquants")
    ensures Truthy(username) && Truthy(password) && (found.None? || !passwordMatches) ==>
      r == Err(401, "Identifiants invalides")
    ensures r.Ok? <==> Truthy(username) && Truthy(password) && found.Some? && passwordMatches
    ensures r.Ok? ==> r == Ok(found.value)
  {
    if !Truthy(username) || !Truthy(password) then Err(400, "Champs manquants")
    else if found.None? then Err(401, "Identifiants invalides")
    else if !passwordMatches then Err(401, "Identifiants invalides")
    else Ok(found.value)
  }

  /** A caller cannot tell an unknown name from a wrong password. */
  lemma LoginHidesWhichFailed(username: string, password: string, account: Account, anyMatch: bool)
    requires username != "" && password != ""
    ensures Login(Some(username), Some(password), None, anyMatch)
         == Login(Some(username), Some(password), Some(account), false)
  {
  }

  /**
   * /me's token: the `niwot_token` cookie if non-empty, else the text after
   * "Bearer " in the Authorization header. Unlike the middleware, it does not
   * look at a cookie named `token`.
   */
  function MeToken(niwotToken: Option<string>, authorization: Option<string>): (t: Option<string>)
    ensures t == AuthMiddleware.ExtractToken(AuthMiddleware.Cookies(None, niwotToken), authorization)
  {
    if Truthy(niwotToken) then niwotToken
    else if authorization.Some? && |authorization.value| >= 7 && authorization.value[..7] == AuthMiddleware.BearerPrefix then
      Some(authorization.value[7..])
    else None
  }

  /**
   * GET /me: no user without a token (an empty one included) or when it does
   * not verify; otherwise the account found under the payload's id (`found`,
   * possibly none).
   */
  function Me(niwotToken: Option<string>, authorization: Option<string>, verified: Option<AuthMiddleware.Payload>,
              found: Option<Account>): (user: Option<Account>)
    ensures MeToken(niwotToken, authorization).None? ==> user.None?
    ensures !Truthy(MeToken(niwotToken, authorization)) ==> user.None?
    ensures verified.None? ==> user.None?
    ensures user.Some? ==> user == found
    ensures Truthy(MeToken(niwotToken, authorization)) && verified.Some? ==> user == found
  {
    if !Truthy(MeToken(niwotToken, authorization)) then None
    else if verified.None? then None
    else found
  }
}

=== FILE: leaderboard.dfy ===
/**
 * The leaderboard routes (niwot/api/src/routes/leaderboard.ts): the winners
 * table, sorted in place and cut to ten, and the ranking of question
 * proposers joined with their user rows. The store reads are parameters.
 */
module Leaderboard {
  import opened Wrappers
  import opened Text
  import Sorting

  // ---------------------------------------------------------------------
  // GET /leaderboard

  /** A user row as fetched: `wins` may be missing, `createdAt` in milliseconds. */
  datatype Leader = Leader(id: int, username: string, profileImage: Option<string>, wins: Option<int>, createdAt: int)

  /**
   * The comparator `(b.wins ?? 0) - (a.wins ?? 0) || a.createdAt - b.createdAt || a.id - b.id`
   * is at most zero: more wins first, then the older account, then the smaller id.
   */
  predicate LeaderLe(a: Leader, b: Leader) {
    var wa := a.wins.GetOr(0);
    var wb := b.wins.GetOr(0);
    wa > wb || (wa == wb && (a.createdAt < b.createdAt || (a.createdAt == b.createdAt && a.id <= b.id)))
  }

  predicate LeadersSorted(s: seq<Leader>) {
    forall i, j :: 0 <= i < j < |s| ==> LeaderLe(s[i], s[j])
  }

  lemma LeaderLeIsPreorder()
    ensures Sorting.TotalPreorder(LeaderLe)
  {
  }

  lemma LeaderLeTrans(a: Leader, b: Leader, c: Leader)
    requires LeaderLe(a, b) && LeaderLe(b, c)
    ensures LeaderLe(a, c)
  {
  }

  /** Two leaders with the same id, wins and creation time tie: otherwise exactly one comes first. */
  lemma LeaderLeAntisymmetric(a: Leader, b: Leader)
    requires LeaderLe(a, b) && LeaderLe(b, a)
    ensures a.wins.GetOr(0) == b.wins.GetOr(0) && a.createdAt == b.createdAt && a.id == b.id
  {
  }

  /** The first `n` cells of `a` are in comparator order. */
  ghost predicate SortedPrefix(a: array<Leader>, n: int)
    reads a
    requires 0 <= n <= a.Length
  {
    forall k, l :: 0 <= k < l < n ==> LeaderLe(a[k], a[l])
  }

  /**
   * Midway through sinking `a[j]` into `a[..i + 1]`: the other cells of the
   * prefix are in order, and `a[j]` precedes every cell after it.
   */
  ghost predicate Sinking(a: array<Leader>, j: int, i: int)
    reads a
    requires 0 <= j <= i < a.Length
  {
    && (forall k, l :: 0 <= k < l <= i && k != j && l != j ==> LeaderLe(a[k], a[l]))
    && (forall l :: j < l <= i ==> LeaderLe(a[j], a[l]))
  }

  /** One step of the sink: swapping `a[j]` with a predecessor that must follow it. */
  method SwapDown(a: array<Leader>, j: int, i: int)
    requires 0 < j <= i < a.Length
    requires Sinking(a, j, i) && !LeaderLe(a[j - 1], a[j])
    modifies a
    ensures Sinking(a, j - 1, i)
    ensures multiset(a[..]) == multiset(old(a[..]))
  {
    a[j - 1], a[j] := a[j], a[j - 1];
  }

  /** The sink stops once its element is at the front or after a cell that precedes it. */
  lemma SinkDone(a: array<Leader>, j: int, i: int)
    requires 0 <= j <= i < a.Length
    requires Sinking(a, j, i) && (j == 0 || LeaderLe(a[j - 1], a[j]))
    ensures SortedPrefix(a, i + 1)
  {
    forall k | 0 <= k < j ensures LeaderLe(a[k], a[j]) {
      LeaderLeTrans(a[k], a[j - 1], a[j]);
    }
  }

  /** Moves `a[i]` down into the sorted prefix `a[..i]` by adjacent swaps. */
  method Sink(a: array<Leader>, i: int)
    requires 0 <= i < a.Length
    requires SortedPrefix(a, i)
    modifies a
    ensures SortedPrefix(a, i + 1)
    ensures multiset(a[..]) == multiset(old(a[..]))
  {
    var j := i;
    while j > 0 && !LeaderLe(a[j - 1], a[j])
      invariant 0 <= j <= i
      invariant multiset(a[..]) == multiset(old(a[..]))
      invariant Sinking(a, j, i)
    {
      SwapDown(a, j, i);
      j := j - 1;
    }
    SinkDone(a, j, i);
  }

  /** `leaders.sort(...)`: an insertion sort in place. */
  method SortLeaders(a: array<Leader>)
    modifies a
    ensures LeadersSorted(a[..])
    ensures multiset(a[..]) == multiset(old(a[..]))
  {
    for i := 0 to a.Length
      invariant SortedPrefix(a, i)
      invariant multiset(a[..]) == multiset(old(a[..]))
    {
      Sink(a, i);
    }
  }

  /**
   * GET /leaderboard, given the fetched rows: the ten first in the comparator's
   * order. A row left out ranks after every row kept, and only when ten are kept.
   */
  method Leaders(rows: seq<Leader>) returns (top: seq<Leader>)
    ensures |top| == if |rows| < 10 then |rows| else 10
    ensures LeadersSorted(top)
    ensures multiset(top) <= multiset(rows)
    ensures forall y :: y in rows && y !in top ==> |top| == 10 && forall k :: 0 <= k < |top| ==> LeaderLe(top[k], y)
  {
    var a := new Leader[|rows|](i requires 0 <= i < |rows| => rows[i]);
    assert a[..] == rows;
    SortLeaders(a);
    top := Prefix(a[..], 10);
    PrefixOfSorted(a[..], top);
    forall y | y in rows ensures y in a[..] {
      assert y in multiset(rows);
    }
  }

  /** The ten first of a sorted list: a sub-multiset, and every element left out ranks after them. */
  lemma PrefixOfSorted(sorted: seq<Leader>, top: seq<Leader>)
    requires LeadersSorted(sorted) && top == Prefix(sorted, 10)
    ensures multiset(top) <= multiset(sorted)
    ensures forall y :: y in sorted && y !in top ==> |top| == 10 && forall k :: 0 <= k < |top| ==> LeaderLe(top[k], y)
  {
    assert sorted == top + sorted[|top|..];
    assert multiset(sorted) == multiset(top) + multiset(sorted[|top|..]);
    forall y | y in sorted && y !in top
      ensures |top| == 10 && forall k :: 0 <= k < |top| ==> LeaderLe(top[k], y)
    {
      var j :| 0 <= j < |sorted| && sorted[j] == y;
      assert j >= |top|;
    }
  }

  // ---------------------------------------------------------------------
  // GET /leaderboard/proposers

  /** A row of the grouped count query. */
  datatype CountRow = CountRow(createdById: Option<int>, approvedCount: int)
  datatype IdCount = IdCount(id: int, count: int)
  datatype UserRow = UserRow(id: int, username: string, profileImage: Option<string>)
  datatype Proposer = Proposer(id: int, username: string, profileImage: Option<string>, approvedCount: int)

  /** The rows with a creator, as `{id, count}`, in order. */
  function IdCounts(rows: seq<CountRow>): (r: seq<IdCount>)
    ensures |r| <= |rows|
    ensures forall x :: x in r <==> CountRow(Some(x.id), x.count) in rows
  {
    if rows == [] then []
    else
      var rest := IdCounts(rows[1..]);
      assert forall w :: w in rows <==> w == rows[0] || w in rows[1..];
      if rows[0].createdById.Some? then [IdCount(rows[0].createdById.value, rows[0].approvedCount)] + rest else rest
  }

  /** `new Map(users.map(u => [u.id, u]))`: a later row with the same id wins. */
  function UsersById(users: seq<UserRow>): (m: map<int, UserRow>)
    ensures forall id :: id in m ==> m[id] in users && m[id].id == id
    ensures forall u :: u in users ==> u.id in m
  {
    if users == [] then map[]
    else
      var init := users[..|users| - 1];
      var last := users[|users| - 1];
      assert forall u :: u in users <==> u in init || u == last;
      UsersById(init)[last.id := last]
  }

  /** `.filter(x => usersById.has(x.id))`. */
  function Known(xs: seq<IdCount>, byId: map<int, UserRow>): (r: seq<IdCount>)
    ensures |r| <= |xs|
    ensures forall x :: x in r <==> x in xs && x.id in byId
  {
    if xs == [] then []
    else
      var rest := Known(xs[1..], byId);
      assert forall w :: w in xs <==> w == xs[0] || w in xs[1..];
      if xs[0].id in byId then [xs[0]] + rest else rest
  }

  /** `b.count - a.count || a.id - b.id` is at most zero. */
  predicate CountLe(a: IdCount, b: IdCount) {
    a.count > b.count || (a.count == b.count && a.id <= b.id)
  }

  lemma CountLeIsPreorder()
    ensures Sorting.TotalPreorder(CountLe)
  {
  }

  /** The ranked, cut list before the join with the user rows. */
  function TopCounts(rows: seq<CountRow>, users: seq<UserRow>): (top: seq<IdCount>)
  {
    CountLeIsPreorder();
    Prefix(Sorting.SortBy(Known(IdCounts(rows), UsersById(users)), CountLe), 10)
  }

  /** The pipeline: filter, sort, slice, then join with the user rows. */
  function RankProposers(rows: seq<CountRow>, users: seq<UserRow>): (r: seq<Proposer>)
    ensures |r| <= 10
    ensures IdCounts(rows) == [] ==> r == []
  {
    if IdCounts(rows) == [] then []
    else
      var byId := UsersById(users);
      var top := TopCounts(rows, users);
      assert forall k :: 0 <= k < |top| ==> top[k].id in byId by {
        CountLeIsPreorder();
        var known := Known(IdCounts(rows), byId);
        var sorted := Sorting.SortBy(known, CountLe);
        forall k | 0 <= k < |top| ensures top[k].id in byId {
          assert top[k] == sorted[k];
          assert top[k] in multiset(sorted);
        }
      }
      seq(|top|, k requires 0 <= k < |top| =>
        Proposer(top[k].id, byId[top[k].id].username, byId[top[k].id].profileImage, top[k].count))
  }

  /**
   * Each proposer listed has a user row, carries that user's name and picture,
   * and its count is the count of a row of the query for that id.
   */
  lemma ProposersJoined(rows: seq<CountRow>, users: seq<UserRow>)
    ensures var r := RankProposers(rows, users);
      forall k :: 0 <= k < |r| ==>
        CountRow(Some(r[k].id), r[k].approvedCount) in rows
        && exists u :: u in users && u.id == r[k].id && u.username == r[k].username && u.profileImage == r[k].profileImage
  {
    CountLeIsPreorder();
    var byId := UsersById(users);
    var known := Known(IdCounts(rows), byId);
    var sorted := Sorting.SortBy(known, CountLe);
    var top := TopCounts(rows, users);
    var r := RankProposers(rows, users);
    forall k | 0 <= k < |r|
      ensures CountRow(Some(r[k].id), r[k].approvedCount) in rows
      ensures exists u :: u in users && u.id == r[k].id && u.username == r[k].username && u.profileImage == r[k].profileImage
    {
      assert top[k] == sorted[k];
      assert top[k] in multiset(sorted);
      assert top[k] in known;
      assert r[k].id == top[k].id && r[k].approvedCount == top[k].count;
      assert byId[r[k].id] in users;
    }
  }

  /** No row has a creator exactly when there is nothing to rank. */
  lemma IdCountsEmpty(rows: seq<CountRow>)
    ensures IdCounts(rows) == [] <==> forall i :: 0 <= i < |rows| ==> rows[i].createdById.None?
  {
    var ic := IdCounts(rows);
    if ic != [] {
      assert ic[0] in ic;
    }
    if exists i :: 0 <= i < |rows| && rows[i].createdById.Some? {
      var i :| 0 <= i < |rows| && rows[i].createdById.Some?;
      assert IdCount(rows[i].createdById.value, rows[i].approvedCount) in ic;
    }
  }

  /** The proposers are listed by count descending, then id ascending. */
  lemma ProposersSorted(rows: seq<CountRow>, users: seq<UserRow>)
    ensures var r := RankProposers(rows, users);
      forall k, l :: 0 <= k < l < |r| ==>
        r[k].approvedCount > r[l].approvedCount || (r[k].approvedCount == r[l].approvedCount && r[k].id <= r[l].id)
  {
    CountLeIsPreorder();
    var r := RankProposers(rows, users);
    if IdCounts(rows) != [] {
      var sorted := Sorting.SortBy(Known(IdCounts(rows), UsersById(users)), CountLe);
      var top := TopCounts(rows, users);
      forall k, l | 0 <= k < l < |r|
        ensures r[k].approvedCount > r[l].approvedCount || (r[k].approvedCount == r[l].approvedCount && r[k].id <= r[l].id)
      {
        assert top[k] == sorted[k] && top[l] == sorted[l];
        assert CountLe(sorted[k], sorted[l]);
      }
    }
  }

  /**
   * Only the first ten make the list: a row with a known user that is not
   * listed ranks after every listed proposer, and ten are listed.
   */
  lemma ProposersTopTen(rows: seq<CountRow>, users: seq<UserRow>, x: IdCount)
    requires CountRow(Some(x.id), x.count) in rows
    requires exists u :: u in users && u.id == x.id
    requires forall k :: 0 <= k < |RankProposers(rows, users)| ==>
      IdCount(RankProposers(rows, users)[k].id, RankProposers(rows, users)[k].approvedCount) != x
    ensures |RankProposers(rows, users)| == 10
    ensures forall k :: 0 <= k < 10 ==>
      CountLe(IdCount(RankProposers(rows, users)[k].id, RankProposers(rows, users)[k].approvedCount), x)
  {
    CountLeIsPreorder();
    var byId := UsersById(users);
    var known := Known(IdCounts(rows), byId);
    var sorted := Sorting.SortBy(known, CountLe);
    var top := TopCounts(rows, users);
    var r := RankProposers(rows, users);
    assert x in IdCounts(rows);
    assert x in known;
    assert x in multiset(sorted);
    var j :| 0 <= j < |sorted| && sorted[j] == x;
    assert forall k :: 0 <= k < |top| ==> IdCount(r[k].id, r[k].approvedCount) == top[k] == sorted[k];
    assert j >= |top|;
  }
}

=== FILE: logout.dfy ===
/**
 * The web front's logout endpoint (niwot/web/src/pages/api/logout.ts): every
 * cookie the browser sent is expired for the three domain variants and both
 * SameSite values (an Expires date in the past deletes a cookie, section 3.1
 * of RFC 6265), and the browser is redirected.
 */
module Logout {
  import opened Wrappers
  import opened Text

  /** `raw.split(/;\s*\/)`: split at each ';' and drop the white space after it. */
  function Segments(raw: string): (r: seq<string>)
    ensures |r| >= 1
    ensures forall i :: 0 <= i < |r| ==> ';' !in r[i]
  {
    var pieces := Split(raw, ';');
    [pieces[0]] + seq(|pieces| - 1, i requires 0 <= i < |pieces| - 1 => TrimStart(pieces[i + 1]))
  }

  /** `s.split("=")[0]`: the text before the first '='. */
  function NameOf(segment: string): (n: string)
    ensures '=' !in n
    ensures |n| <= |segment| && n == segment[..|n|]
    ensures |n| < |segment| ==> segment[|n|] == '='
  {
    if segment == [] || segment[0] == '=' then []
    else [segment[0]] + NameOf(segment[1..])
  }

  /** The non-empty names of the segments, in order (`.filter(Boolean)`). */
  function NonEmptyNames(segments: seq<string>): (r: seq<string>)
    ensures forall k :: 0 <= k < |r| ==> r[k] != [] && '=' !in r[k]
    ensures forall n :: n in r <==> n != [] && exists i :: 0 <= i < |segments| && NameOf(segments[i]) == n
  {
    if segments == [] then []
    else
      var init := NonEmptyNames(segments[..|segments| - 1]);
      var n := NameOf(segments[|segments| - 1]);
      assert forall i :: 0 <= i < |segments| - 1 ==> segments[..|segments| - 1][i] == segments[i];
      if n != [] then init + [n] else init
  }

  /** `Array.from(new Set(xs))`: the first occurrence of each value, in order. */
  function Dedup(xs: seq<string>): (r: seq<string>)
    ensures forall i, j :: 0 <= i < j < |r| ==> r[i] != r[j]
    ensures forall x :: x in r <==> x in xs
  {
    if xs == [] then []
    else
      var init := Dedup(xs[..|xs| - 1]);
      var last := xs[|xs| - 1];
      assert forall x :: x in xs <==> x in xs[..|xs| - 1] || x == last;
      if last in init then init else init + [last]
  }

  /**
   * Dedup keeps first occurrences in order: deduplicating a prefix of `xs`
   * gives a prefix of the deduplicated `xs`, so a value never moves once it
   * has been seen.
   */
  lemma {:induction false} DedupPrefix(xs: seq<string>, k: nat)
    requires k <= |xs|
    ensures Dedup(xs[..k]) <= Dedup(xs)
    decreases |xs| - k
  {
    if k < |xs| {
      DedupPrefix(xs[..|xs| - 1], k);
      assert xs[..|xs| - 1][..k] == xs[..k];
    } else {
      assert xs[..k] == xs;
    }
  }

  /** The distinct cookie names of a Cookie header. */
  function CookieNames(raw: string): (names: seq<string>)
    ensures forall i, j :: 0 <= i < j < |names| ==> names[i] != names[j]
    ensures forall k :: 0 <= k < |names| ==> names[k] != [] && '=' !in names[k]
    ensures forall n :: n in names <==> n != [] && exists i :: 0 <= i < |Segments(raw)| && NameOf(Segments(raw)[i]) == n
  {
    var xs := NonEmptyNames(Segments(raw));
    var r := Dedup(xs);
    assert forall k :: 0 <= k < |r| ==> r[k] in xs;
    r
  }

  const Expires := "Thu, 01 Jan 1970 00:00:00 GMT"
  const Common := "Path=/; HttpOnly; Secure; Expires=" + Expires
  const Domains := ["; Domain=.niwot.btsinfo.nc", "; Domain=niwot.btsinfo.nc", ""]

  /** One expired cookie: its name, the Domain attribute variant and the SameSite value. */
  datatype Expiry = Expiry(name: string, domain: string, sameSite: string)

  /** The Set-Cookie value of an expiry: the cookie emptied and expired at the epoch. */
  function Render(e: Expiry): (v: string)
    ensures |e.name| < |v| && v[..|e.name|] == e.name && v[|e.name|] == '='
  {
    var v := e.name + "=; " + Common + e.domain + "; SameSite=" + e.sameSite;
    assert v[..|e.name|] == e.name;
    v
  }

  /** The two expiries of one name for one domain variant: Lax, then None. */
  function Pair(name: string, domain: string): seq<Expiry>
  {
    [Expiry(name, domain, "Lax"), Expiry(name, domain, "None")]
  }

  /** The six expiries of one name, domain variant after domain variant. */
  function Block(name: string): (r: seq<Expiry>)
    ensures |r| == 6
  {
    Pair(name, Domains[0]) + Pair(name, Domains[1]) + Pair(name, Domains[2])
  }

  /** Entries `2 * j` and `2 * j + 1` of a block are the `j`-th domain variant's pair. */
  lemma BlockPair(name: string, j: int)
    requires 0 <= j < 3
    ensures Block(name)[2 * j] == Expiry(name, Domains[j], "Lax")
    ensures Block(name)[2 * j + 1] == Expiry(name, Domains[j], "None")
  {
    if j == 0 {
    } else if j == 1 {
    } else {
    }
  }

  /** Every expiry of the response, name after name. */
  function Purged(names: seq<string>): (r: seq<Expiry>)
    ensures |r| == 6 * |names|
  {
    if names == [] then [] else Purged(names[..|names| - 1]) + Block(names[|names| - 1])
  }

  /** Entry `6 * i + m` of the response belongs to the `i`-th name. */
  lemma {:induction false} PurgedAt(names: seq<string>, i: int, m: int)
    requires 0 <= i < |names| && 0 <= m < 6
    ensures Purged(names)[6 * i + m] == Block(names[i])[m]
  {
    var init := names[..|names| - 1];
    if i < |names| - 1 {
      PurgedAt(init, i, m);
      assert init[i] == names[i];
    }
  }

  /** The nested loops that fill `setCookies`: one rendered value per expiry. */
  method PurgeCookies(names: seq<string>) returns (setCookies: seq<string>)
    ensures |setCookies| == |Purged(names)|
    ensures forall k :: 0 <= k < |setCookies| ==> setCookies[k] == Render(Purged(names)[k])
  {
    setCookies := [];
    for i := 0 to |names|
      invariant |setCookies| == |Purged(names[..i])|
      invariant forall k :: 0 <= k < |setCookies| ==> setCookies[k] == Render(Purged(names[..i])[k])
    {
      ghost var done := Purged(names[..i]);
      for j := 0 to 3
        invariant |setCookies| == |done| + 2 * j
        invariant forall k :: 0 <= k < |setCookies| ==> setCookies[k] == Render((done + Block(names[i]))[k])
      {
        BlockPair(names[i], j);
        setCookies := setCookies + [Render(Expiry(names[i], Domains[j], "Lax"))];
        setCookies := setCookies + [Render(Expiry(names[i], Domains[j], "None"))];
      }
      assert names[..i + 1][..i] == names[..i];
      assert Purged(names[..i + 1]) == done + Block(names[i]);
    }
    assert names[..|names|] == names;
  }

  /** Each name is cleared for every domain variant with SameSite=Lax ... */
  lemma LaxCleared(names: seq<string>, i: int, j: int)
    requires 0 <= i < |names| && 0 <= j < 3
    ensures Purged(names)[6 * i + 2 * j] == Expiry(names[i], Domains[j], "Lax")
  {
    PurgedAt(names, i, 2 * j);
    BlockPair(names[i], j);
  }

  /** ... and with SameSite=None, right after it. */
  lemma NoneCleared(names: seq<string>, i: int, j: int)
    requires 0 <= i < |names| && 0 <= j < 3
    ensures Purged(names)[6 * i + 2 * j + 1] == Expiry(names[i], Domains[j], "None")
  {
    PurgedAt(names, i, 2 * j + 1);
    BlockPair(names[i], j);
  }

  /**
   * The handler: a 302 to the `next` query (default "/"), with the Set-Cookie
   * header only when the request carried at least one cookie name.
   */
  method HandleLogout(cookieHeader: Option<string>, next: Option<string>)
    returns (status: int, location: string, setCookie: Option<seq<string>>)
    ensures status == 302
    ensures location == if next.Some? && next.value != "" then next.value else "/"
    ensures setCookie.None? <==> CookieNames(cookieHeader.GetOr("")) == []
    ensures setCookie.Some? ==> |setCookie.value| == |Purged(CookieNames(cookieHeader.GetOr("")))|
    ensures setCookie.Some? ==> forall k :: 0 <= k < |setCookie.value| ==>
      setCookie.value[k] == Render(Purged(CookieNames(cookieHeader.GetOr("")))[k])
  {
    location := if next.Some? && next.value != "" then next.value else "/";
    var names := CookieNames(cookieHeader.GetOr(""));
    var entries := PurgeCookies(names);
    setCookie := if |entries| > 0 then Some(entries) else None;
    status := 302;
  }
}

=== FILE: media.dfy ===
/**
 * Media URL helpers of the web client (niwot/web/src/lib/media.ts): turning a
 * stored upload path into an absolute URL, and choosing an avatar image.
 */
module Media {
  import opened Wrappers
  import opened Text

  /** The uploads host used when no environment override is set. */
  const DefaultUploadsBase: string := "https://api-game.niwot.btsinfo.nc"
  /** The avatar shown when a user has none. */
  const FallbackAvatar: string := "https://niwot.btsinfo.nc/niwotfren.png"

  /** `/^https?:\/\//i`: the text starts with `http://` or `https://`, in any case. */
  predicate IsHttpUrl(u: string) {
    (|u| >= 7 && ToLower(u[..7]) == "http://") || (|u| >= 8 && ToLower(u[..8]) == "https://")
  }

  /** `process.env.X || default`: an unset or empty variable gives the default. */
  function UploadsBase(env: Option<string>): (base: string)
    ensures base == DefaultUploadsBase || (env.Some? && base == env.value && base != "")
  {
    if env.Some? && env.value != "" then env.value else DefaultUploadsBase
  }

  /** The path with at most one leading '/' removed. */
  function WithoutLeadingSlash(u: string): string {
    if u != [] && u[0] == '/' then u[1..] else u
  }

  /** absoluteMediaUrl: null for a missing or empty path, absolute URLs unchanged, otherwise `base` joined by one '/'. */
  function AbsoluteMediaUrl(u: Option<string>, base: string): (r: Option<string>)
    ensures r.None? <==> (u.None? || u.value == "")
    ensures u.Some? && IsHttpUrl(u.value) ==> r == u
    ensures r.Some? && !IsHttpUrl(u.value) ==> r.value == base + "/" + WithoutLeadingSlash(u.value)
    ensures r.Some? && IsHttpUrl(base) ==> IsHttpUrl(r.value)
  {
    if u.None? || u.value == "" then None
    else if IsHttpUrl(u.value) then u
    else
      var r := base + (if u.value[0] == '/' then "" else "/") + u.value;
      assert r == base + "/" + WithoutLeadingSlash(u.value) by {
        if u.value[0] == '/' {
          assert u.value == "/" + u.value[1..];
        }
      }
      assert IsHttpUrl(base) ==> IsHttpUrl(r) by {
        assert |base| >= 7 ==> r[..7] == base[..7];
        assert |base| >= 8 ==> r[..8] == base[..8];
      }
      Some(r)
  }

  /** avatarUrl: never empty; the fallback image for a missing or blank path. */
  function AvatarUrl(u: Option<string>, base: string): (r: string)
    ensures r != ""
    ensures (u.None? || IsBlank(u.value)) ==> r == FallbackAvatar
    ensures u.Some? && !IsBlank(u.value) ==> Some(r) == AbsoluteMediaUrl(u, base)
  {
    if u.Some? && Trim(u.value) != "" then
      match AbsoluteMediaUrl(u, base)
      case Some(abs) => abs
      case None => FallbackAvatar
    else FallbackAvatar
  }

  lemma HttpUrlNotBlank(u: string)
    requires IsHttpUrl(u)
    ensures u != "" && !IsBlank(u)
  {
    assert u[0] == u[..7][0];
    assert LowerChar(u[0]) == 'h';
  }

  lemma FallbackIsHttp()
    ensures IsHttpUrl(FallbackAvatar)
  {
    assert FallbackAvatar[..8] == "https://";
  }

  /** Every avatar URL is absolute when the uploads base is. */
  lemma AvatarUrlIsHttp(u: Option<string>, base: string)
    requires IsHttpUrl(base)
    ensures IsHttpUrl(AvatarUrl(u, base))
  {
    FallbackIsHttp();
  }

  /** With an absolute uploads base, applying avatarUrl to its own result changes nothing. */
  lemma AvatarUrlIdempotent(u: Option<string>, base: string)
    requires IsHttpUrl(base)
    ensures AvatarUrl(Some(AvatarUrl(u, base)), base) == AvatarUrl(u, base)
  {
    var r := AvatarUrl(u, base);
    AvatarUrlIsHttp(u, base);
    HttpUrlNotBlank(r);
    assert AbsoluteMediaUrl(Some(r), base) == Some(r);
  }
}

=== FILE: misc.dfy ===
/**
 * The miscellaneous routes (niwot/api/src/routes/misc.ts). Their proposers
 * ranking repeats, step for step, the one of the leaderboard routes, so it is
 * modelled by the same definition; this module states what the copy promises.
 */
module Misc {
  import opened Wrappers
  import Leaderboard

  /**
   * GET /leaderboard/proposers as misc.ts serves it: at most ten proposers,
   * none when no row has a creator, each one a creator with a user row, and
   * listed by count descending, then id ascending.
   */
  function Proposers(rows: seq<Leaderboard.CountRow>, users: seq<Leaderboard.UserRow>): (r: seq<Leaderboard.Proposer>)
    ensures |r| <= 10
    ensures (forall i :: 0 <= i < |rows| ==> rows[i].createdById.None?) ==> r == []
    ensures forall k :: 0 <= k < |r| ==>
      Leaderboard.CountRow(Some(r[k].id), r[k].approvedCount) in rows
      && exists u :: u in users && u.id == r[k].id && u.username == r[k].username
    ensures forall k, l :: 0 <= k < l < |r| ==>
      r[k].approvedCount > r[l].approvedCount || (r[k].approvedCount == r[l].approvedCount && r[k].id <= r[l].id)
  {
    Leaderboard.ProposersSorted(rows, users);
    Leaderboard.ProposersJoined(rows, users);
    Leaderboard.IdCountsEmpty(rows);
    Leaderboard.RankProposers(rows, users)
  }
}

=== FILE: normalize.dfy ===
/**
 * The answer normaliser of niwot/api/src/utils/normalize.ts: canonical
 * decomposition (NFD), removal of combining marks, removal of everything
 * that is not an ASCII letter or digit, upper-casing.
 *
 * Unicode NFD and the `\p{M}` table are not modelled in full: `Decompose`
 * knows the precomposed Latin letters of French, and `IsMark` the combining
 * mark blocks. Every property below is proved either for any decomposition
 * and mark table that leave ASCII letters and digits alone, or only uses that fact.
 */
module Normalize {
  import opened Text

  /** NFD of one character, for the precomposed letters French uses; anything else is left as is. */
  function DecomposeChar(c: char): (d: string)
    ensures IsAlnum(c) ==> d == [c]
  {
    match c
    case 'à' => "a\U{0300}"  case 'á' => "a\U{0301}"  case 'â' => "a\U{0302}"  case 'ä' => "a\U{0308}"
    case 'ç' => "c\U{0327}"
    case 'è' => "e\U{0300}"  case 'é' => "e\U{0301}"  case 'ê' => "e\U{0302}"  case 'ë' => "e\U{0308}"
    case 'î' => "i\U{0302}"  case 'ï' => "i\U{0308}"
    case 'ñ' => "n\U{0303}"
    case 'ô' => "o\U{0302}"  case 'ö' => "o\U{0308}"
    case 'ù' => "u\U{0300}"  case 'û' => "u\U{0302}"  case 'ü' => "u\U{0308}"
    case 'ÿ' => "y\U{0308}"
    case 'À' => "A\U{0300}"  case 'Â' => "A\U{0302}"  case 'Ç' => "C\U{0327}"
    case 'È' => "E\U{0300}"  case 'É' => "E\U{0301}"  case 'Ê' => "E\U{0302}"  case 'Ë' => "E\U{0308}"
    case 'Î' => "I\U{0302}"  case 'Ï' => "I\U{0308}"  case 'Ô' => "O\U{0302}"
    case 'Ù' => "U\U{0300}"  case 'Û' => "U\U{0302}"  case 'Ü' => "U\U{0308}"
    case _ => [c]
  }

  /** `s.normalize('NFD')`. */
  function Decompose(s: string): string {
    if s == [] then [] else DecomposeChar(s[0]) + Decompose(s[1..])
  }

  /** `\p{M}`: the combining-mark blocks. */
  predicate IsMark(c: char) {
    ('\U{0300}' <= c <= '\U{036F}') || ('\U{1AB0}' <= c <= '\U{1AFF}')
    || ('\U{1DC0}' <= c <= '\U{1DFF}') || ('\U{20D0}' <= c <= '\U{20FF}')
    || ('\U{FE20}' <= c <= '\U{FE2F}')
  }

  predicate NotMark(c: char) { !IsMark(c) }

  /** A mark table that never lists an ASCII letter or digit (true of `\p{M}` and `\p{Diacritic}`). */
  ghost predicate SparesAlnum(mark: char -> bool) {
    forall c :: mark(c) ==> !IsAlnum(c)
  }

  /** The shared pipeline: decompose, drop the characters the mark table lists, keep `[A-Za-z0-9]`, upper-case. */
  function Canonical(s: string, nfd: string -> string, notMark: char -> bool): (r: string)
    ensures forall i :: 0 <= i < |r| ==> IsUpper(r[i]) || IsDigit(r[i])
  {
    ToUpper(Filter(Filter(nfd(s), notMark), IsAlnum))
  }

  /** normalizeAnswer: the empty (falsy) input gives "", and every output character is in `[A-Z0-9]`. */
  function NormalizeAnswer(s: string): (r: string)
    ensures s == "" ==> r == ""
    ensures forall i :: 0 <= i < |r| ==> IsUpper(r[i]) || IsDigit(r[i])
  {
    if s == "" then "" else Canonical(s, Decompose, NotMark)
  }

  /** Removing characters that are never ASCII letters or digits does not change what the ASCII filter keeps. */
  lemma {:induction false} MarkStripInvisible(s: string, notMark: char -> bool)
    requires forall c :: !notMark(c) ==> !IsAlnum(c)
    ensures Filter(Filter(s, notMark), IsAlnum) == Filter(s, IsAlnum)
  {
    if s != [] {
      MarkStripInvisible(s[1..], notMark);
      if notMark(s[0]) {
        FilterAppend([s[0]], Filter(s[1..], notMark), IsAlnum);
      } else {
        assert !IsAlnum(s[0]);
        assert Filter(s, notMark) == Filter(s[1..], notMark);
        assert Filter(s, IsAlnum) == Filter(s[1..], IsAlnum);
      }
    }
  }

  /** Whatever mark table is used, the pipeline equals "decompose, keep ASCII letters and digits, upper-case". */
  lemma CanonicalIgnoresMarks(s: string, nfd: string -> string, notMark: char -> bool)
    requires forall c :: !notMark(c) ==> !IsAlnum(c)
    ensures Canonical(s, nfd, notMark) == ToUpper(Filter(nfd(s), IsAlnum))
  {
    MarkStripInvisible(nfd(s), notMark);
  }

  lemma {:induction false} DecomposeKeepsCanonical(s: string)
    requires forall i :: 0 <= i < |s| ==> IsUpper(s[i]) || IsDigit(s[i])
    ensures Decompose(s) == s
  {
    if s != [] {
      DecomposeKeepsCanonical(s[1..]);
    }
  }

  /** normalizeAnswer is idempotent. */
  lemma NormalizeIdempotent(s: string)
    ensures NormalizeAnswer(NormalizeAnswer(s)) == NormalizeAnswer(s)
  {
    var r := NormalizeAnswer(s);
    if r != "" {
      DecomposeKeepsCanonical(r);
      assert Filter(r, NotMark) == r;
      assert Filter(r, IsAlnum) == r;
      assert ToUpper(r) == r;
    }
  }
}

=== FILE: questions.dfy ===
/**
 * The question routes (niwot/api/src/routes/questions.ts): validation and
 * normalisation of a suggested question, and the filter of the question list.
 * The upload itself and the store writes are outside the model; the uploaded
 * file's name and the parsed JSON fields are parameters.
 */
module Questions {
  import opened Wrappers
  import opened Text
  import Normalize
  import opened RoomTypes
  import opened AuthMiddleware

  datatype QuestionStatus = AwaitingApproval | Approved | Refused

  /** The form fields of POST /suggest; a missing or empty field is falsy. */
  datatype SuggestBody = SuggestBody(
    text: Option<string>, qtype: Option<string>, citationText: Option<string>, answer: Option<string>,
    alternatives: Option<seq<string>>, explanation: Option<string>, categoryIds: Option<seq<int>>)

  /** The row POST /suggest writes. */
  datatype NewQuestion = NewQuestion(
    text: string, qtype: QuestionType, citationText: Option<string>, imagePath: Option<string>,
    answer: string, alternatives: seq<string>, explanation: string, status: QuestionStatus,
    createdById: int, categoryIds: seq<int>)

  /** Every alternative normalised, in order. */
  function NormalizedAll(alts: seq<string>): (r: seq<string>)
    ensures |r| == |alts|
    ensures forall i :: 0 <= i < |r| ==> r[i] == Normalize.NormalizeAnswer(alts[i])
  {
    if alts == [] then [] else [Normalize.NormalizeAnswer(alts[0])] + NormalizedAll(alts[1..])
  }

  /**
   * The stored alternatives: normalised, without the empty ones and without
   * those equal to the normalised answer. Duplicates among the others are kept.
   */
  function Alternatives(alts: seq<string>, answer: string): (r: seq<string>)
    ensures |r| <= |alts|
    ensures forall k :: 0 <= k < |r| ==> r[k] != "" && r[k] != answer
  {
    if alts == [] then []
    else
      var n := Normalize.NormalizeAnswer(alts[0]);
      var rest := Alternatives(alts[1..], answer);
      if n != "" && n != answer then [n] + rest else rest
  }

  /** What is kept: exactly the normalised alternatives that are neither empty nor the answer. */
  lemma {:induction false} AlternativesMembers(alts: seq<string>, answer: string, x: string)
    ensures x in Alternatives(alts, answer) <==> x in NormalizedAll(alts) && x != "" && x != answer
  {
    if alts != [] {
      AlternativesMembers(alts[1..], answer, x);
    }
  }

  /** Every stored alternative is already in normal form, so normalising it again at play time keeps it. */
  lemma AlternativesAreNormal(alts: seq<string>, answer: string, x: string)
    requires x in Alternatives(alts, answer)
    ensures Normalize.NormalizeAnswer(x) == x
  {
    AlternativesMembers(alts, answer, x);
    var i :| 0 <= i < |alts| && NormalizedAll(alts)[i] == x;
    Normalize.NormalizeIdempotent(alts[i]);
  }

  /** A submission's status: approved for an admin, awaiting approval otherwise. */
  function StatusFor(role: Role): (s: QuestionStatus)
    ensures s == Approved <==> role == AdminRole
    ensures s != Refused
  {
    if role == AdminRole then Approved else AwaitingApproval
  }

  /**
   * POST /suggest: 400 "Champs manquants" when text, type, answer, explanation
   * or categoryIds is falsy, then 400 "Type invalide" for a type other than
   * CITATION or IMAGE, otherwise the row written.
   */
  function Suggest(userId: int, role: Role, body: SuggestBody, file: Option<string>): (r: Result<NewQuestion>)
    ensures (!Truthy(body.text) || !Truthy(body.qtype) || !Truthy(body.answer) || !Truthy(body.explanation)
             || body.categoryIds.None?) <==> r == Err(400, "Champs manquants")
    ensures r == Err(400, "Type invalide") <==>
      Truthy(body.text) && Truthy(body.answer) && Truthy(body.explanation) && body.categoryIds.Some?
      && Truthy(body.qtype) && body.qtype.value != "CITATION" && body.qtype.value != "IMAGE"
    ensures r.Ok? ==> r.value.status == StatusFor(role) && r.value.createdById == userId
    ensures r.Ok? ==> r.value.answer == Normalize.NormalizeAnswer(body.answer.value)
    ensures r.Ok? ==> r.value.answer !in r.value.alternatives && "" !in r.value.alternatives
    ensures r.Ok? ==> (r.value.citationText.Some? <==> r.value.qtype == Citation)
    ensures r.Ok? ==> (r.value.imagePath.Some? <==> r.value.qtype == Image && file.Some?)
    ensures r.Ok? && r.value.imagePath.Some? ==> r.value.imagePath.value == "/uploads/" + file.value
    ensures r.Ok? ==> r.value.qtype != Plain
    ensures r.Ok? ==> (r.value.qtype == Citation <==> body.qtype.value == "CITATION")
    ensures r.Ok? ==> r.value.text == body.text.value && r.value.explanation == body.explanation.value
    ensures r.Ok? ==> r.value.categoryIds == body.categoryIds.value
    ensures r.Ok? ==> r.value.alternatives == Alternatives(body.alternatives.GetOr([]), r.value.answer)
    ensures r.Ok? && r.value.qtype == Citation ==> r.value.citationText == Some(body.citationText.GetOr(""))
  {
    if !Truthy(body.text) || !Truthy(body.qtype) || !Truthy(body.answer) || !Truthy(body.explanation)
       || body.categoryIds.None? then
      Err(400, "Champs manquants")
    else if body.qtype.value != "CITATION" && body.qtype.value != "IMAGE" then
      Err(400, "Type invalide")
    else
      var qtype := if body.qtype.value == "CITATION" then Citation else Image;
      var answer := Normalize.NormalizeAnswer(body.answer.value);
      Ok(NewQuestion(
        body.text.value, qtype,
        if qtype == Citation then Some(body.citationText.GetOr("")) else None,
        if qtype == Image && file.Some? then Some("/uploads/" + file.value) else None,
        answer, Alternatives(body.alternatives.GetOr([]), answer), body.explanation.value,
        StatusFor(role), userId, body.categoryIds.value))
  }

  // ---------------------------------------------------------------------
  // GET /questions

  /** The value of a string of decimal digits. */
  function DigitsValue(s: string): (n: nat)
    requires forall i :: 0 <= i < |s| ==> IsDigit(s[i])
    ensures s == [] ==> n == 0
  {
    if s == [] then 0 else
      assert IsDigit(s[|s| - 1]);
      10 * DigitsValue(s[..|s| - 1]) + (s[|s| - 1] as int - '0' as int)
  }

  /** Appending a digit multiplies the value so far by ten and adds that digit. */
  lemma DigitsValueAppend(s: string, d: char)
    requires forall i :: 0 <= i < |s| ==> IsDigit(s[i])
    requires IsDigit(d)
    ensures DigitsValue(s + [d]) == 10 * DigitsValue(s) + (d as int - '0' as int)
  {
    assert (s + [d])[..|s|] == s;
  }

  /** Leading zeros do not change the value ("007" is 7). */
  lemma {:induction false} DigitsValueLeadingZero(s: string)
    requires forall i :: 0 <= i < |s| ==> IsDigit(s[i])
    ensures DigitsValue(['0'] + s) == DigitsValue(s)
  {
    if s != [] {
      var init := s[..|s| - 1];
      DigitsValueLeadingZero(init);
      assert (['0'] + s)[..|s|] == ['0'] + init;
    }
  }

  /** A digit string is worth 0 only when every digit is '0'. */
  lemma {:induction false} DigitsValueZero(s: string)
    requires forall i :: 0 <= i < |s| ==> IsDigit(s[i])
    ensures DigitsValue(s) == 0 <==> forall i :: 0 <= i < |s| ==> s[i] == '0'
  {
    if s != [] {
      DigitsValueZero(s[..|s| - 1]);
      assert forall i :: 0 <= i < |s| - 1 ==> s[..|s| - 1][i] == s[i];
    }
  }

  /**
   * `Number(piece)` for the pieces the filter can meet: a blank piece is 0, a
   * piece of decimal digits (spaces around it allowed) is its value, anything
   * else is NaN (None).
   */
  function PieceNumber(piece: string): (r: Option<nat>)
    ensures IsBlank(piece) ==> r == Some(0)
  {
    var t := Trim(piece);
    if t == "" then Some(0)
    else if forall i :: 0 <= i < |t| ==> IsDigit(t[i]) then Some(DigitsValue(t))
    else None
  }

  /** `.map(Number)` over the pieces. */
  function Numbers(pieces: seq<string>): (r: seq<Option<nat>>)
    ensures |r| == |pieces|
    ensures forall i :: 0 <= i < |pieces| ==> r[i] == PieceNumber(pieces[i])
  {
    seq(|pieces|, i requires 0 <= i < |pieces| => PieceNumber(pieces[i]))
  }

  /** `.filter(Boolean)`: the non-zero numbers, in order; NaN and 0 are dropped. */
  function NonZero(xs: seq<Option<nat>>): (ids: seq<nat>)
    ensures |ids| <= |xs|
    ensures forall k :: 0 <= k < |ids| ==> ids[k] != 0
    ensures forall n :: n in ids <==> n != 0 && Some(n) in xs
  {
    if xs == [] then []
    else
      var rest := NonZero(xs[1..]);
      assert forall w :: w in xs <==> w == xs[0] || w in xs[1..];
      if xs[0].Some? && xs[0].value != 0 then [xs[0].value] + rest else rest
  }

  /** The category ids of the query: the pieces between commas, as numbers, zeros and NaN dropped. */
  function CategoryIds(categories: string): (ids: seq<nat>)
    ensures forall k :: 0 <= k < |ids| ==> ids[k] != 0
    ensures forall n :: n in ids <==> n != 0 && Some(n) in Numbers(Split(categories, ','))
  {
    NonZero(Numbers(Split(categories, ',')))
  }

  /** The `where` object of GET /questions. */
  datatype QuestionFilter = QuestionFilter(status: Option<string>, categoryIds: Option<seq<nat>>)

  /** GET /questions's filter: the status when truthy; the category ids when some non-zero number remains. */
  function QuestionsWhere(status: Option<string>, categories: Option<string>): (w: QuestionFilter)
    ensures w.status.Some? <==> Truthy(status)
    ensures w.status.Some? ==> w.status == status
    ensures w.categoryIds.Some? ==> Truthy(categories) && w.categoryIds.value != []
    ensures w.categoryIds.Some? ==> w.categoryIds.value == CategoryIds(categories.value)
    ensures Truthy(categories) && CategoryIds(categories.value) != [] ==> w.categoryIds.Some?
  {
    var ids := if Truthy(categories) then CategoryIds(categories.value) else [];
    QuestionFilter(if Truthy(status) then status else None, if ids != [] then Some(ids) else None)
  }

  /** A list whose every piece is 0, blank or not a number filters nothing. */
  lemma ZerosDoNotFilter(categories: string)
    requires forall k :: 0 <= k < |Numbers(Split(categories, ','))| ==>
      Numbers(Split(categories, ','))[k] == Some(0) || Numbers(Split(categories, ','))[k].None?
    ensures QuestionsWhere(None, Some(categories)).categoryIds.None?
  {
    NoIdsFromZeros(Numbers(Split(categories, ',')));
  }

  /** Only zeros and NaNs leave no id. */
  lemma {:induction false} NoIdsFromZeros(xs: seq<Option<nat>>)
    requires forall k :: 0 <= k < |xs| ==> xs[k] == Some(0) || xs[k].None?
    ensures NonZero(xs) == []
  {
    if xs != [] {
      NoIdsFromZeros(xs[1..]);
    }
  }
}

=== FILE: registry.dfy ===
/**
 * The socket layer's global room registry (niwot/api/src/sockets/index.ts):
 * the `rooms` map in insertion order, the join path that hydrates or creates a
 * room, the disconnect handler's sweep over every room, the public lobby list,
 * and the replies of handlers called with an unknown room code.
 */
module Registry {
  import opened Wrappers
  import opened Text
  import opened RoomTypes
  import opened Rooms
  import Sorting

  // ---------------------------------------------------------------------
  // The public lobby list

  /** One line of the public lobby list. */
  datatype RoomSummary = RoomSummary(code: string, name: Option<string>, status: Status, players: nat, maxPlayers: int, url: string)

  const QuizPage := "https://niwot.btsinfo.nc/quiz/"

  /** The page a lobby entry links to: the quiz while it runs, the room otherwise. */
  function RoomUrl(code: string, status: Status): (url: string)
    ensures status == Running ==> url == QuizPage + code
    ensures status != Running ==> url == RoomsPage + code
  {
    (if status == Running then QuizPage else RoomsPage) + code
  }

  /** `a.localeCompare(b) <= 0`, as code-point order (the collation agrees on codes of A-Z and 0-9). */
  predicate CodeLe(a: string, b: string): (le: bool)
    ensures a <= b ==> le
    ensures le && a != [] ==> b != [] && a[0] <= b[0]
  {
    a == [] || (b != [] && (a[0] < b[0] || (a[0] == b[0] && CodeLe(a[1..], b[1..]))))
  }

  lemma {:induction false} CodeLeTotal(a: string, b: string)
    ensures CodeLe(a, b) || CodeLe(b, a)
  {
    if a != [] && b != [] && a[0] == b[0] { CodeLeTotal(a[1..], b[1..]); }
  }

  lemma {:induction false} CodeLeTrans(a: string, b: string, c: string)
    requires CodeLe(a, b) && CodeLe(b, c)
    ensures CodeLe(a, c)
  {
    if a != [] && b != [] && c != [] && a[0] == b[0] && b[0] == c[0] {
      CodeLeTrans(a[1..], b[1..], c[1..]);
    }
  }

  lemma {:induction false} CodeLeAntisym(a: string, b: string)
    requires CodeLe(a, b) && CodeLe(b, a)
    ensures a == b
  {
    if a != [] && b != [] {
      CodeLeAntisym(a[1..], b[1..]);
      assert a == [a[0]] + a[1..] && b == [b[0]] + b[1..];
    }
  }

  /** `a.code.localeCompare(b.code)`: negative, zero or positive. */
  function CodeCompare(a: string, b: string): (c: int)
    ensures c == 0 <==> a == b
    ensures c < 0 ==> CodeLe(a, b)
  {
    if a == b then 0 else if CodeLe(a, b) then -1 else 1
  }

  /** The sort comparator of snapshotPublicRooms, as written: negative puts `a` first. */
  function SnapshotCompare(a: RoomSummary, b: RoomSummary): (r: int)
    ensures a.status != b.status ==> (r < 0 <==> a.status == Running) && r != 0
    ensures a.status == b.status && a.players != b.players ==> (r < 0 <==> a.players > b.players) && r != 0
    ensures a.status == b.status && a.players == b.players ==> (r == 0 <==> a.code == b.code)
  {
    if a.status != b.status then (if a.status == Running then -1 else 1)
    else if b.players != a.players then b.players - a.players
    else CodeCompare(a.code, b.code)
  }

  /**
   * The written comparator is not a consistent order: a lobby room and an
   * ended room each claim to come after the other, so Array.prototype.sort may
   * place them either way.
   */
  lemma SnapshotCompareInconsistent()
    ensures var a := RoomSummary("AAAAAA", None, Lobby, 0, 10, RoomUrl("AAAAAA", Lobby));
            var b := RoomSummary("BBBBBB", None, Ended, 0, 10, RoomUrl("BBBBBB", Ended));
            SnapshotCompare(a, b) > 0 && SnapshotCompare(b, a) > 0
  {
  }

  /** The order the comparator evidently means: running rooms first, then by players descending, then by code. */
  predicate SnapshotBefore(a: RoomSummary, b: RoomSummary) {
    var ra := if a.status == Running then 0 else 1;
    var rb := if b.status == Running then 0 else 1;
    ra < rb || (ra == rb && (a.players > b.players || (a.players == b.players && CodeLe(a.code, b.code))))
  }

  lemma SnapshotBeforeIsPreorder()
    ensures Sorting.TotalPreorder(SnapshotBefore)
  {
    forall a, b ensures SnapshotBefore(a, b) || SnapshotBefore(b, a) {
      CodeLeTotal(a.code, b.code);
    }
    forall a, b, c | SnapshotBefore(a, b) && SnapshotBefore(b, c) ensures SnapshotBefore(a, c) {
      if a.code != b.code || b.code != c.code {
        if CodeLe(a.code, b.code) && CodeLe(b.code, c.code) {
          CodeLeTrans(a.code, b.code, c.code);
        }
      }
    }
  }

  /** Wherever the written comparator is consistent (unless one room runs, both share a status), the corrected order agrees with it. */
  lemma SnapshotBeforeAgrees(a: RoomSummary, b: RoomSummary)
    requires a.status == b.status || a.status == Running || b.status == Running
    ensures SnapshotCompare(a, b) < 0 ==> SnapshotBefore(a, b) && (a.code != b.code ==> !SnapshotBefore(b, a))
    ensures SnapshotCompare(a, b) > 0 ==> SnapshotBefore(b, a) && (a.code != b.code ==> !SnapshotBefore(a, b))
  {
    CodeLeTotal(a.code, b.code);
    if CodeLe(a.code, b.code) && CodeLe(b.code, a.code) {
      CodeLeAntisym(a.code, b.code);
    }
  }

  // ---------------------------------------------------------------------
  // Replies to an unknown room code

  /** The handlers that look the code up; room:join is not one of them, it opens the room (Registry.Join). */
  datatype Handler = LeaveH | ConfigH | KickH | BanH | UnbanH | StartH | RestartH | GotoH | AnswerH | TransferH

  /** What each handler replies when no room has the code. */
  function MissingRoomAck(h: Handler): (ack: Option<Ack>)
    ensures h == AnswerH <==> ack.None?
    ensures ack == Some(AckOk) <==> h == LeaveH
    ensures h == ConfigH ==> ack == Some(AckError("Salle introuvable"))
    ensures h in {KickH, BanH, UnbanH, RestartH, GotoH} ==> ack == Some(AckFailed("room_not_found"))
    ensures h in {StartH, TransferH} ==> ack == Some(AckError("room_not_found"))
  {
    match h
    case LeaveH => Some(AckOk)
    case ConfigH => Some(AckError("Salle introuvable"))
    case KickH => Some(AckFailed("room_not_found"))
    case BanH => Some(AckFailed("room_not_found"))
    case UnbanH => Some(AckFailed("room_not_found"))
    case StartH => Some(AckError("room_not_found"))
    case RestartH => Some(AckFailed("room_not_found"))
    case GotoH => Some(AckFailed("room_not_found"))
    case AnswerH => None
    case TransferH => Some(AckError("room_not_found"))
  }

  // ---------------------------------------------------------------------
  // The registry

  class Registry {
    /** `rooms`, keyed by upper-case code. */
    var rooms: map<string, Room>
    /** The keys of `rooms` in insertion order, the order a Map iterates in. */
    var order: seq<string>

    ghost predicate Valid()
      reads this, rooms.Values
    {
      (forall c :: c in rooms ==> rooms[c].code == c && rooms[c].Valid())
      && (forall i :: 0 <= i < |order| ==> order[i] in rooms)
      && (forall c :: c in rooms ==> c in order)
      && (forall i, j :: 0 <= i < j < |order| ==> order[i] != order[j])
    }

    constructor ()
      ensures Valid() && rooms == map[] && order == []
    {
      rooms := map[];
      order := [];
    }

    /** `rooms.get(code.toUpperCase())`. */
    function Find(code: string): (r: Option<Room>)
      reads this
      ensures r.Some? <==> ToUpper(code) in rooms
      ensures r.Some? ==> r.value == rooms[ToUpper(code)]
    {
      if ToUpper(code) in rooms then Some(rooms[ToUpper(code)]) else None
    }

    /**
     * room:join: the upper-cased code is looked up; an unknown code is hydrated
     * from the stored room when there is one, or becomes an ephemeral room hosted
     * by the joiner; then the room's own join runs.
     */
    method Join(code: string, sid: string, username: string, userId: int, avatar: Option<string>,
                stored: Option<RoomRecord>, now: int)
      returns (room: Room, ack: Ack, events: seq<Event>)
      requires Valid() && sid != ""
      modifies this, rooms.Values
      ensures Valid()
      ensures ToUpper(code) in rooms && room == rooms[ToUpper(code)] && room.code == ToUpper(code)
      ensures ToUpper(code) in old(rooms) ==> rooms == old(rooms) && order == old(order) && room == old(rooms[ToUpper(code)])
      ensures ToUpper(code) !in old(rooms) ==>
        fresh(room) && rooms == old(rooms)[ToUpper(code) := room] && order == old(order) + [ToUpper(code)]
      ensures ack == AckOk ==> FindByUserId(room.players, userId).Some? && room.players[FindByUserId(room.players, userId).value].id == sid
      ensures ToUpper(code) !in old(rooms) && stored.None? ==>
        room.params == DefaultParams && room.status == Lobby && room.hostId == sid && room.hostUserId == userId
        && ack == AckOk && room.players == Admit([], sid, userId, username, avatar)
      ensures ToUpper(code) !in old(rooms) && stored.Some? ==>
        var ps := HydratePlayers(stored.value.members);
        room.params == HydrateParams(stored.value) && room.status == Lobby
        && (ack == AckOk <==>
              !IsExcluded(room.params.excludedUsernames, username)
              && (FindByUserId(ps, userId).Some? || |ps| < room.params.maxPlayers))
        && (ack == AckOk ==> room.players == Admit(ps, sid, userId, username, avatar))
        && (ack != AckOk ==> room.players == ps)
      ensures ToUpper(code) in old(rooms) ==>
        var ps := old(rooms[ToUpper(code)].players);
        (ack == AckOk <==>
           !IsExcluded(room.params.excludedUsernames, username)
           && (FindByUserId(ps, userId).Some? || |ps| < room.params.maxPlayers))
        && (ack == AckOk ==> room.players == Admit(ps, sid, userId, username, avatar))
        && (ack != AckOk ==> room.players == ps)
    {
      var key := ToUpper(code);
      room := Open(key, sid, userId, stored);
      ghost var before := room.players;
      ack, events := JoinIn(key, sid, username, userId, avatar, now);
      if ack == AckOk {
        AdmitFindsJoiner(before, sid, userId, username, avatar);
      }
    }

    /** The room under `key`: the existing one, else hydrated from the store, else ephemeral. */
    method Open(key: string, sid: string, userId: int, stored: Option<RoomRecord>) returns (room: Room)
      requires Valid()
      modifies this
      ensures Valid()
      ensures key in rooms && room == rooms[key] && room.code == key
      ensures key in old(rooms) ==> rooms == old(rooms) && order == old(order) && room == old(rooms[key])
      ensures key !in old(rooms) ==>
        fresh(room) && rooms == old(rooms)[key := room] && order == old(order) + [key]
        && room.status == Lobby && room.currentQuestion.None? && room.proposals == [] && room.pendingDraws == 0
      ensures key !in old(rooms) && stored.None? ==>
        room.hostId == sid && room.hostUserId == userId && room.params == DefaultParams && room.players == []
      ensures key !in old(rooms) && stored.Some? ==>
        room.hostId == "" && room.hostUserId == HydrateHostUserId(stored.value)
        && room.params == HydrateParams(stored.value) && room.players == HydratePlayers(stored.value.members)
    {
      if key in rooms {
        room := rooms[key];
      } else {
        if stored.Some? {
          room := new Room.Hydrated(key, stored.value);
        } else {
          room := new Room.Ephemeral(key, sid, userId);
        }
        rooms := rooms[key := room];
        order := order + [key];
      }
    }

    /** The room's own join, run on the room under `key`; the registry's map and order stay. */
    method JoinIn(key: string, sid: string, username: string, userId: int, avatar: Option<string>, now: int)
      returns (ack: Ack, events: seq<Event>)
      requires Valid() && sid != "" && key in rooms
      modifies rooms[key]
      ensures Valid()
      ensures ack == AckOk <==>
        !IsExcluded(rooms[key].params.excludedUsernames, username)
        && (FindByUserId(old(rooms[key].players), userId).Some? || |old(rooms[key].players)| < rooms[key].params.maxPlayers)
      ensures ack == AckOk ==> rooms[key].players == Admit(old(rooms[key].players), sid, userId, username, avatar)
      ensures ack != AckOk ==> rooms[key].players == old(rooms[key].players)
      ensures rooms[key].params == old(rooms[key].params) && rooms[key].status == old(rooms[key].status)
      ensures old(rooms[key].hostId) != "" ==>
        rooms[key].hostId == old(rooms[key].hostId) && rooms[key].hostUserId == old(rooms[key].hostUserId)
    {
      ack, events := rooms[key].Join(sid, username, userId, avatar, now);
    }

    /**
     * One room's share of a socket disconnect; every other room is left as it
     * was. The room's broadcast is collected by Disconnect.
     */
    method DisconnectIn(c: string, sid: string)
      requires Valid() && c in rooms
      modifies {rooms[c]}`players, {rooms[c]}`hostId
      ensures Valid()
      ensures rooms[c].hostUserId == old(rooms[c].hostUserId)
      ensures rooms[c].players == ClearSocket(old(rooms[c].players), sid)
      ensures rooms[c].hostId == (if old(rooms[c].hostId) == sid then "" else old(rooms[c].hostId))
      ensures Unbound(rooms[c], old(rooms[c].players), old(rooms[c].hostId), sid)
      ensures forall d :: d in rooms && d != c ==>
        rooms[d].players == old(rooms[d].players) && rooms[d].hostId == old(rooms[d].hostId)
    {
      var update := rooms[c].Disconnect(sid);
    }

    /**
     * The disconnect handler: every room, in insertion order, unbinds the
     * socket from its roster and from its host socket, and broadcasts its
     * new state. Rooms share no state, so the updates are collected after
     * the unbinding pass, in the same order.
     */
    method Disconnect(sid: string) returns (events: seq<Event>)
      requires Valid()
      modifies rooms.Values`players, rooms.Values`hostId
      ensures Valid()
      ensures forall c :: c in rooms ==>
        rooms[c].players == ClearSocket(old(rooms[c].players), sid)
        && rooms[c].hostId == (if old(rooms[c].hostId) == sid then "" else old(rooms[c].hostId))
        && rooms[c].hostUserId == old(rooms[c].hostUserId)
      ensures events == Updates(order)
    {
      DisconnectFrom(0, sid);
      forall c | c in rooms
        ensures rooms[c].players == ClearSocket(old(rooms[c].players), sid)
        ensures rooms[c].hostId == (if old(rooms[c].hostId) == sid then "" else old(rooms[c].hostId))
      {
        var j :| 0 <= j < |order| && order[j] == c;
      }
      events := Updates(order);
    }

    /** The unbinding pass of Disconnect over the rooms from position `i` of the insertion order on. */
    method DisconnectFrom(i: nat, sid: string)
      requires Valid() && i <= |order|
      modifies rooms.Values`players, rooms.Values`hostId
      ensures Valid()
      ensures forall j :: i <= j < |order| ==> Unbound(rooms[order[j]], old(rooms[order[j]].players), old(rooms[order[j]].hostId), sid)
      ensures forall j :: 0 <= j < i ==>
        rooms[order[j]].players == old(rooms[order[j]].players) && rooms[order[j]].hostId == old(rooms[order[j]].hostId)
      decreases |order| - i
    {
      if i < |order| {
        DisconnectIn(order[i], sid);
        DisconnectFrom(i + 1, sid);
      }
    }

    /** The room holds the roster and host socket a disconnect of `sid` leaves from `players0` and `host0`. */
    ghost predicate Unbound(room: Room, players0: seq<Player>, host0: string, sid: string)
      reads room
    {
      room.players == ClearSocket(players0, sid) && room.hostId == (if host0 == sid then "" else host0)
    }

    /** The room:update broadcast of each room among `codes`, in that order. */
    function Updates(codes: seq<string>): (r: seq<Event>)
      reads this, rooms.Values
      requires forall i :: 0 <= i < |codes| ==> codes[i] in rooms
      ensures |r| == |codes|
      ensures forall j :: 0 <= j < |codes| ==> r[j] == RoomUpdate(rooms[codes[j]].View())
    {
      if codes == [] then [] else [RoomUpdate(rooms[codes[0]].View())] + Updates(codes[1..])
    }

    /** The lobby-list line of one room. */
    function SummaryOf(room: Room): (s: RoomSummary)
      reads room
      ensures s.code == room.code && s.status == room.status && s.url == RoomUrl(room.code, room.status)
      ensures s.players == |ActivePlayers(room.players)| && s.players <= |room.players|
    {
      RoomSummary(room.code, room.name, room.status, |ActivePlayers(room.players)|,
                  room.params.maxPlayers, RoomUrl(room.code, room.status))
    }

    /** The lobby-list lines of the public rooms among `codes`, in that order. */
    function Summaries(codes: seq<string>): (r: seq<RoomSummary>)
      reads this, rooms.Values
      requires forall i :: 0 <= i < |codes| ==> codes[i] in rooms
      requires forall c :: c in rooms ==> rooms[c].code == c
      ensures |r| <= |codes|
      ensures forall i :: 0 <= i < |r| ==> r[i].code in rooms && !rooms[r[i].code].params.isPrivate
      ensures forall i :: 0 <= i < |r| ==> r[i].url == RoomUrl(r[i].code, r[i].status)
      ensures forall i :: 0 <= i < |codes| && !rooms[codes[i]].params.isPrivate ==> SummaryOf(rooms[codes[i]]) in r
    {
      if codes == [] then []
      else
        var room := rooms[codes[|codes| - 1]];
        var init := Summaries(codes[..|codes| - 1]);
        assert forall i :: 0 <= i < |codes| - 1 ==> codes[..|codes| - 1][i] == codes[i];
        if room.params.isPrivate then init else init + [SummaryOf(room)]
    }

    /**
     * snapshotPublicRooms: the public rooms with their connected-player count,
     * running rooms first, then by players descending, then by code.
     */
    method SnapshotPublicRooms() returns (list: seq<RoomSummary>)
      requires Valid()
      ensures multiset(list) == multiset(Summaries(order))
      ensures Sorting.SortedBy(list, SnapshotBefore)
      ensures forall i :: 0 <= i < |list| ==> list[i].code in rooms && !rooms[list[i].code].params.isPrivate
      ensures forall c :: c in rooms && !rooms[c].params.isPrivate ==> SummaryOf(rooms[c]) in list
    {
      var arr := [];
      for i := 0 to |order|
        invariant arr == Summaries(order[..i])
      {
        var room := rooms[order[i]];
        assert order[..i + 1][..i] == order[..i];
        if !room.params.isPrivate {
          arr := arr + [SummaryOf(room)];
        }
      }
      assert order[..|order|] == order;
      SnapshotBeforeIsPreorder();
      list := Sorting.SortBy(arr, SnapshotBefore);
      forall k | 0 <= k < |list|
        ensures list[k].code in rooms && !rooms[list[k].code].params.isPrivate
      {
        assert list[k] in multiset(arr);
      }
      forall c | c in rooms && !rooms[c].params.isPrivate
        ensures SummaryOf(rooms[c]) in list
      {
        var j :| 0 <= j < |order| && order[j] == c;
        assert SummaryOf(rooms[c]) in multiset(arr);
      }
    }
  }
}

=== FILE: room.dfy ===
/**
 * One quiz room of the socket layer (niwot/api/src/sockets/index.ts): the
 * record that every handler mutates in place. Handlers receive the socket id
 * of the caller and the store's answers (the question draw, the stored
 * settings) as parameters, and return the acknowledgement and the events they
 * emit, in emission order. Timers are fields: `timeout` is the round timer and
 * `pendingDraws` counts the post-round draws already scheduled.
 */
module Rooms {
  import opened Wrappers
  import opened Text
  import opened RoomTypes

  /** What a handler broadcasts to the room, sends to one socket, or writes to the store. */
  datatype Event =
    | RoomUpdate(view: RoomView)
    | RoomStarted(code: string)
    | QuizQuestion(toSocket: Option<string>, serverNow: int, params: RoomParams, question: QuestionView, startsAt: int, endsAt: int)
    | QuizProposals(toSocket: Option<string>, list: seq<ProposalView>)
    | QuizResult(correct: string, first: Option<string>, explanation: Option<string>, createdBy: Option<string>)
    | QuizEnded(top: seq<TopEntry>)
    | NoQuestionLeft
    | GotoRoom(code: string, url: string)
    | Kicked(socketId: string)
    | Banned(socketId: string)
    | SaveOwner(ownerId: Option<int>)
    | SaveConfig(params: RoomParams)
    | SaveExcluded(names: seq<string>)
    | AddWin(userId: int)
    | DrawScheduled(delayMs: nat)  // the post-round draw's timer is armed

  /** The acknowledgement passed to the caller's callback. */
  datatype Ack =
    | AckOk
    | AckFailed(error: string)     // { ok: false, error }
    | AckError(error: string)      // { error }
    | AckUnbanned(list: seq<string>)
    | AckCorrect(correct: bool)
    | AckGoto(url: string)

  /** A room row of the store, as hydration reads it. */
  datatype MemberRecord = MemberRecord(userId: int, username: Option<string>, profileImage: Option<string>)
  datatype RoomRecord = RoomRecord(
    name: Option<string>, visibility: Option<string>, isPrivate: Option<bool>, maxPlayers: Option<int>,
    excludedUsernames: Option<seq<string>>, categories: Option<seq<int>>,
    answerTimeSec: Option<int>, targetPoints: Option<int>, pointMode: Option<string>, scoring: Option<string>,
    showProposals: Option<bool>, ownerId: Option<int>, hostUserId: Option<int>, members: seq<MemberRecord>)

  /**
   * hydrateRoomFromDB's parameters: stored columns, with the ephemeral defaults
   * for null ones. Privacy reads `visibility`, falling back to the older
   * `isPrivate` flag; fixed scoring reads `pointMode`, or the older `scoring`.
   */
  function HydrateParams(rec: RoomRecord): (p: RoomParams)
    ensures p.isPrivate <==> rec.visibility == Some("private") || rec.isPrivate == Some(true)
    ensures p.scoring == Fixe <==> rec.pointMode == Some("fixed") || rec.scoring == Some("fixe")
    ensures p.maxPlayers == rec.maxPlayers.GetOr(10) && p.answerTimeSec == rec.answerTimeSec.GetOr(15)
    ensures p.targetPoints == rec.targetPoints.GetOr(100) && p.showProposals == rec.showProposals.GetOr(true)
    ensures p.approvedOnly && p.preCountdownSec == 0 && p.resultDelaySec == 5 && p.allowJoinMidQuiz
  {
    RoomParams(
      rec.visibility == Some("private") || rec.isPrivate == Some(true), rec.maxPlayers.GetOr(10),
      rec.excludedUsernames.GetOr([]), rec.categories.GetOr([]),
      rec.answerTimeSec.GetOr(15), rec.targetPoints.GetOr(100),
      if rec.pointMode == Some("fixed") || rec.scoring == Some("fixe") then Fixe else Degressif,
      rec.showProposals.GetOr(true), true, 0, 5, true)
  }

  /** The columns of a stored room that refreshParamsFromDB re-reads. */
  function SettingsOf(rec: RoomRecord): StoredSettings {
    StoredSettings(rec.targetPoints, rec.answerTimeSec, rec.showProposals, rec.maxPlayers,
                   rec.excludedUsernames, rec.pointMode, rec.scoring, rec.categories)
  }

  /** Hydration and the settings refresh read a row alike: refreshing a room just hydrated from it changes nothing. */
  lemma HydrateThenRefresh(rec: RoomRecord)
    ensures Refresh(HydrateParams(rec), Some(SettingsOf(rec))) == HydrateParams(rec)
  {
    var p := HydrateParams(rec);
    var r := Refresh(p, Some(SettingsOf(rec)));
    assert r.scoring == p.scoring;
  }

  function HydratePlayers(ms: seq<MemberRecord>): (ps: seq<Player>)
    ensures |ps| == |ms|
    ensures forall i :: 0 <= i < |ps| ==> ps[i].id == "" && ps[i].points == 0 && ps[i].userId == ms[i].userId
    ensures forall i :: 0 <= i < |ps| ==>
      ps[i].username == ms[i].username.GetOr("user") && ps[i].avatar == ms[i].profileImage
      && !ps[i].ready && !ps[i].answered
  {
    seq(|ms|, i requires 0 <= i < |ms| =>
      Player("", ms[i].userId, ms[i].username.GetOr("user"), ms[i].profileImage, 0, false, false))
  }

  /** The recorded host of a hydrated room: the owner, else the stored host user, else the first member, else 0. */
  function HydrateHostUserId(rec: RoomRecord): (uid: int)
    ensures rec.ownerId.Some? ==> uid == rec.ownerId.value
    ensures rec.ownerId.None? && rec.hostUserId.Some? ==> uid == rec.hostUserId.value
    ensures rec.ownerId.None? && rec.hostUserId.None? && rec.members != [] ==> uid == rec.members[0].userId
    ensures rec.ownerId.None? && rec.hostUserId.None? && rec.members == [] ==> uid == 0
  {
    if rec.ownerId.Some? then rec.ownerId.value
    else if rec.hostUserId.Some? then rec.hostUserId.value
    else if rec.members != [] then rec.members[0].userId
    else 0
  }

  /** A stored room whose every column is null gets the parameters of an ephemeral room. */
  lemma HydrateDefaults(rec: RoomRecord)
    requires rec.visibility.None? && rec.isPrivate.None? && rec.maxPlayers.None? && rec.excludedUsernames.None?
    requires rec.categories.None? && rec.answerTimeSec.None? && rec.targetPoints.None?
    requires rec.pointMode.None? && rec.scoring.None? && rec.showProposals.None?
    ensures HydrateParams(rec) == DefaultParams
  {
  }

  /** The announced window of a round: it opens after the pre-countdown and lasts at least five seconds. */
  function RoundWindow(p: RoomParams, now: int): (w: (int, int))
    ensures now <= w.0 && w.0 + 5000 <= w.1
    ensures p.preCountdownSec <= 0 ==> w.0 == now
    ensures p.preCountdownSec > 0 ==> w.0 == now + p.preCountdownSec * 1000
    ensures p.answerTimeSec >= 5 ==> w.1 - w.0 == p.answerTimeSec * 1000
    ensures p.answerTimeSec < 5 ==> w.1 - w.0 == 5000
  {
    var pre := (if p.preCountdownSec > 0 then p.preCountdownSec else 0) * 1000;
    var len := (if p.answerTimeSec > 5 then p.answerTimeSec else 5) * 1000;
    (now + pre, now + pre + len)
  }

  /** The delay of the round timer: the pre-countdown plus the unclamped answer time. */
  function TimerDelayMs(p: RoomParams): (ms: int)
    ensures ms >= p.answerTimeSec * 1000
    ensures p.preCountdownSec <= 0 ==> ms == p.answerTimeSec * 1000
    ensures p.preCountdownSec > 0 ==> ms == (p.preCountdownSec + p.answerTimeSec) * 1000
  {
    (if p.preCountdownSec > 0 then p.preCountdownSec else 0) * 1000 + p.answerTimeSec * 1000
  }

  /** With at least five seconds to answer, the round timer fires exactly when the announced window closes. */
  lemma TimerMatchesWindow(p: RoomParams, now: int)
    requires p.answerTimeSec >= 5
    ensures now + TimerDelayMs(p) == RoundWindow(p, now).1
  {
  }

  /** With less, it fires before the window the players were shown has closed. */
  lemma TimerBeatsShortWindow(p: RoomParams, now: int)
    requires p.answerTimeSec < 5
    ensures now + TimerDelayMs(p) < RoundWindow(p, now).1
  {
  }

  /** The roster after a successful join: an existing user is rebound and keeps its score, a new one is appended. */
  function Admit(ps: seq<Player>, sid: string, userId: int, username: string, avatar: Option<string>): (r: seq<Player>)
    ensures FindByUserId(ps, userId).None? ==>
      r == ps + [Player(sid, userId, username, avatar, 0, false, false)]
    ensures FindByUserId(ps, userId).Some? ==>
      var k := FindByUserId(ps, userId).value;
      |r| == |ps| && r[k].id == sid && r[k].username == username && r[k].avatar == avatar
      && r[k].points == ps[k].points && r[k].userId == userId
      && forall j :: 0 <= j < |ps| && j != k ==> r[j] == ps[j]
  {
    match FindByUserId(ps, userId)
    case None => ps + [Player(sid, userId, username, avatar, 0, false, false)]
    case Some(k) => ps[k := ps[k].(id := sid, username := username, avatar := avatar)]
  }

  /** Joining never duplicates a user: after a join the user is found at its old place, or last. */
  lemma AdmitFindsJoiner(ps: seq<Player>, sid: string, userId: int, username: string, avatar: Option<string>)
    ensures var r := Admit(ps, sid, userId, username, avatar);
      FindByUserId(r, userId) == Some(if FindByUserId(ps, userId).Some? then FindByUserId(ps, userId).value else |ps|)
  {
    var r := Admit(ps, sid, userId, username, avatar);
    if FindByUserId(ps, userId).None? {
      assert forall j :: 0 <= j < |ps| ==> r[j] == ps[j];
      FindFirstAt(r, (q: Player) => q.userId == userId, |ps|);
    } else {
      var k := FindByUserId(ps, userId).value;
      assert forall j :: 0 <= j < k ==> r[j] == ps[j];
      FindFirstAt(r, (q: Player) => q.userId == userId, k);
    }
  }

  /** The entry that scores a correct answer from `sid`: the first one bound to it, if it has not scored yet. */
  function Scorer(ps: seq<Player>, sid: string): (k: Option<nat>)
    ensures k.Some? ==> k.value < |ps| && ps[k.value].id == sid && !ps[k.value].answered
  {
    match FindBySocket(ps, sid)
    case None => None
    case Some(k) => if ps[k].answered then None else Some(k)
  }

  /** The roster after a correct answer from `sid`: its entry is marked answered and gains the points of its rank. */
  function ScoreCorrect(ps: seq<Player>, sid: string, scoring: Scoring): (r: seq<Player>)
    ensures |r| == |ps|
  {
    match Scorer(ps, sid)
    case None => ps
    case Some(k) =>
      var marked := ps[k := ps[k].(answered := true)];
      CountAfterMark(ps, k);
      marked[k := marked[k].(points := marked[k].points + AwardedPoints(scoring, CountAnswered(marked)))]
  }

  /**
   * Scoring touches one entry at most: the scorer is marked answered and
   * gains the points of the (CountAnswered + 1)-th finder; nothing else moves.
   */
  lemma ScoreCorrectSpec(ps: seq<Player>, sid: string, scoring: Scoring)
    ensures Scorer(ps, sid).None? ==> ScoreCorrect(ps, sid, scoring) == ps
    ensures Scorer(ps, sid).Some? ==>
      var k := Scorer(ps, sid).value;
      var r := ScoreCorrect(ps, sid, scoring);
      r[k] == ps[k].(answered := true, points := ps[k].points + AwardedPoints(scoring, CountAnswered(ps) + 1))
      && forall j :: 0 <= j < |ps| && j != k ==> r[j] == ps[j]
  {
    if Scorer(ps, sid).Some? {
      CountAfterMark(ps, Scorer(ps, sid).value);
    }
  }

  /** Marking one more entry answered raises the count by one. */
  lemma {:induction false} CountAfterMark(ps: seq<Player>, k: nat)
    requires k < |ps| && !ps[k].answered
    ensures CountAnswered(ps[k := ps[k].(answered := true)]) == CountAnswered(ps) + 1
  {
    var m := ps[k := ps[k].(answered := true)];
    if k == 0 {
      assert m[1..] == ps[1..];
    } else {
      CountAfterMark(ps[1..], k - 1);
      assert m[1..] == ps[1..][k - 1 := ps[1..][k - 1].(answered := true)];
    }
  }

  lemma {:induction false} FindFirstAgrees<T>(s1: seq<T>, s2: seq<T>, p: T -> bool)
    requires |s1| == |s2| && forall j :: 0 <= j < |s1| ==> p(s1[j]) == p(s2[j])
    ensures FindFirst(s1, p) == FindFirst(s2, p)
  {
    if s1 != [] { FindFirstAgrees(s1[1..], s2[1..], p); }
  }

  /** At most one score per round: a second correct answer from the same socket changes nothing. */
  lemma ScoreOnce(ps: seq<Player>, sid: string, scoring: Scoring)
    ensures ScoreCorrect(ScoreCorrect(ps, sid, scoring), sid, scoring) == ScoreCorrect(ps, sid, scoring)
  {
    var r := ScoreCorrect(ps, sid, scoring);
    FindFirstAgrees(ps, r, (q: Player) => q.id == sid);
  }

  /** The pause between a round's result and the next draw: a negative setting counts as none. */
  function ResultDelayMs(p: RoomParams): (ms: nat)
    ensures p.resultDelaySec >= 0 ==> ms == p.resultDelaySec * 1000
    ensures p.resultDelaySec < 0 ==> ms == 0
  {
    if p.resultDelaySec > 0 then p.resultDelaySec * 1000 else 0
  }

  /**
   * endRound's broadcasts, the win it records when someone reached the target,
   * and otherwise the timer of the next draw.
   */
  function RoundEndEvents(p: RoomParams, q: Question, proposals: seq<Proposal>, ps: seq<Player>, firstFinder: string): (evs: seq<Event>)
    ensures 3 <= |evs| <= 4 && evs[0].QuizProposals? && evs[0].toSocket.None?
    ensures evs[1] == QuizResult(q.answer, if firstFinder == "" then None else Some(firstFinder), q.explanation,
      if q.createdBy.Some? then Some(q.createdBy.value.username) else None)
    ensures forall i :: 0 <= i < |evs[0].list| ==> !IsCorrectGuess(Some(q), evs[0].list[i].guess)
    ensures evs[|evs| - 1].DrawScheduled? <==> FirstWinner(ps, p.targetPoints).None?
  {
    VisibleProposalsHideAnswer(p.showProposals, Some(q), proposals, ps);
    var result := QuizResult(q.answer, if firstFinder == "" then None else Some(firstFinder), q.explanation,
      if q.createdBy.Some? then Some(q.createdBy.value.username) else None);
    var head := [QuizProposals(None, VisibleProposals(p.showProposals, Some(q), proposals, ps)), result];
    match FirstWinner(ps, p.targetPoints)
    case None => head + [DrawScheduled(ResultDelayMs(p))]
    case Some(w) => head + [AddWin(ps[w].userId), QuizEnded(Top3(ActivePlayers(ps)))]
  }

  /**
   * A round ends with the proposals and the result; a winner adds a recorded
   * win for that player and the podium, and no draw; without one, only the
   * next draw is scheduled, after the result delay.
   */
  lemma RoundEndEventsShape(p: RoomParams, q: Question, proposals: seq<Proposal>, ps: seq<Player>, firstFinder: string)
    ensures var evs := RoundEndEvents(p, q, proposals, ps, firstFinder);
      |evs| >= 2 && evs[0] == QuizProposals(None, VisibleProposals(p.showProposals, Some(q), proposals, ps))
      && evs[1].QuizResult? && evs[1].correct == q.answer
      && (FirstWinner(ps, p.targetPoints).None? <==> |evs| == 3)
      && (FirstWinner(ps, p.targetPoints).None? ==> evs[2] == DrawScheduled(ResultDelayMs(p)))
      && (FirstWinner(ps, p.targetPoints).Some? ==>
            |evs| == 4 && evs[2] == AddWin(ps[FirstWinner(ps, p.targetPoints).value].userId)
            && evs[3] == QuizEnded(Top3(ActivePlayers(ps))))
  {
  }

  /** What nextQuestion broadcasts: the end of the questions, or the drawn question with its window. */
  function DrawnEvents(p: RoomParams, draw: Option<StoredQuestion>, env: Option<string>, now: int): (evs: seq<Event>)
    ensures |evs| == 1
    ensures draw.None? <==> evs[0] == NoQuestionLeft
  {
    match draw
    case None => [NoQuestionLeft]
    case Some(d) =>
      var w := RoundWindow(p, now);
      [QuizQuestion(None, now, p, QuestionPublic(BuildQuestion(d, env)), w.0, w.1)]
  }

  /** The drawn question as the room receives it: built with the uploads base, stamped, and given its window. */
  lemma DrawnEventsQuestion(p: RoomParams, draw: Option<StoredQuestion>, env: Option<string>, now: int)
    requires draw.Some?
    ensures var e := DrawnEvents(p, draw, env, now)[0];
      e.QuizQuestion? && e.toSocket.None? && e.serverNow == now && e.params == p
      && e.question == QuestionPublic(BuildQuestion(draw.value, env))
      && now <= e.startsAt && e.startsAt + 5000 <= e.endsAt
      && (p.answerTimeSec >= 5 ==> e.endsAt - e.startsAt == p.answerTimeSec * 1000)
  {
  }

  const RoomsPage := "https://niwot.btsinfo.nc/rooms/"

  class Room {
    const code: string
    var name: Option<string>
    var hostId: string
    var hostUserId: int
    var params: RoomParams
    var players: seq<Player>
    var status: Status
    var currentQuestion: Option<Question>
    var roundStartsAt: Option<int>
    var roundEndsAt: Option<int>
    var timeout: Timer
    var pendingDraws: nat
    var proposals: seq<Proposal>
    var firstFinder: string

    ghost predicate Valid()
      reads this
    {
      DistinctKeys(proposals) && forall i :: 0 <= i < |players| ==> players[i].points >= 0
    }

    /** The room a socket join creates for a code the store does not know: the joiner is its host. */
    constructor Ephemeral(code: string, sid: string, userId: int)
      ensures this.code == code && name.None? && hostId == sid && hostUserId == userId
      ensures params == DefaultParams && players == [] && status == Lobby
      ensures currentQuestion.None? && roundStartsAt.None? && roundEndsAt.None?
      ensures timeout == NoTimer && pendingDraws == 0 && proposals == [] && firstFinder == ""
      ensures Valid()
    {
      this.code := code;
      name := None;
      hostId := sid;
      hostUserId := userId;
      params := DefaultParams;
      players := [];
      status := Lobby;
      currentQuestion := None;
      roundStartsAt := None;
      roundEndsAt := None;
      timeout := NoTimer;
      pendingDraws := 0;
      proposals := [];
      firstFinder := "";
    }

    /** hydrateRoomFromDB: a lobby of disconnected members with no host socket. */
    constructor Hydrated(code: string, rec: RoomRecord)
      ensures this.code == code && name == rec.name && hostId == "" && hostUserId == HydrateHostUserId(rec)
      ensures params == HydrateParams(rec) && players == HydratePlayers(rec.members) && status == Lobby
      ensures currentQuestion.None? && roundStartsAt.None? && roundEndsAt.None?
      ensures timeout == NoTimer && pendingDraws == 0 && proposals == [] && firstFinder == ""
      ensures Valid()
    {
      this.code := code;
      name := rec.name;
      hostId := "";
      hostUserId := HydrateHostUserId(rec);
      params := HydrateParams(rec);
      players := HydratePlayers(rec.members);
      status := Lobby;
      currentQuestion := None;
      roundStartsAt := None;
      roundEndsAt := None;
      timeout := NoTimer;
      pendingDraws := 0;
      proposals := [];
      firstFinder := "";
    }

    /** Entry `i` is the first roster entry bound to socket `sid`. */
    predicate FirstBoundTo(i: int, sid: string)
      reads this
    {
      0 <= i < |players| && players[i].id == sid && forall j :: 0 <= j < i ==> players[j].id != sid
    }

    /** isHostSocket: the host socket itself, or the first entry bound to the socket belongs to the host user. */
    predicate IsHostSocket(sid: string): (b: bool)
      reads this
      ensures b <==> hostId == sid || exists i :: FirstBoundTo(i, sid) && players[i].userId == hostUserId
    {
      hostId == sid || (FindBySocket(players, sid).Some? && players[FindBySocket(players, sid).value].userId == hostUserId)
    }

    /** roomPublic of this room. */
    function View(): (v: RoomView)
      reads this
      ensures v.code == code && v.hostUserId == hostUserId && v.params == params && v.status == status
      ensures |v.players| == |ActivePlayers(players)|
    {
      RoomPublic(code, hostUserId, params, players, status)
    }

    /** publicProposals, as the loop over the proposal entries builds it. */
    method PublicProposals() returns (list: seq<ProposalView>)
      ensures list == VisibleProposals(params.showProposals, currentQuestion, proposals, players)
    {
      if !params.showProposals {
        return [];
      }
      list := [];
      var i := 0;
      while i < |proposals|
        invariant 0 <= i <= |proposals|
        invariant list + WrongGuesses(currentQuestion, proposals[i..], players)
               == WrongGuesses(currentQuestion, proposals, players)
      {
        assert proposals[i..][1..] == proposals[i + 1..];
        var entry := proposals[i];
        if !IsCorrectGuess(currentQuestion, entry.guess) {
          var k := FindBySocket(players, entry.socketId);
          if k.Some? {
            var p := players[k.value];
            list := list + [ProposalView(p.userId, p.username, AvatarOrNull(p.avatar), p.points, entry.guess)];
          }
        }
        i := i + 1;
      }
      assert proposals[i..] == [];
    }

    /** `room.players.forEach(p => p.answered = false)`. */
    method ClearAnsweredFlags()
      requires Valid()
      modifies this`players
      ensures players == ClearAnswered(old(players))
      ensures Valid()
    {
      var i := 0;
      while i < |players|
        invariant 0 <= i <= |players| == |old(players)|
        invariant forall j :: 0 <= j < i ==> players[j] == old(players)[j].(answered := false)
        invariant forall j :: i <= j < |players| ==> players[j] == old(players)[j]
      {
        players := players[i := players[i].(answered := false)];
        i := i + 1;
      }
    }

    /** The score resets: start's loop over the active players, or restart's over the whole roster. */
    method ResetScores(everyone: bool)
      requires Valid()
      modifies this`players
      ensures Valid()
      ensures players == if everyone then ResetAll(old(players)) else ResetActive(old(players))
    {
      var i := 0;
      while i < |players|
        invariant 0 <= i <= |players| == |old(players)|
        invariant forall j :: 0 <= j < i ==>
          players[j] == (if everyone then ResetAll(old(players)) else ResetActive(old(players)))[j]
        invariant forall j :: i <= j < |players| ==> players[j] == old(players)[j]
      {
        if everyone || players[i].id != "" {
          players := players[i := players[i].(points := 0, answered := false)];
        }
        i := i + 1;
      }
    }

    /**
     * nextQuestion after the draw: with no question the quiz ends; otherwise the
     * round is reset, its window announced and the round timer (re)armed.
     */
    method NextQuestion(draw: Option<StoredQuestion>, env: Option<string>, now: int) returns (events: seq<Event>)
      requires Valid()
      modifies this`status, this`currentQuestion, this`players, this`proposals, this`firstFinder,
               this`roundStartsAt, this`roundEndsAt, this`timeout
      ensures Valid()
      ensures draw.None? ==>
        events == [NoQuestionLeft] && status == Ended
        && currentQuestion == old(currentQuestion) && players == old(players) && proposals == old(proposals)
        && firstFinder == old(firstFinder) && roundStartsAt == old(roundStartsAt)
        && roundEndsAt == old(roundEndsAt) && timeout == old(timeout)
      ensures events == DrawnEvents(params, draw, env, now)
      ensures draw.Some? ==>
        var q := BuildQuestion(draw.value, env);
        var w := RoundWindow(params, now);
        status == old(status) && currentQuestion == Some(q)
        && players == ClearAnswered(old(players)) && proposals == [] && firstFinder == ""
        && roundStartsAt == Some(w.0) && roundEndsAt == Some(w.1)
        && timeout == Pending(TimerDelayMs(params))
        && events == [QuizQuestion(None, now, params, QuestionPublic(q), w.0, w.1)]
    {
      if draw.None? {
        status := Ended;
        return [NoQuestionLeft];
      }
      events := OpenRound(BuildQuestion(draw.value, env), now);
    }

    /** The state part of nextQuestion once a question is drawn. */
    method OpenRound(q: Question, now: int) returns (events: seq<Event>)
      requires Valid()
      modifies this`currentQuestion, this`players, this`proposals, this`firstFinder,
               this`roundStartsAt, this`roundEndsAt, this`timeout
      ensures Valid()
      ensures currentQuestion == Some(q) && players == ClearAnswered(old(players))
      ensures proposals == [] && firstFinder == ""
      ensures roundStartsAt == Some(RoundWindow(params, now).0) && roundEndsAt == Some(RoundWindow(params, now).1)
      ensures timeout == Pending(TimerDelayMs(params))
      ensures events == [QuizQuestion(None, now, params, QuestionPublic(q), RoundWindow(params, now).0, RoundWindow(params, now).1)]
    {
      currentQuestion := Some(q);
      ClearAnsweredFlags();
      proposals := [];
      firstFinder := "";
      var w := RoundWindow(params, now);
      roundStartsAt := Some(w.0);
      roundEndsAt := Some(w.1);
      timeout := Pending(TimerDelayMs(params));
      events := [QuizQuestion(None, now, params, QuestionPublic(q), w.0, w.1)];
    }

    /**
     * endRound: results are broadcast; a player at or past the target ends the
     * quiz, otherwise one more draw is scheduled. The question stays set.
     */
    method EndRound() returns (events: seq<Event>)
      requires Valid()
      modifies this`status, this`pendingDraws
      ensures currentQuestion.None? ==> events == [] && status == old(status) && pendingDraws == old(pendingDraws)
      ensures currentQuestion.Some? ==>
        events == RoundEndEvents(params, currentQuestion.value, proposals, players, firstFinder)
        && (FirstWinner(players, params.targetPoints).Some? ==> status == Ended && pendingDraws == old(pendingDraws))
        && (FirstWinner(players, params.targetPoints).None? ==> status == old(status) && pendingDraws == old(pendingDraws) + 1)
    {
      if currentQuestion.None? {
        return [];
      }
      var q := currentQuestion.value;
      var shown := PublicProposals();
      var result := QuizResult(q.answer, if firstFinder == "" then None else Some(firstFinder), q.explanation,
        if q.createdBy.Some? then Some(q.createdBy.value.username) else None);
      events := [QuizProposals(None, shown), result];
      var winner := FirstWinner(players, params.targetPoints);
      if winner.Some? {
        status := Ended;
        events := events + [AddWin(players[winner.value].userId), QuizEnded(Top3(ActivePlayers(players)))];
      } else {
        pendingDraws := pendingDraws + 1;
        events := events + [DrawScheduled(ResultDelayMs(params))];
      }
    }

    /** The round timer fires: its handle stays set (and truthy) while endRound runs. */
    method FireRoundTimeout() returns (events: seq<Event>)
      requires Valid() && timeout.Pending?
      modifies this`timeout, this`status, this`pendingDraws
      ensures timeout == Fired && currentQuestion == old(currentQuestion)
      ensures currentQuestion.None? ==> events == [] && status == old(status) && pendingDraws == old(pendingDraws)
      ensures currentQuestion.Some? ==> events == RoundEndEvents(params, currentQuestion.value, proposals, players, firstFinder)
      ensures currentQuestion.Some? && FirstWinner(players, params.targetPoints).Some? ==>
        status == Ended && pendingDraws == old(pendingDraws)
      ensures currentQuestion.Some? && FirstWinner(players, params.targetPoints).None? ==>
        status == old(status) && pendingDraws == old(pendingDraws) + 1
    {
      timeout := Fired;
      events := EndRound();
    }

    /** One of the scheduled post-round draws runs, whatever the room has become since. */
    method FireNextDraw(draw: Option<StoredQuestion>, env: Option<string>, now: int) returns (events: seq<Event>)
      requires Valid() && pendingDraws > 0
      modifies this`pendingDraws, this`status, this`currentQuestion, this`players, this`proposals,
               this`firstFinder, this`roundStartsAt, this`roundEndsAt, this`timeout
      ensures Valid()
      ensures pendingDraws == old(pendingDraws) - 1
      ensures events == DrawnEvents(params, draw, env, now)
      ensures draw.None? ==>
        events == [NoQuestionLeft] && status == Ended
        && currentQuestion == old(currentQuestion) && players == old(players) && proposals == old(proposals)
        && firstFinder == old(firstFinder) && roundStartsAt == old(roundStartsAt)
        && roundEndsAt == old(roundEndsAt) && timeout == old(timeout)
      ensures draw.Some? ==>
        var q := BuildQuestion(draw.value, env);
        var w := RoundWindow(params, now);
        status == old(status) && currentQuestion == Some(q)
        && players == ClearAnswered(old(players)) && proposals == [] && firstFinder == ""
        && roundStartsAt == Some(w.0) && roundEndsAt == Some(w.1)
        && timeout == Pending(TimerDelayMs(params))
        && events == [QuizQuestion(None, now, params, QuestionPublic(q), w.0, w.1)]
    {
      pendingDraws := pendingDraws - 1;
      events := NextQuestion(draw, env, now);
    }

    /**
     * Join's host binding: a room without a host socket is reclaimed by its
     * recorded host user, or taken (and its owner stored) when no host user is
     * recorded either.
     */
    method BindHost(sid: string, userId: int) returns (events: seq<Event>)
      modifies this`hostId, this`hostUserId
      ensures old(hostId) == "" && userId == old(hostUserId) ==>
        hostId == sid && hostUserId == old(hostUserId) && events == []
      ensures old(hostId) == "" && userId != old(hostUserId) && old(hostUserId) == 0 ==>
        hostId == sid && hostUserId == userId && events == [SaveOwner(Some(userId))]
      ensures old(hostId) != "" || (userId != old(hostUserId) && old(hostUserId) != 0) ==>
        hostId == old(hostId) && hostUserId == old(hostUserId) && events == []
    {
      events := [];
      if hostId == "" && userId == hostUserId {
        hostId := sid;
      } else if hostId == "" && hostUserId == 0 {
        hostId := sid;
        hostUserId := userId;
        events := [SaveOwner(Some(userId))];
      }
    }

    /** What a socket joining now is sent privately: during a round, its question and the proposals so far. */
    function CatchUpEvents(sid: string, now: int): (evs: seq<Event>)
      reads this
      ensures evs == [] <==> !(status == Running && currentQuestion.Some?)
      ensures evs != [] ==>
        |evs| == 2 && evs[0].QuizQuestion? && evs[0].toSocket == Some(sid) && evs[0].serverNow == now
        && evs[0].question == QuestionPublic(currentQuestion.value)
        && evs[0].startsAt == roundStartsAt.GetOr(now)
        && (roundEndsAt.None? ==> evs[0].endsAt == evs[0].startsAt + params.answerTimeSec * 1000)
        && evs[1] == QuizProposals(Some(sid), VisibleProposals(params.showProposals, currentQuestion, proposals, players))
    {
      if status == Running && currentQuestion.Some? then
        var startsAt := roundStartsAt.GetOr(now);
        [QuizQuestion(Some(sid), now, params, QuestionPublic(currentQuestion.value),
           startsAt, roundEndsAt.GetOr(startsAt + params.answerTimeSec * 1000)),
         QuizProposals(Some(sid), VisibleProposals(params.showProposals, currentQuestion, proposals, players))]
      else []
    }

    /** What a socket joining a running round is sent privately: the question and the proposals so far. */
    method CatchUp(sid: string, now: int) returns (events: seq<Event>)
      ensures !(status == Running && currentQuestion.Some?) ==> events == []
      ensures status == Running && currentQuestion.Some? ==>
        var startsAt := roundStartsAt.GetOr(now);
        events == [QuizQuestion(Some(sid), now, params, QuestionPublic(currentQuestion.value),
                     startsAt, roundEndsAt.GetOr(startsAt + params.answerTimeSec * 1000)),
                   QuizProposals(Some(sid), VisibleProposals(params.showProposals, currentQuestion, proposals, players))]
      ensures events == CatchUpEvents(sid, now)
    {
      events := [];
      if status == Running && currentQuestion.Some? {
        var startsAt := roundStartsAt.GetOr(now);
        var endsAt := roundEndsAt.GetOr(startsAt + params.answerTimeSec * 1000);
        var shown := PublicProposals();
        events := [QuizQuestion(Some(sid), now, params, QuestionPublic(currentQuestion.value), startsAt, endsAt),
                   QuizProposals(Some(sid), shown)];
      }
    }

    /**
     * room:join on an existing room: the ban list is checked first (even for a
     * returning user), then capacity for new users (counting disconnected
     * entries), then the entry is added or rebound and the host socket bound.
     */
    method Join(sid: string, username: string, userId: int, avatar: Option<string>, now: int)
      returns (ack: Ack, events: seq<Event>)
      requires Valid() && sid != ""
      modifies this`players, this`hostId, this`hostUserId
      ensures Valid()
      ensures IsExcluded(params.excludedUsernames, username) ==>
        ack == AckError("banned") && events == [] && players == old(players)
        && hostId == old(hostId) && hostUserId == old(hostUserId)
      ensures !IsExcluded(params.excludedUsernames, username) && FindByUserId(old(players), userId).None?
              && |old(players)| >= params.maxPlayers ==>
        ack == AckError("Salle pleine") && events == [] && players == old(players)
        && hostId == old(hostId) && hostUserId == old(hostUserId)
      ensures ack == AckOk <==>
        !IsExcluded(params.excludedUsernames, username)
        && (FindByUserId(old(players), userId).Some? || |old(players)| < params.maxPlayers)
      ensures ack == AckOk ==> players == Admit(old(players), sid, userId, username, avatar)
      ensures ack == AckOk && old(hostId) == "" && userId == old(hostUserId) ==>
        hostId == sid && hostUserId == old(hostUserId)
        && events == [RoomUpdate(View())] + CatchUpEvents(sid, now)
      ensures ack == AckOk && old(hostId) == "" && userId != old(hostUserId) && old(hostUserId) == 0 ==>
        hostId == sid && hostUserId == userId
        && events == [SaveOwner(Some(userId)), RoomUpdate(View())] + CatchUpEvents(sid, now)
      ensures ack == AckOk && (old(hostId) != "" || (userId != old(hostUserId) && old(hostUserId) != 0)) ==>
        hostId == old(hostId) && hostUserId == old(hostUserId)
        && events == [RoomUpdate(View())] + CatchUpEvents(sid, now)
    {
      if IsExcluded(params.excludedUsernames, username) {
        return AckError("banned"), [];
      }
      if FindByUserId(players, userId).None? && |players| >= params.maxPlayers {
        return AckError("Salle pleine"), [];
      }
      events := Enter(sid, username, userId, avatar, now);
      ack := AckOk;
    }

    /** Join once admitted: the entry is added or rebound, the host socket bound, the joiner caught up. */
    method Enter(sid: string, username: string, userId: int, avatar: Option<string>, now: int)
      returns (events: seq<Event>)
      requires Valid()
      modifies this`players, this`hostId, this`hostUserId
      ensures Valid()
      ensures players == Admit(old(players), sid, userId, username, avatar)
      ensures old(hostId) == "" && userId == old(hostUserId) ==>
        hostId == sid && hostUserId == old(hostUserId)
        && events == [RoomUpdate(View())] + CatchUpEvents(sid, now)
      ensures old(hostId) == "" && userId != old(hostUserId) && old(hostUserId) == 0 ==>
        hostId == sid && hostUserId == userId
        && events == [SaveOwner(Some(userId)), RoomUpdate(View())] + CatchUpEvents(sid, now)
      ensures old(hostId) != "" || (userId != old(hostUserId) && old(hostUserId) != 0) ==>
        hostId == old(hostId) && hostUserId == old(hostUserId)
        && events == [RoomUpdate(View())] + CatchUpEvents(sid, now)
    {
      players := Admit(players, sid, userId, username, avatar);
      var owner := BindHost(sid, userId);
      var tail := CatchUp(sid, now);
      events := owner + [RoomUpdate(View())] + tail;
    }

    /**
     * room:leave: the first entry bound to the socket is disconnected; when it
     * was the host user, the host passes to the first connected player, or is
     * cleared entirely (socket and user) when nobody is left.
     */
    method Leave(sid: string) returns (ack: Ack, events: seq<Event>)
      requires Valid() && sid != ""
      modifies this`players, this`hostId, this`hostUserId
      ensures Valid() && ack == AckOk
      ensures FindBySocket(old(players), sid).None? ==>
        players == old(players) && hostId == old(hostId) && hostUserId == old(hostUserId)
        && events == [RoomUpdate(View())]
      ensures FindBySocket(old(players), sid).Some? ==>
        var k := FindBySocket(old(players), sid).value;
        var wasHost := old(players)[k].userId == old(hostUserId);
        var act := ActivePlayers(players);
        players == old(players)[k := old(players)[k].(id := "")]
        && (!wasHost ==> hostId == old(hostId) && hostUserId == old(hostUserId) && events == [RoomUpdate(View())])
        && (wasHost && act != [] ==>
              hostId == act[0].id && hostUserId == act[0].userId
              && hostId != "" && events == [SaveOwner(Some(hostUserId)), RoomUpdate(View())])
        && (wasHost && act == [] ==> hostId == "" && hostUserId == 0 && events == [SaveOwner(None), RoomUpdate(View())])
    {
      var k := FindBySocket(players, sid);
      var wasHost := k.Some? && players[k.value].userId == hostUserId;
      if k.Some? {
        players := players[k.value := players[k.value].(id := "")];
      }
      events := [];
      if wasHost {
        var act := ActivePlayers(players);
        if |act| > 0 {
          hostId := act[0].id;
          hostUserId := act[0].userId;
          events := [SaveOwner(Some(hostUserId))];
        } else {
          hostId := "";
          hostUserId := 0;
          events := [SaveOwner(None)];
        }
      }
      events := events + [RoomUpdate(View())];
      ack := AckOk;
    }

    /** room:config: anyone in the room may reconfigure it; the caller is not checked. */
    method Config(sid: string, input: ConfigInput) returns (ack: Ack, events: seq<Event>)
      requires Valid()
      modifies this`params
      ensures Valid() && ack == AckOk
      ensures params == ApplyConfig(old(params), input)
      ensures events == [RoomUpdate(View()), SaveConfig(params)]
    {
      params := ApplyConfig(params, input);
      events := [RoomUpdate(View()), SaveConfig(params)];
      ack := AckOk;
    }

    /**
     * The eviction shared by kick and ban: the entry loses its socket; when it
     * was the host user, the host passes to the first connected entry, or only
     * the host socket is cleared (the host user stays recorded). The events are
     * the handler's earlier ones (`before`), the owner write, then the room update.
     */
    method Evict(k: nat, before: seq<Event>) returns (events: seq<Event>)
      requires Valid() && k < |players|
      modifies this`players, this`hostId, this`hostUserId
      ensures Valid()
      ensures players == old(players)[k := old(players)[k].(id := "")]
      ensures old(players)[k].userId != old(hostUserId) ==>
        hostId == old(hostId) && hostUserId == old(hostUserId) && events == before + [RoomUpdate(View())]
      ensures old(players)[k].userId == old(hostUserId) && FirstConnected(players).Some? ==>
        var a := players[FirstConnected(players).value];
        hostId == a.id && hostUserId == a.userId
        && events == before + [SaveOwner(Some(a.userId)), RoomUpdate(View())]
      ensures old(players)[k].userId == old(hostUserId) && FirstConnected(players).None? ==>
        hostId == "" && hostUserId == old(hostUserId) && events == before + [RoomUpdate(View())]
    {
      var target := players[k];
      players := players[k := target.(id := "")];
      var owner := [];
      if target.userId == hostUserId {
        var a := FirstConnected(players);
        if a.Some? {
          hostId := players[a.value].id;
          hostUserId := players[a.value].userId;
          owner := [SaveOwner(Some(hostUserId))];
        } else {
          hostId := "";
        }
      }
      events := before + owner + [RoomUpdate(View())];
    }

    /** room:kick: host only; the target is the first entry of the user id. */
    method Kick(sid: string, userId: int) returns (ack: Ack, events: seq<Event>)
      requires Valid() && sid != ""
      modifies this`players, this`hostId, this`hostUserId
      ensures Valid()
      ensures !old(IsHostSocket(sid)) ==>
        ack == AckFailed("not_host") && events == [] && players == old(players)
        && hostId == old(hostId) && hostUserId == old(hostUserId)
      ensures old(IsHostSocket(sid)) && FindByUserId(old(players), userId).None? ==>
        ack == AckFailed("user_not_found") && events == [] && players == old(players)
        && hostId == old(hostId) && hostUserId == old(hostUserId)
      ensures old(IsHostSocket(sid)) && FindByUserId(old(players), userId).Some? ==>
        var k := FindByUserId(old(players), userId).value;
        ack == AckOk && players == old(players)[k := old(players)[k].(id := "")]
      ensures old(IsHostSocket(sid)) && FindByUserId(old(players), userId).Some? ==>
        var k := FindByUserId(old(players), userId).value;
        var notice := if old(players)[k].id != "" then [Kicked(old(players)[k].id)] else [];
        old(players)[k].userId != old(hostUserId) ==>
          hostId == old(hostId) && hostUserId == old(hostUserId) && events == notice + [RoomUpdate(View())]
      ensures old(IsHostSocket(sid)) && FindByUserId(old(players), userId).Some? ==>
        var k := FindByUserId(old(players), userId).value;
        var notice := if old(players)[k].id != "" then [Kicked(old(players)[k].id)] else [];
        old(players)[k].userId == old(hostUserId) && FirstConnected(players).Some? ==>
          var a := players[FirstConnected(players).value];
          hostId == a.id && hostUserId == a.userId
          && events == notice + [SaveOwner(Some(a.userId)), RoomUpdate(View())]
      ensures old(IsHostSocket(sid)) && FindByUserId(old(players), userId).Some? ==>
        var k := FindByUserId(old(players), userId).value;
        var notice := if old(players)[k].id != "" then [Kicked(old(players)[k].id)] else [];
        old(players)[k].userId == old(hostUserId) && FirstConnected(players).None? ==>
          hostId == "" && hostUserId == old(hostUserId) && events == notice + [RoomUpdate(View())]
    {
      if !IsHostSocket(sid) {
        return AckFailed("not_host"), [];
      }
      var k := FindByUserId(players, userId);
      if k.None? {
        return AckFailed("user_not_found"), [];
      }
      var notice := if players[k.value].id != "" then [Kicked(players[k.value].id)] else [];
      events := Evict(k.value, notice);
      ack := AckOk;
    }

    /** room:ban: as kick, after adding the target's trimmed name to the excluded list. */
    method Ban(sid: string, userId: int) returns (ack: Ack, events: seq<Event>)
      requires Valid() && sid != ""
      modifies this`players, this`hostId, this`hostUserId, this`params
      ensures Valid()
      ensures !old(IsHostSocket(sid)) ==>
        ack == AckFailed("not_host") && events == [] && players == old(players) && params == old(params)
        && hostId == old(hostId) && hostUserId == old(hostUserId)
      ensures old(IsHostSocket(sid)) && FindByUserId(old(players), userId).None? ==>
        ack == AckFailed("user_not_found") && events == [] && players == old(players) && params == old(params)
        && hostId == old(hostId) && hostUserId == old(hostUserId)
      ensures old(IsHostSocket(sid)) && FindByUserId(old(players), userId).Some? ==>
        var k := FindByUserId(old(players), userId).value;
        var uname := Trim(old(players)[k].username);
        ack == AckOk && players == old(players)[k := old(players)[k].(id := "")]
        && params == old(params).(excludedUsernames := AddExcluded(old(params).excludedUsernames, uname))
        && (uname != "" ==> IsExcluded(params.excludedUsernames, uname))
      ensures old(IsHostSocket(sid)) && FindByUserId(old(players), userId).Some? ==>
        var k := FindByUserId(old(players), userId).value;
        var list := AddExcluded(old(params).excludedUsernames, Trim(old(players)[k].username));
        var saved := if list != old(params).excludedUsernames then [SaveExcluded(list)] else [];
        var notice := if old(players)[k].id != "" then [Banned(old(players)[k].id)] else [];
        old(players)[k].userId != old(hostUserId) ==>
          hostId == old(hostId) && hostUserId == old(hostUserId)
          && events == saved + notice + [RoomUpdate(View())]
      ensures old(IsHostSocket(sid)) && FindByUserId(old(players), userId).Some? ==>
        var k := FindByUserId(old(players), userId).value;
        var list := AddExcluded(old(params).excludedUsernames, Trim(old(players)[k].username));
        var saved := if list != old(params).excludedUsernames then [SaveExcluded(list)] else [];
        var notice := if old(players)[k].id != "" then [Banned(old(players)[k].id)] else [];
        old(players)[k].userId == old(hostUserId) && FirstConnected(players).Some? ==>
          var a := players[FirstConnected(players).value];
          hostId == a.id && hostUserId == a.userId
          && events == saved + notice + [SaveOwner(Some(a.userId)), RoomUpdate(View())]
      ensures old(IsHostSocket(sid)) && FindByUserId(old(players), userId).Some? ==>
        var k := FindByUserId(old(players), userId).value;
        var list := AddExcluded(old(params).excludedUsernames, Trim(old(players)[k].username));
        var saved := if list != old(params).excludedUsernames then [SaveExcluded(list)] else [];
        var notice := if old(players)[k].id != "" then [Banned(old(players)[k].id)] else [];
        old(players)[k].userId == old(hostUserId) && FirstConnected(players).None? ==>
          hostId == "" && hostUserId == old(hostUserId)
          && events == saved + notice + [RoomUpdate(View())]
    {
      if !IsHostSocket(sid) {
        return AckFailed("not_host"), [];
      }
      var k := FindByUserId(players, userId);
      if k.None? {
        return AckFailed("user_not_found"), [];
      }
      var uname := Trim(players[k.value].username);
      var list := AddExcluded(params.excludedUsernames, uname);
      var saved := [];
      if list != params.excludedUsernames {
        params := params.(excludedUsernames := list);
        saved := [SaveExcluded(list)];
      }
      var notice := if players[k.value].id != "" then [Banned(players[k.value].id)] else [];
      events := Evict(k.value, saved + notice);
      ack := AckOk;
    }

    /** room:unban: host only; a blank name is refused; every case-insensitive match is removed. */
    method Unban(sid: string, username: string) returns (ack: Ack, events: seq<Event>)
      requires Valid() && sid != ""
      modifies this`params
      ensures Valid()
      ensures !IsHostSocket(sid) ==> ack == AckFailed("not_host") && events == [] && params == old(params)
      ensures IsHostSocket(sid) && Trim(username) == "" ==>
        ack == AckFailed("bad_username") && events == [] && params == old(params)
      ensures IsHostSocket(sid) && Trim(username) != "" ==>
        params == old(params).(excludedUsernames := RemoveExcluded(old(params).excludedUsernames, Trim(username)))
        && !IsExcluded(params.excludedUsernames, Trim(username))
        && ack == AckUnbanned(params.excludedUsernames)
        && events == [SaveExcluded(params.excludedUsernames), RoomUpdate(View())]
    {
      if !IsHostSocket(sid) {
        return AckFailed("not_host"), [];
      }
      var uname := Trim(username);
      if uname == "" {
        return AckFailed("bad_username"), [];
      }
      var after := RemoveExcluded(params.excludedUsernames, uname);
      params := params.(excludedUsernames := after);
      events := [SaveExcluded(after), RoomUpdate(View())];
      ack := AckUnbanned(after);
    }

    /**
     * room:start: host only. The stored settings are re-read, the room runs and
     * is announced before the scores of the connected players are reset, then
     * the first question is drawn.
     */
    method Start(sid: string, stored: Option<StoredSettings>, draw: Option<StoredQuestion>, env: Option<string>, now: int)
      returns (ack: Ack, events: seq<Event>)
      requires Valid() && sid != ""
      modifies this`params, this`status, this`currentQuestion, this`players, this`proposals,
               this`firstFinder, this`roundStartsAt, this`roundEndsAt, this`timeout
      ensures Valid()
      ensures !old(IsHostSocket(sid)) ==>
        ack == AckError("not_host") && events == [] && params == old(params) && status == old(status)
        && players == old(players) && currentQuestion == old(currentQuestion) && timeout == old(timeout)
        && proposals == old(proposals) && firstFinder == old(firstFinder)
        && roundStartsAt == old(roundStartsAt) && roundEndsAt == old(roundEndsAt)
      ensures old(IsHostSocket(sid)) ==>
        ack == AckOk && params == Refresh(old(params), stored)
        && |events| >= 3
        && events[..2] == [RoomUpdate(RoomPublic(code, hostUserId, params, old(players), Running)), RoomStarted(code)]
        && events[2..] == DrawnEvents(params, draw, env, now)
      ensures old(IsHostSocket(sid)) && draw.None? ==>
        status == Ended && players == ResetActive(old(players)) && events[2..] == [NoQuestionLeft]
        && currentQuestion == old(currentQuestion) && timeout == old(timeout) && proposals == old(proposals)
        && firstFinder == old(firstFinder) && roundStartsAt == old(roundStartsAt) && roundEndsAt == old(roundEndsAt)
      ensures old(IsHostSocket(sid)) && draw.Some? ==>
        status == Running && currentQuestion == Some(BuildQuestion(draw.value, env))
        && players == ClearAnswered(ResetActive(old(players))) && proposals == [] && firstFinder == ""
        && roundStartsAt == Some(RoundWindow(params, now).0) && roundEndsAt == Some(RoundWindow(params, now).1)
        && timeout == Pending(TimerDelayMs(params))
      ensures pendingDraws == old(pendingDraws)
    {
      if !IsHostSocket(sid) {
        return AckError("not_host"), [];
      }
      events := Kickoff(stored, draw, env, now);
      ack := AckOk;
    }

    /** The host's start once checked. */
    method Kickoff(stored: Option<StoredSettings>, draw: Option<StoredQuestion>, env: Option<string>, now: int)
      returns (events: seq<Event>)
      requires Valid()
      modifies this`params, this`status, this`currentQuestion, this`players, this`proposals,
               this`firstFinder, this`roundStartsAt, this`roundEndsAt, this`timeout
      ensures Valid()
      ensures params == Refresh(old(params), stored)
        && |events| >= 3
        && events[..2] == [RoomUpdate(RoomPublic(code, hostUserId, params, old(players), Running)), RoomStarted(code)]
        && events[2..] == DrawnEvents(params, draw, env, now)
      ensures draw.None? ==>
        status == Ended && players == ResetActive(old(players)) && events[2..] == [NoQuestionLeft]
        && currentQuestion == old(currentQuestion) && timeout == old(timeout) && proposals == old(proposals)
        && firstFinder == old(firstFinder) && roundStartsAt == old(roundStartsAt) && roundEndsAt == old(roundEndsAt)
      ensures draw.Some? ==>
        status == Running && currentQuestion == Some(BuildQuestion(draw.value, env))
        && players == ClearAnswered(ResetActive(old(players))) && proposals == [] && firstFinder == ""
        && roundStartsAt == Some(RoundWindow(params, now).0) && roundEndsAt == Some(RoundWindow(params, now).1)
        && timeout == Pending(TimerDelayMs(params))
      ensures pendingDraws == old(pendingDraws)
    {
      var announced := Launch(stored);
      var drawn := NextQuestion(draw, env, now);
      events := announced + drawn;
    }

    /** The part of room:start before the draw: the room is announced running, then the connected players reset. */
    method Launch(stored: Option<StoredSettings>) returns (events: seq<Event>)
      requires Valid()
      modifies this`params, this`status, this`players
      ensures Valid()
      ensures params == Refresh(old(params), stored) && status == Running
      ensures players == ResetActive(old(players))
      ensures events == [RoomUpdate(RoomPublic(code, hostUserId, params, old(players), Running)), RoomStarted(code)]
    {
      params := Refresh(params, stored);
      status := Running;
      events := [RoomUpdate(View()), RoomStarted(code)];
      ResetScores(false);
    }

    /**
     * quiz:restart: host only. The round timer is cancelled (not the scheduled
     * draws), settings re-read, every entry's score reset, and a question drawn.
     */
    method Restart(sid: string, stored: Option<StoredSettings>, draw: Option<StoredQuestion>, env: Option<string>, now: int)
      returns (ack: Ack, events: seq<Event>)
      requires Valid() && sid != ""
      modifies this`params, this`status, this`currentQuestion, this`players, this`proposals,
               this`firstFinder, this`roundStartsAt, this`roundEndsAt, this`timeout
      ensures Valid()
      ensures !old(IsHostSocket(sid)) ==>
        ack == AckFailed("not_host") && events == [] && params == old(params) && status == old(status)
        && players == old(players) && currentQuestion == old(currentQuestion) && timeout == old(timeout)
        && proposals == old(proposals) && firstFinder == old(firstFinder)
        && roundStartsAt == old(roundStartsAt) && roundEndsAt == old(roundEndsAt)
      ensures old(IsHostSocket(sid)) ==>
        ack == AckOk && params == Refresh(old(params), stored)
        && |events| >= 3
        && events[..2] == [RoomUpdate(RoomPublic(code, hostUserId, params, ResetAll(old(players)), Running)), RoomStarted(code)]
        && events[2..] == DrawnEvents(params, draw, env, now)
      ensures old(IsHostSocket(sid)) && draw.None? ==>
        status == Ended && currentQuestion.None? && timeout == NoTimer
        && roundStartsAt.None? && roundEndsAt.None? && players == ResetAll(old(players))
        && proposals == old(proposals) && firstFinder == old(firstFinder)
        && events[2..] == [NoQuestionLeft]
      ensures old(IsHostSocket(sid)) && draw.Some? ==>
        status == Running && currentQuestion == Some(BuildQuestion(draw.value, env))
        && players == ClearAnswered(ResetAll(old(players))) && proposals == [] && firstFinder == ""
        && roundStartsAt == Some(RoundWindow(params, now).0) && roundEndsAt == Some(RoundWindow(params, now).1)
        && timeout == Pending(TimerDelayMs(params))
      ensures pendingDraws == old(pendingDraws)
    {
      if !IsHostSocket(sid) {
        return AckFailed("not_host"), [];
      }
      events := Rerun(stored, draw, env, now);
      ack := AckOk;
    }

    /** The host's restart once checked. */
    method Rerun(stored: Option<StoredSettings>, draw: Option<StoredQuestion>, env: Option<string>, now: int)
      returns (events: seq<Event>)
      requires Valid()
      modifies this`params, this`status, this`currentQuestion, this`players, this`proposals,
               this`firstFinder, this`roundStartsAt, this`roundEndsAt, this`timeout
      ensures Valid()
      ensures params == Refresh(old(params), stored)
        && |events| >= 3
        && events[..2] == [RoomUpdate(RoomPublic(code, hostUserId, params, ResetAll(old(players)), Running)), RoomStarted(code)]
        && events[2..] == DrawnEvents(params, draw, env, now)
      ensures draw.None? ==>
        status == Ended && currentQuestion.None? && timeout == NoTimer
        && roundStartsAt.None? && roundEndsAt.None? && players == ResetAll(old(players))
        && proposals == old(proposals) && firstFinder == old(firstFinder)
        && events[2..] == [NoQuestionLeft]
      ensures draw.Some? ==>
        status == Running && currentQuestion == Some(BuildQuestion(draw.value, env))
        && players == ClearAnswered(ResetAll(old(players))) && proposals == [] && firstFinder == ""
        && roundStartsAt == Some(RoundWindow(params, now).0) && roundEndsAt == Some(RoundWindow(params, now).1)
        && timeout == Pending(TimerDelayMs(params))
      ensures pendingDraws == old(pendingDraws)
    {
      var announced := Rewind(stored);
      var drawn := NextQuestion(draw, env, now);
      events := announced + drawn;
    }

    /** The reset part of quiz:restart, up to its announcements. */
    method Rewind(stored: Option<StoredSettings>) returns (events: seq<Event>)
      requires Valid()
      modifies this`params, this`status, this`currentQuestion, this`players,
               this`roundStartsAt, this`roundEndsAt, this`timeout
      ensures Valid()
      ensures timeout == NoTimer && params == Refresh(old(params), stored) && status == Running
      ensures currentQuestion.None? && roundStartsAt.None? && roundEndsAt.None?
      ensures players == ResetAll(old(players))
      ensures events == [RoomUpdate(View()), RoomStarted(code)]
    {
      timeout := NoTimer;
      params := Refresh(params, stored);
      status := Running;
      currentQuestion := None;
      roundStartsAt := None;
      roundEndsAt := None;
      ResetScores(true);
      events := [RoomUpdate(View()), RoomStarted(code)];
    }

    /** quiz:gotoRoom: host only; back to the lobby without the question, the round timer cancelled. */
    method GotoLobby(sid: string) returns (ack: Ack, events: seq<Event>)
      requires Valid() && sid != ""
      modifies this`status, this`currentQuestion, this`roundStartsAt, this`roundEndsAt, this`timeout
      ensures !old(IsHostSocket(sid)) ==>
        ack == AckFailed("not_host") && events == [] && status == old(status)
        && currentQuestion == old(currentQuestion) && timeout == old(timeout)
        && roundStartsAt == old(roundStartsAt) && roundEndsAt == old(roundEndsAt)
      ensures old(IsHostSocket(sid)) ==>
        status == Lobby && currentQuestion.None? && roundStartsAt.None? && roundEndsAt.None? && timeout == NoTimer
        && ack == AckGoto(RoomsPage + code)
        && events == [RoomUpdate(View()), GotoRoom(code, RoomsPage + code)]
      ensures pendingDraws == old(pendingDraws)
      ensures Valid()
    {
      if !IsHostSocket(sid) {
        return AckFailed("not_host"), [];
      }
      timeout := NoTimer;
      status := Lobby;
      currentQuestion := None;
      roundStartsAt := None;
      roundEndsAt := None;
      var url := RoomsPage + code;
      events := [RoomUpdate(View()), GotoRoom(code, url)];
      ack := AckGoto(url);
    }

    /**
     * The scoring step of quiz:answer: the first entry bound to the socket, if
     * it has not scored this round, is marked answered and gains the points of
     * its rank; the first scorer's name is kept.
     */
    method ScoreGuess(sid: string) returns (scored: bool)
      requires Valid()
      modifies this`players, this`firstFinder
      ensures Valid()
      ensures scored <==> Scorer(old(players), sid).Some?
      ensures players == ScoreCorrect(old(players), sid, params.scoring)
      ensures firstFinder == (if scored && old(firstFinder) == "" then old(players)[Scorer(old(players), sid).value].username
                              else old(firstFinder))
    {
      var k := FindBySocket(players, sid);
      scored := k.Some? && !players[k.value].answered;
      if scored {
        var i := k.value;
        players := players[i := players[i].(answered := true)];
        var order := CountAnswered(players);
        CountAfterMark(old(players), i);
        var pts := AwardedPoints(params.scoring, order);
        players := players[i := players[i].(points := players[i].points + pts)];
        if firstFinder == "" {
          firstFinder := players[i].username;
        }
      }
    }

    /** The bookkeeping of quiz:answer: the guess is recorded under the socket, and scores if it is correct. */
    method RecordGuess(sid: string, norm: string) returns (correct: bool, scored: bool)
      requires Valid()
      modifies this`proposals, this`players, this`firstFinder
      ensures Valid()
      ensures correct == IsCorrectGuess(currentQuestion, norm)
      ensures proposals == PutProposal(old(proposals), sid, norm)
      ensures players == (if correct then ScoreCorrect(old(players), sid, params.scoring) else old(players))
      ensures !correct ==> firstFinder == old(firstFinder) && !scored
      ensures scored <==> correct && Scorer(old(players), sid).Some?
      ensures firstFinder == (if scored && old(firstFinder) == "" then old(players)[Scorer(old(players), sid).value].username
                              else old(firstFinder))
    {
      PutProposalDistinct(proposals, sid, norm);
      proposals := PutProposal(proposals, sid, norm);
      correct := IsCorrectGuess(currentQuestion, norm);
      scored := false;
      if correct {
        scored := ScoreGuess(sid);
      }
    }

    /**
     * quiz:answer during a round, up to the proposals broadcast: the normalised
     * guess is recorded, a correct one scores once per round, and the room sees
     * the new scores (when someone scored) and the proposals.
     */
    method PlayAnswer(sid: string, norm: string) returns (correct: bool, events: seq<Event>)
      requires Valid() && status == Running && currentQuestion.Some?
      modifies this`proposals, this`players, this`firstFinder
      ensures Valid()
      ensures correct == IsCorrectGuess(currentQuestion, norm)
      ensures proposals == PutProposal(old(proposals), sid, norm)
      ensures players == (if correct then ScoreCorrect(old(players), sid, params.scoring) else old(players))
      ensures !correct ==> firstFinder == old(firstFinder)
      ensures firstFinder ==
        (if correct && Scorer(old(players), sid).Some? && old(firstFinder) == ""
         then old(players)[Scorer(old(players), sid).value].username else old(firstFinder))
      ensures events ==
        (if correct && Scorer(old(players), sid).Some? then [RoomUpdate(View())] else [])
        + [QuizProposals(None, VisibleProposals(params.showProposals, currentQuestion, proposals, players))]
    {
      var scored;
      correct, scored := RecordGuess(sid, norm);
      var update: seq<Event> := [];
      if scored {
        update := [RoomUpdate(View())];
      }
      var shown := PublicProposals();
      events := update + [QuizProposals(None, shown)];
    }

    /** quiz:answer: ignored, without acknowledgement, unless a question is being played. */
    method Answer(sid: string, answer: string) returns (ack: Option<Ack>, events: seq<Event>, closing: seq<Event>)
      requires Valid() && sid != ""
      modifies this`proposals, this`players, this`firstFinder, this`timeout, this`status, this`pendingDraws
      ensures Valid()
      ensures !(old(status) == Running && currentQuestion.Some?) ==>
        ack.None? && events == [] && closing == [] && proposals == old(proposals) && players == old(players)
        && firstFinder == old(firstFinder) && timeout == old(timeout) && status == old(status)
        && pendingDraws == old(pendingDraws)
      ensures old(status) == Running && currentQuestion.Some? ==>
        var correct := IsCorrectGuess(currentQuestion, NormalizeAnswer(answer));
        ack == Some(AckCorrect(correct))
        && proposals == PutProposal(old(proposals), sid, NormalizeAnswer(answer))
        && players == (if correct then ScoreCorrect(old(players), sid, params.scoring) else old(players))
        && (!correct ==> firstFinder == old(firstFinder))
      ensures old(status) == Running && currentQuestion.Some? ==>
        var correct := IsCorrectGuess(currentQuestion, NormalizeAnswer(answer));
        var scored := correct && Scorer(old(players), sid).Some?;
        firstFinder == (if scored && old(firstFinder) == "" then old(players)[Scorer(old(players), sid).value].username
                        else old(firstFinder))
        && events ==
             (if scored then [RoomUpdate(RoomPublic(code, hostUserId, params, players, Running))] else [])
             + [QuizProposals(None, VisibleProposals(params.showProposals, currentQuestion, proposals, players))]
      ensures old(status) == Running && currentQuestion.Some? ==>
        var ended := AllActiveAnswered(players) && old(timeout) != NoTimer;
        var won := FirstWinner(players, params.targetPoints).Some?;
        timeout == (if ended then NoTimer else old(timeout))
        && status == (if ended && won then Ended else Running)
        && pendingDraws == old(pendingDraws) + (if ended && !won then 1 else 0)
        && closing == (if ended then RoundEndEvents(params, currentQuestion.value, proposals, players, firstFinder) else [])
    {
      if !(status == Running && currentQuestion.Some?) {
        return None, [], [];
      }
      var correct;
      correct, events := PlayAnswer(sid, NormalizeAnswer(answer));
      ack := Some(AckCorrect(correct));
      closing := CloseIfAllAnswered();
    }

    /** The end of quiz:answer: with every connected player scored and a timer set, the timer is cleared and the round ends. */
    method CloseIfAllAnswered() returns (events: seq<Event>)
      requires Valid() && currentQuestion.Some?
      modifies this`timeout, this`status, this`pendingDraws
      ensures
        var ended := AllActiveAnswered(players) && old(timeout) != NoTimer;
        var won := FirstWinner(players, params.targetPoints).Some?;
        var ending := RoundEndEvents(params, currentQuestion.value, proposals, players, firstFinder);
        timeout == (if ended then NoTimer else old(timeout))
        && status == (if ended && won then Ended else old(status))
        && pendingDraws == old(pendingDraws) + (if ended && !won then 1 else 0)
        && events == (if ended then ending else [])
    {
      events := [];
      if AllActiveAnswered(players) && timeout != NoTimer {
        timeout := NoTimer;
        events := EndRound();
      }
    }

    /** room:host:transfer: host only; the target must be connected. */
    method TransferHost(sid: string, userId: int) returns (ack: Ack, events: seq<Event>)
      requires Valid() && sid != ""
      modifies this`hostId, this`hostUserId
      ensures !old(IsHostSocket(sid)) ==>
        ack == AckError("not_host") && events == [] && hostId == old(hostId) && hostUserId == old(hostUserId)
      ensures old(IsHostSocket(sid)) && FindConnectedByUserId(players, userId).None? ==>
        ack == AckError("target_not_connected") && events == [] && hostId == old(hostId) && hostUserId == old(hostUserId)
      ensures old(IsHostSocket(sid)) && FindConnectedByUserId(players, userId).Some? ==>
        var t := players[FindConnectedByUserId(players, userId).value];
        ack == AckOk && hostId == t.id && hostId != "" && hostUserId == userId && IsHostSocket(t.id)
        && events == [SaveOwner(Some(userId)), RoomUpdate(View())]
      ensures Valid()
    {
      if !IsHostSocket(sid) {
        return AckError("not_host"), [];
      }
      var k := FindConnectedByUserId(players, userId);
      if k.None? {
        return AckError("target_not_connected"), [];
      }
      hostId := players[k.value].id;
      hostUserId := players[k.value].userId;
      events := [SaveOwner(Some(hostUserId)), RoomUpdate(View())];
      ack := AckOk;
    }

    /**
     * The disconnect handler's work on one room: every entry bound to the socket
     * loses it, the host socket is cleared if it was this one, and the host user
     * is never reassigned.
     */
    method Disconnect(sid: string) returns (events: seq<Event>)
      requires Valid()
      modifies this`players, this`hostId
      ensures Valid()
      ensures players == ClearSocket(old(players), sid)
      ensures hostId == (if old(hostId) == sid then "" else old(hostId))
      ensures hostUserId == old(hostUserId)
      ensures events == [RoomUpdate(View())]
    {
      var wasHost := hostId == sid;
      var i := 0;
      while i < |players|
        invariant 0 <= i <= |players| == |old(players)|
        invariant hostId == old(hostId)
        invariant forall j :: 0 <= j < i ==> players[j] == ClearSocket(old(players), sid)[j]
        invariant forall j :: i <= j < |players| ==> players[j] == old(players)[j]
      {
        if players[i].id == sid {
          players := players[i := players[i].(id := "")];
        }
        i := i + 1;
      }
      if wasHost {
        hostId := "";
      }
      events := [RoomUpdate(View())];
    }
  }
}

=== FILE: room_types.dfy ===
/**
 * Values and pure helpers of the in-memory quiz-room orchestrator
 * (niwot/api/src/sockets/index.ts): players, room parameters, questions,
 * proposals, the socket copy of the answer normaliser, the parameter clamps
 * of `room:config`, the excluded-name list, scoring, the winner and the podium.
 */
module RoomTypes {
  import opened Wrappers
  import opened Text
  import Normalize
  import Sorting
  import Media

  // ---------------------------------------------------------------------
  // The socket copy of the answer normaliser

  /** `\p{Diacritic}`: spacing accents and the modifier and combining blocks. */
  predicate IsDiacritic(c: char) {
    c == '^' || c == '`' || c == '\U{00A8}' || c == '\U{00AF}' || c == '\U{00B4}'
    || c == '\U{00B7}' || c == '\U{00B8}'
    || ('\U{02B0}' <= c <= '\U{036F}') || ('\U{1DC0}' <= c <= '\U{1DFF}')
  }

  predicate NotDiacritic(c: char) { !IsDiacritic(c) }

  /** normalizeAnswer of the socket layer: `(s || "")`, NFD, strip diacritics, keep `[A-Za-z0-9]`, upper-case. */
  function NormalizeAnswer(s: string): (r: string)
    ensures s == "" ==> r == ""
    ensures forall i :: 0 <= i < |r| ==> IsUpper(r[i]) || IsDigit(r[i])
  {
    Normalize.Canonical(s, Normalize.Decompose, NotDiacritic)
  }

  /**
   * For any decomposition that maps "" to "", the socket pipeline (diacritics)
   * and the utility pipeline (marks, with its falsy guard) give the same text:
   * both mark tables only hold characters the ASCII filter drops anyway.
   */
  lemma CopiesAgreeForAnyDecomposition(s: string, nfd: string -> string)
    requires nfd("") == ""
    ensures Normalize.Canonical(s, nfd, NotDiacritic)
         == (if s == "" then "" else Normalize.Canonical(s, nfd, Normalize.NotMark))
  {
    Normalize.CanonicalIgnoresMarks(s, nfd, NotDiacritic);
    Normalize.CanonicalIgnoresMarks(s, nfd, Normalize.NotMark);
  }

  /** The two copies of normalizeAnswer agree on every input. */
  lemma CopiesAgree(s: string)
    ensures NormalizeAnswer(s) == Normalize.NormalizeAnswer(s)
  {
    CopiesAgreeForAnyDecomposition(s, Normalize.Decompose);
  }

  /** The socket copy is idempotent too. */
  lemma NormalizeAnswerIdempotent(s: string)
    ensures NormalizeAnswer(NormalizeAnswer(s)) == NormalizeAnswer(s)
  {
    CopiesAgree(s);
    CopiesAgree(NormalizeAnswer(s));
    Normalize.NormalizeIdempotent(s);
  }

  // ---------------------------------------------------------------------
  // Rooms, players, questions

  datatype Scoring = Degressif | Fixe
  datatype Status = Lobby | Running | Ended

  datatype RoomParams = RoomParams(
    isPrivate: bool,
    maxPlayers: int,
    excludedUsernames: seq<string>,
    categories: seq<int>,
    answerTimeSec: int,
    targetPoints: int,
    scoring: Scoring,
    showProposals: bool,
    approvedOnly: bool,
    preCountdownSec: int,
    resultDelaySec: int,
    allowJoinMidQuiz: bool)

  /** The parameters of a room that a socket join creates for a code the store does not know. */
  const DefaultParams: RoomParams :=
    RoomParams(false, 10, [], [], 15, 100, Degressif, true, true, 0, 5, true)

  /** A roster entry; `id` is the live socket id, "" once the player is disconnected. */
  datatype Player = Player(
    id: string, userId: int, username: string, avatar: Option<string>,
    points: int, ready: bool, answered: bool)

  datatype QuestionType = Citation | Image | Plain
  datatype Author = Author(id: int, username: string)
  datatype CategoryRef = CategoryRef(id: int, name: string)

  /** The question of the current round, with its answer and alternatives in canonical form. */
  datatype Question = Question(
    id: int, text: string, qtype: QuestionType,
    citationText: Option<string>, imagePath: Option<string>,
    answer: string, alternatives: seq<string>,
    explanation: Option<string>, createdBy: Option<Author>, categories: seq<CategoryRef>)

  /** A question row as the store's random draw returns it. */
  datatype StoredQuestion = StoredQuestion(
    id: int, text: Option<string>, qtype: Option<QuestionType>,
    citationText: Option<string>, imagePath: Option<string>, imageUrl: Option<string>,
    answer: string, alternatives: seq<string>,
    explanation: Option<string>, createdBy: Option<Author>, categories: seq<CategoryRef>)

  /** `a ?? b` on optional strings. */
  function OrElse(a: Option<string>, b: Option<string>): Option<string> {
    if a.Some? then a else b
  }

  /**
   * toAbsoluteImage: the uploads path of a question image as an absolute URL,
   * under the uploads base `env` configures (PUBLIC_UPLOADS_BASE).
   */
  function ToAbsoluteImage(url: Option<string>, env: Option<string>): (r: Option<string>)
    ensures r.None? <==> !Truthy(url)
    ensures Truthy(url) && Media.IsHttpUrl(url.value) ==> r == url
    ensures Truthy(url) && !Media.IsHttpUrl(url.value) ==>
      r == Some(Media.UploadsBase(env) + "/" + Media.WithoutLeadingSlash(url.value))
    ensures r.Some? && Media.IsHttpUrl(Media.UploadsBase(env)) ==> Media.IsHttpUrl(r.value)
    ensures r.Some? && (env.None? || env.value == "") ==> Media.IsHttpUrl(r.value)
  {
    assert Media.DefaultUploadsBase[..8] == "https://";
    Media.AbsoluteMediaUrl(url, Media.UploadsBase(env))
  }

  /** The state-independent part of nextQuestion: the question kept for the round. */
  function BuildQuestion(q: StoredQuestion, env: Option<string>): (r: Question)
    ensures forall i :: 0 <= i < |r.answer| ==> IsUpper(r.answer[i]) || IsDigit(r.answer[i])
    ensures |r.alternatives| == |q.alternatives|
    ensures forall i :: 0 <= i < |q.alternatives| ==> r.alternatives[i] == NormalizeAnswer(q.alternatives[i])
    ensures r.imagePath.None? <==> !Truthy(OrElse(q.imagePath, q.imageUrl))
    ensures r.imagePath.Some? && Media.IsHttpUrl(Media.UploadsBase(env)) ==> Media.IsHttpUrl(r.imagePath.value)
    ensures q.qtype.None? ==> (r.qtype == Citation <==> Truthy(q.citationText))
  {
    var qtype :=
      if q.qtype.Some? then q.qtype.value
      else if Truthy(q.citationText) then Citation
      else if Truthy(q.imagePath) || Truthy(q.imageUrl) then Image
      else Plain;
    Question(
      q.id, q.text.GetOr(""), qtype, q.citationText,
      ToAbsoluteImage(OrElse(q.imagePath, q.imageUrl), env),
      NormalizeAnswer(q.answer),
      seq(|q.alternatives|, i requires 0 <= i < |q.alternatives| => NormalizeAnswer(q.alternatives[i])),
      q.explanation, q.createdBy, q.categories)
  }

  /** The round timer handle: none, scheduled, or fired (a fired handle is still truthy). */
  datatype Timer = NoTimer | Pending(delayMs: int) | Fired

  // ---------------------------------------------------------------------
  // Searching the roster

  /** `Array.prototype.find` as an index: the first position whose element satisfies `p`. */
  function FindFirst<T>(s: seq<T>, p: T -> bool): (r: Option<nat>)
    ensures r.Some? ==> r.value < |s| && p(s[r.value]) && forall k :: 0 <= k < r.value ==> !p(s[k])
    ensures r.None? ==> forall k :: 0 <= k < |s| ==> !p(s[k])
  {
    if s == [] then None
    else if p(s[0]) then Some(0)
    else match FindFirst(s[1..], p)
      case Some(k) => Some(k + 1)
      case None => None
  }

  /** The first match is determined by where the predicate first holds. */
  lemma FindFirstAt<T>(s: seq<T>, p: T -> bool, k: nat)
    requires k < |s| && p(s[k]) && forall j :: 0 <= j < k ==> !p(s[j])
    ensures FindFirst(s, p) == Some(k)
  {
  }

  function FindByUserId(ps: seq<Player>, userId: int): Option<nat> {
    FindFirst(ps, (p: Player) => p.userId == userId)
  }

  function FindBySocket(ps: seq<Player>, sid: string): Option<nat> {
    FindFirst(ps, (p: Player) => p.id == sid)
  }

  function FindConnectedByUserId(ps: seq<Player>, userId: int): Option<nat> {
    FindFirst(ps, (p: Player) => p.userId == userId && p.id != "")
  }

  function FirstConnected(ps: seq<Player>): Option<nat> {
    FindFirst(ps, (p: Player) => p.id != "")
  }

  /** activePlayers: the connected players, in roster order. */
  function ActivePlayers(ps: seq<Player>): (r: seq<Player>)
    ensures |r| <= |ps|
    ensures forall i :: 0 <= i < |r| ==> r[i].id != ""
    ensures r == [] <==> FirstConnected(ps).None?
    ensures r != [] ==> r[0] == ps[FirstConnected(ps).value]
  {
    if ps == [] then []
    else if ps[0].id != "" then [ps[0]] + ActivePlayers(ps[1..])
    else ActivePlayers(ps[1..])
  }

  /** The active players are exactly the connected entries of the roster. */
  lemma {:induction false} ActivePlayersMembers(ps: seq<Player>, p: Player)
    ensures p in ActivePlayers(ps) <==> p in ps && p.id != ""
  {
    if ps != [] {
      ActivePlayersMembers(ps[1..], p);
      assert ps == [ps[0]] + ps[1..];
    }
  }

  // ---------------------------------------------------------------------
  // Whole-roster updates

  /** The disconnect handler's per-room update: every entry bound to `sid` loses its socket. */
  function ClearSocket(ps: seq<Player>, sid: string): seq<Player> {
    seq(|ps|, i requires 0 <= i < |ps| => if ps[i].id == sid then ps[i].(id := "") else ps[i])
  }

  function ClearAnswered(ps: seq<Player>): seq<Player> {
    seq(|ps|, i requires 0 <= i < |ps| => ps[i].(answered := false))
  }

  /** Start's reset: only connected players' scores and answered flags. */
  function ResetActive(ps: seq<Player>): seq<Player> {
    seq(|ps|, i requires 0 <= i < |ps| =>
      if ps[i].id != "" then ps[i].(points := 0, answered := false) else ps[i])
  }

  /** Restart's reset: every player's score and answered flag. */
  function ResetAll(ps: seq<Player>): seq<Player> {
    seq(|ps|, i requires 0 <= i < |ps| => ps[i].(points := 0, answered := false))
  }

  // ---------------------------------------------------------------------
  // Scoring and the end of a round

  /**
   * How many roster entries (connected or not) have scored this round. How
   * marking one entry changes it is Rooms.CountAfterMark.
   */
  function CountAnswered(ps: seq<Player>): (n: nat)
    ensures n <= |ps|
  {
    if ps == [] then 0 else (if ps[0].answered then 1 else 0) + CountAnswered(ps[1..])
  }

  /** Points for the `order`-th correct answer of a round: 11 - order (at least 1), or a flat 10. */
  function AwardedPoints(scoring: Scoring, order: int): (pts: int)
    requires order >= 1
    ensures 1 <= pts <= 10
    ensures scoring == Fixe ==> pts == 10
    ensures scoring == Degressif && order <= 10 ==> pts == 11 - order
    ensures scoring == Degressif && order > 10 ==> pts == 1
  {
    match scoring
    case Degressif => if 11 - order > 1 then 11 - order else 1
    case Fixe => 10
  }

  /** Every connected player has scored this round, and there is at least one. */
  predicate AllActiveAnswered(ps: seq<Player>): (all: bool)
    ensures all <==> (exists p :: p in ps && p.id != "") && forall p :: p in ps && p.id != "" ==> p.answered
  {
    var act := ActivePlayers(ps);
    assert forall p :: p in act <==> p in ps && p.id != "" by {
      forall p { ActivePlayersMembers(ps, p); }
    }
    |act| > 0 && forall i :: 0 <= i < |act| ==> act[i].answered
  }

  /** The winner test of endRound: the first roster entry, connected or not, at or past the target. */
  function FirstWinner(ps: seq<Player>, target: int): (w: Option<nat>)
    ensures w.Some? ==>
      w.value < |ps| && ps[w.value].points >= target && forall k :: 0 <= k < w.value ==> ps[k].points < target
    ensures w.None? <==> forall k :: 0 <= k < |ps| ==> ps[k].points < target
  {
    FindFirst(ps, (p: Player) => p.points >= target)
  }

  datatype TopEntry = TopEntry(username: string, points: int)

  /** Players paired with their roster position, the tie-break of a stable sort. */
  function Indexed(ps: seq<Player>): (r: seq<(int, Player)>)
    ensures |r| == |ps|
    ensures forall i :: 0 <= i < |ps| ==> r[i] == (i, ps[i])
  {
    seq(|ps|, i requires 0 <= i < |ps| => (i, ps[i]))
  }

  /** `(a, b) => b.points - a.points` made total by roster position, as a stable sort does. */
  predicate ByPointsDesc(a: (int, Player), b: (int, Player)) {
    a.1.points > b.1.points || (a.1.points == b.1.points && a.0 <= b.0)
  }

  lemma ByPointsDescIsPreorder()
    ensures Sorting.TotalPreorder(ByPointsDesc)
  {
  }

  /** The connected players ranked by ByPointsDesc: a sorted permutation of the indexed roster. */
  function Ranked(active: seq<Player>): (r: seq<(int, Player)>)
    ensures multiset(r) == multiset(Indexed(active))
    ensures |r| == |active|
    ensures Sorting.SortedBy(r, ByPointsDesc)
  {
    ByPointsDescIsPreorder();
    var r := Sorting.SortBy(Indexed(active), ByPointsDesc);
    assert |r| == |active| by {
      assert |multiset(r)| == |multiset(Indexed(active))|;
    }
    r
  }

  function Entry(x: (int, Player)): TopEntry {
    TopEntry(x.1.username, x.1.points)
  }

  /** The podium of endRound: connected players by points descending (ties in roster order), at most three. */
  function Top3(active: seq<Player>): (r: seq<TopEntry>)
    ensures |r| == if |active| < 3 then |active| else 3
    ensures forall i, j :: 0 <= i < j < |r| ==> r[i].points >= r[j].points
    ensures forall i :: 0 <= i < |r| ==> r[i] == Entry(Ranked(active)[i])
  {
    var top := Prefix(Ranked(active), 3);
    seq(|top|, i requires 0 <= i < |top| => Entry(top[i]))
  }

  /** The first of the podium has at least the points of every connected player. */
  lemma Top3Leads(active: seq<Player>, p: Player)
    requires p in active
    ensures Top3(active) != [] && Top3(active)[0].points >= p.points
  {
    var ranked := Ranked(active);
    var k :| 0 <= k < |active| && active[k] == p;
    assert Indexed(active)[k] in multiset(ranked);
    var m :| 0 <= m < |ranked| && ranked[m] == (k, p);
    if m > 0 {
      assert ByPointsDesc(ranked[0], ranked[m]);
    }
  }

  /** Every podium entry is the name and score of a connected player. */
  lemma Top3FromRoster(active: seq<Player>, i: nat)
    requires i < |Top3(active)|
    ensures exists p :: p in active && Top3(active)[i] == TopEntry(p.username, p.points)
  {
    var ranked := Ranked(active);
    assert ranked[i] in multiset(Indexed(active));
    var k :| 0 <= k < |active| && Indexed(active)[k] == ranked[i];
    assert active[k] in active;
  }

  // ---------------------------------------------------------------------
  // Proposals (the live guesses of a round)

  /** One entry of `room.proposals`: the latest normalised guess of a socket. */
  datatype Proposal = Proposal(socketId: string, guess: string)

  predicate DistinctKeys(ps: seq<Proposal>) {
    forall i, j :: 0 <= i < j < |ps| ==> ps[i].socketId != ps[j].socketId
  }

  function Lookup(ps: seq<Proposal>, sid: string): Option<string> {
    if ps == [] then None
    else if ps[0].socketId == sid then Some(ps[0].guess)
    else Lookup(ps[1..], sid)
  }

  /**
   * `proposals[sid] = guess`: the entry of the socket is replaced in place, or
   * appended, as an object's keys keep insertion order. What each socket's
   * guess is afterwards is PutProposalUpdates.
   */
  function PutProposal(ps: seq<Proposal>, sid: string, guess: string): (r: seq<Proposal>)
    ensures |ps| <= |r| <= |ps| + 1
  {
    if ps == [] then [Proposal(sid, guess)]
    else if ps[0].socketId == sid then [Proposal(sid, guess)] + ps[1..]
    else [ps[0]] + PutProposal(ps[1..], sid, guess)
  }

  /** PutProposal is a map update: the socket now maps to the guess, every other key as before. */
  lemma {:induction false} PutProposalUpdates(ps: seq<Proposal>, sid: string, guess: string)
    ensures Lookup(PutProposal(ps, sid, guess), sid) == Some(guess)
    ensures forall k :: k != sid ==> Lookup(PutProposal(ps, sid, guess), k) == Lookup(ps, k)
    ensures |PutProposal(ps, sid, guess)| == if Lookup(ps, sid).Some? then |ps| else |ps| + 1
  {
    if ps != [] && ps[0].socketId != sid {
      PutProposalUpdates(ps[1..], sid, guess);
    }
  }

  /** PutProposal keeps one entry per socket. */
  lemma {:induction false} PutProposalDistinct(ps: seq<Proposal>, sid: string, guess: string)
    requires DistinctKeys(ps)
    ensures DistinctKeys(PutProposal(ps, sid, guess))
  {
    if ps == [] {
    } else if ps[0].socketId == sid {
      var r := PutProposal(ps, sid, guess);
      assert forall j :: 0 < j < |r| ==> r[j] == ps[j];
    } else {
      var rest := PutProposal(ps[1..], sid, guess);
      PutProposalDistinct(ps[1..], sid, guess);
      PutProposalUpdates(ps[1..], sid, guess);
      NoKeyNoLookup(ps[1..], ps[0].socketId);
      NoLookupNoKey(rest, ps[0].socketId);
    }
  }

  lemma {:induction false} NoKeyNoLookup(ps: seq<Proposal>, sid: string)
    requires forall j :: 0 <= j < |ps| ==> ps[j].socketId != sid
    ensures Lookup(ps, sid).None?
  {
    if ps != [] { NoKeyNoLookup(ps[1..], sid); }
  }

  lemma {:induction false} NoLookupNoKey(ps: seq<Proposal>, sid: string)
    requires Lookup(ps, sid).None?
    ensures forall j :: 0 <= j < |ps| ==> ps[j].socketId != sid
  {
    if ps != [] {
      NoLookupNoKey(ps[1..], sid);
      assert forall j :: 1 <= j < |ps| ==> ps[j] == ps[1..][j - 1];
    }
  }

  /** A guess that the current question accepts. */
  predicate IsCorrectGuess(q: Option<Question>, guess: string) {
    q.Some? && (guess == q.value.answer || guess in q.value.alternatives)
  }

  datatype ProposalView = ProposalView(userId: int, username: string, avatar: Option<string>, points: int, guess: string)

  /** `p.avatar || null`. */
  function AvatarOrNull(a: Option<string>): Option<string> {
    if Truthy(a) then a else None
  }

  /** publicProposals: the wrong guesses of sockets still bound to a roster entry, or nothing when proposals are hidden. */
  function VisibleProposals(show: bool, q: Option<Question>, ps: seq<Proposal>, players: seq<Player>): (r: seq<ProposalView>)
    ensures !show ==> r == []
  {
    if !show then [] else WrongGuesses(q, ps, players)
  }

  function WrongGuesses(q: Option<Question>, ps: seq<Proposal>, players: seq<Player>): (r: seq<ProposalView>)
    ensures |r| <= |ps|
  {
    if ps == [] then []
    else
      var rest := WrongGuesses(q, ps[1..], players);
      var g := ps[0].guess;
      if IsCorrectGuess(q, g) then rest
      else match FindBySocket(players, ps[0].socketId)
        case None => rest
        case Some(i) =>
          var p := players[i];
          [ProposalView(p.userId, p.username, AvatarOrNull(p.avatar), p.points, g)] + rest
  }

  /** Every wrong guess from a socket bound to a roster entry is listed, with that entry's public fields. */
  lemma {:induction false} WrongGuessesComplete(q: Option<Question>, ps: seq<Proposal>, players: seq<Player>, k: nat)
    requires k < |ps| && !IsCorrectGuess(q, ps[k].guess) && FindBySocket(players, ps[k].socketId).Some?
    ensures var p := players[FindBySocket(players, ps[k].socketId).value];
      ProposalView(p.userId, p.username, AvatarOrNull(p.avatar), p.points, ps[k].guess) in WrongGuesses(q, ps, players)
  {
    if k > 0 {
      WrongGuessesComplete(q, ps[1..], players, k - 1);
      assert ps[1..][k - 1] == ps[k];
    }
  }

  /** With proposals shown, every wrong guess from a bound socket is broadcast. */
  lemma VisibleProposalsComplete(q: Option<Question>, ps: seq<Proposal>, players: seq<Player>, k: nat)
    requires k < |ps| && !IsCorrectGuess(q, ps[k].guess) && FindBySocket(players, ps[k].socketId).Some?
    ensures var p := players[FindBySocket(players, ps[k].socketId).value];
      ProposalView(p.userId, p.username, AvatarOrNull(p.avatar), p.points, ps[k].guess) in VisibleProposals(true, q, ps, players)
  {
    WrongGuessesComplete(q, ps, players, k);
  }

  /** The proposals shown never give the answer away: no listed guess is the answer or an alternative. */
  lemma {:induction false} VisibleProposalsHideAnswer(show: bool, q: Option<Question>, ps: seq<Proposal>, players: seq<Player>)
    ensures forall i :: 0 <= i < |VisibleProposals(show, q, ps, players)| ==>
      !IsCorrectGuess(q, VisibleProposals(show, q, ps, players)[i].guess)
  {
    if show { WrongGuessesHideAnswer(q, ps, players); }
  }

  lemma {:induction false} WrongGuessesHideAnswer(q: Option<Question>, ps: seq<Proposal>, players: seq<Player>)
    ensures forall i :: 0 <= i < |WrongGuesses(q, ps, players)| ==> !IsCorrectGuess(q, WrongGuesses(q, ps, players)[i].guess)
  {
    if ps != [] { WrongGuessesHideAnswer(q, ps[1..], players); }
  }

  /** Every listed guess is the recorded guess of a socket bound to a roster entry, shown with that entry's name. */
  lemma {:induction false} WrongGuessesFromRoster(q: Option<Question>, ps: seq<Proposal>, players: seq<Player>, i: nat)
    requires i < |WrongGuesses(q, ps, players)|
    ensures exists k, m ::
      0 <= k < |ps| && 0 <= m < |players| && players[m].id == ps[k].socketId
      && WrongGuesses(q, ps, players)[i].guess == ps[k].guess
      && WrongGuesses(q, ps, players)[i].username == players[m].username
  {
    var r := WrongGuesses(q, ps, players);
    var rest := WrongGuesses(q, ps[1..], players);
    if r == rest {
      WrongGuessesFromRoster(q, ps[1..], players, i);
      var k, m :| 0 <= k < |ps[1..]| && 0 <= m < |players| && players[m].id == ps[1..][k].socketId
        && rest[i].guess == ps[1..][k].guess && rest[i].username == players[m].username;
      assert ps[k + 1] == ps[1..][k];
    } else if i == 0 {
      var m := FindBySocket(players, ps[0].socketId).value;
      assert players[m].id == ps[0].socketId;
    } else {
      WrongGuessesFromRoster(q, ps[1..], players, i - 1);
      var k, m :| 0 <= k < |ps[1..]| && 0 <= m < |players| && players[m].id == ps[1..][k].socketId
        && rest[i - 1].guess == ps[1..][k].guess && rest[i - 1].username == players[m].username;
      assert ps[k + 1] == ps[1..][k];
    }
  }

  // ---------------------------------------------------------------------
  // What rooms broadcast

  datatype PlayerView = PlayerView(userId: int, username: string, avatar: Option<string>, points: int, ready: bool)

  /** The payload of `room:update`. */
  datatype RoomView = RoomView(code: string, hostUserId: int, params: RoomParams, players: seq<PlayerView>, status: Status)

  /** A roster entry as broadcast: no socket, no answered flag, and an empty avatar sent as null. */
  function PlayerPublic(p: Player): (v: PlayerView)
    ensures v.userId == p.userId && v.username == p.username && v.points == p.points && v.ready == p.ready
    ensures v.avatar.Some? ==> v.avatar == p.avatar && p.avatar.value != ""
    ensures v.avatar.None? ==> !Truthy(p.avatar)
  {
    PlayerView(p.userId, p.username, AvatarOrNull(p.avatar), p.points, p.ready)
  }

  /** roomPublic: the room as members see it, listing connected players only. */
  function RoomPublic(code: string, hostUserId: int, params: RoomParams, ps: seq<Player>, status: Status): (v: RoomView)
    ensures v.code == code && v.hostUserId == hostUserId && v.params == params && v.status == status
    ensures |v.players| == |ActivePlayers(ps)| <= |ps|
  {
    var act := ActivePlayers(ps);
    RoomView(code, hostUserId, params, seq(|act|, i requires 0 <= i < |act| => PlayerPublic(act[i])), status)
  }

  /** Every connected entry appears in the room view, and nothing else does. */
  lemma RoomPublicMembers(code: string, hostUserId: int, params: RoomParams, ps: seq<Player>, status: Status)
    ensures forall p :: p in ps && p.id != "" ==> PlayerPublic(p) in RoomPublic(code, hostUserId, params, ps, status).players
    ensures forall w :: w in RoomPublic(code, hostUserId, params, ps, status).players ==>
      exists p :: p in ps && p.id != "" && w == PlayerPublic(p)
  {
    var act := ActivePlayers(ps);
    var views := RoomPublic(code, hostUserId, params, ps, status).players;
    forall p | p in ps && p.id != "" ensures PlayerPublic(p) in views {
      ActivePlayersMembers(ps, p);
      var i :| 0 <= i < |act| && act[i] == p;
      assert views[i] == PlayerPublic(p);
    }
    forall w | w in views ensures exists p :: p in ps && p.id != "" && w == PlayerPublic(p) {
      var i :| 0 <= i < |views| && views[i] == w;
      ActivePlayersMembers(ps, act[i]);
    }
  }

  /** The public part of a question: never its answer or alternatives. */
  datatype QuestionView = QuestionView(id: int, text: string, qtype: QuestionType, citationText: Option<string>, imagePath: Option<string>)

  function QuestionPublic(q: Question): (v: QuestionView)
    ensures v.id == q.id && v.text == q.text && v.qtype == q.qtype
    ensures v.citationText == q.citationText && v.imagePath == q.imagePath
  {
    QuestionView(q.id, q.text, q.qtype, q.citationText, q.imagePath)
  }

  // ---------------------------------------------------------------------
  // room:config

  /** What a `room:config` payload may carry; None is an absent key. */
  datatype ConfigInput = ConfigInput(
    isPrivate: Option<bool>, maxPlayers: Option<int>, excludedUsernames: Option<seq<string>>,
    categories: Option<seq<int>>, answerTimeSec: Option<int>, targetPoints: Option<int>,
    scoring: Option<string>, showProposals: Option<bool>, approvedOnly: Option<bool>,
    preCountdownSec: Option<int>, resultDelaySec: Option<int>, allowJoinMidQuiz: Option<bool>)

  /** `Math.max(lo, Math.min(hi, x))`. */
  function Clamp(lo: int, hi: int, x: int): (r: int)
    requires lo <= hi
    ensures lo <= r <= hi
    ensures lo <= x <= hi ==> r == x
    ensures x < lo ==> r == lo
    ensures x > hi ==> r == hi
  {
    if x < lo then lo else if x > hi then hi else x
  }

  function ScoringName(s: Scoring): string {
    match s
    case Degressif => "degressif"
    case Fixe => "fixe"
  }

  /** The new parameters of `room:config`: the payload spread over the old ones, then clamped and pinned. */
  function ApplyConfig(old_: RoomParams, input: ConfigInput): (p: RoomParams)
    ensures 2 <= p.maxPlayers <= 20 && 5 <= p.answerTimeSec <= 60 && 10 <= p.targetPoints <= 1000
    ensures p.approvedOnly && p.preCountdownSec == 0
    ensures p.maxPlayers == Clamp(2, 20, input.maxPlayers.GetOr(old_.maxPlayers))
    ensures p.answerTimeSec == Clamp(5, 60, input.answerTimeSec.GetOr(old_.answerTimeSec))
    ensures p.targetPoints == Clamp(10, 1000, input.targetPoints.GetOr(old_.targetPoints))
    ensures p.scoring == Fixe <==> input.scoring.GetOr(ScoringName(old_.scoring)) == "fixe"
    ensures p.excludedUsernames == input.excludedUsernames.GetOr(old_.excludedUsernames)
    ensures p.categories == input.categories.GetOr(old_.categories)
    ensures p.showProposals == input.showProposals.GetOr(old_.showProposals)
    ensures p.resultDelaySec == input.resultDelaySec.GetOr(old_.resultDelaySec)
    ensures p.isPrivate == input.isPrivate.GetOr(old_.isPrivate)
    ensures p.allowJoinMidQuiz == input.allowJoinMidQuiz.GetOr(old_.allowJoinMidQuiz)
  {
    RoomParams(
      isPrivate := input.isPrivate.GetOr(old_.isPrivate),
      maxPlayers := Clamp(2, 20, input.maxPlayers.GetOr(old_.maxPlayers)),
      excludedUsernames := input.excludedUsernames.GetOr(old_.excludedUsernames),
      categories := input.categories.GetOr(old_.categories),
      answerTimeSec := Clamp(5, 60, input.answerTimeSec.GetOr(old_.answerTimeSec)),
      targetPoints := Clamp(10, 1000, input.targetPoints.GetOr(old_.targetPoints)),
      scoring := if input.scoring.GetOr(ScoringName(old_.scoring)) == "fixe" then Fixe else Degressif,
      showProposals := input.showProposals.GetOr(old_.showProposals),
      approvedOnly := true,
      preCountdownSec := 0,
      resultDelaySec := input.resultDelaySec.GetOr(old_.resultDelaySec),
      allowJoinMidQuiz := input.allowJoinMidQuiz.GetOr(old_.allowJoinMidQuiz))
  }

  /** Re-applying a configuration is a no-op: the clamps and pins are idempotent. */
  lemma ApplyConfigIdempotent(old_: RoomParams, input: ConfigInput)
    ensures ApplyConfig(ApplyConfig(old_, input), input) == ApplyConfig(old_, input)
  {
  }

  // ---------------------------------------------------------------------
  // refreshParamsFromDB

  /** The stored settings that start and restart re-read; None is a null column. */
  datatype StoredSettings = StoredSettings(
    targetPoints: Option<int>, answerTimeSec: Option<int>, showProposals: Option<bool>,
    maxPlayers: Option<int>, excludedUsernames: Option<seq<string>>,
    pointMode: Option<string>, scoring: Option<string>, categories: Option<seq<int>>)

  /** refreshParamsFromDB: overwrite the stored fields; a missing row changes nothing. */
  function Refresh(p: RoomParams, stored: Option<StoredSettings>): (r: RoomParams)
    ensures stored.None? ==> r == p
    ensures r.isPrivate == p.isPrivate && r.approvedOnly == p.approvedOnly
    ensures r.preCountdownSec == p.preCountdownSec && r.resultDelaySec == p.resultDelaySec
    ensures r.allowJoinMidQuiz == p.allowJoinMidQuiz
    ensures stored.Some? ==> r.targetPoints == stored.value.targetPoints.GetOr(p.targetPoints)
    ensures stored.Some? ==> r.answerTimeSec == stored.value.answerTimeSec.GetOr(p.answerTimeSec)
    ensures stored.Some? ==> r.showProposals == stored.value.showProposals.GetOr(p.showProposals)
    ensures stored.Some? ==> r.maxPlayers == stored.value.maxPlayers.GetOr(p.maxPlayers)
    ensures stored.Some? ==> r.excludedUsernames == stored.value.excludedUsernames.GetOr(p.excludedUsernames)
    ensures stored.Some? ==> r.categories == stored.value.categories.GetOr(p.categories)
    ensures stored.Some? && (Truthy(stored.value.pointMode) || Truthy(stored.value.scoring)) ==>
      (r.scoring == Fixe <==> stored.value.pointMode == Some("fixed") || stored.value.scoring == Some("fixe"))
    ensures stored.Some? && !Truthy(stored.value.pointMode) && !Truthy(stored.value.scoring) ==> r.scoring == p.scoring
  {
    if stored.None? then p
    else
      var db := stored.value;
      p.(targetPoints := db.targetPoints.GetOr(p.targetPoints),
         answerTimeSec := db.answerTimeSec.GetOr(p.answerTimeSec),
         showProposals := db.showProposals.GetOr(p.showProposals),
         maxPlayers := db.maxPlayers.GetOr(p.maxPlayers),
         excludedUsernames := db.excludedUsernames.GetOr(p.excludedUsernames),
         scoring :=
           if Truthy(db.pointMode) || Truthy(db.scoring) then
             (if db.pointMode == Some("fixed") || db.scoring == Some("fixe") then Fixe else Degressif)
           else p.scoring,
         categories := db.categories.GetOr(p.categories))
  }

  // ---------------------------------------------------------------------
  // The excluded-name list

  /** A name on the list, compared case-insensitively. */
  predicate IsExcluded(list: seq<string>, username: string): (b: bool)
    ensures username in list ==> b
    ensures list == [] ==> !b
  {
    exists i :: 0 <= i < |list| && EqualsIgnoreCase(list[i], username)
  }

  /** room:ban's list update, given the trimmed name: appended unless blank or already there. */
  function AddExcluded(list: seq<string>, uname: string): (r: seq<string>)
    ensures uname != "" ==> IsExcluded(r, uname)
    ensures uname == "" || IsExcluded(list, uname) ==> r == list
    ensures |list| <= |r| <= |list| + 1 && r[..|list|] == list
  {
    if uname != "" && !IsExcluded(list, uname) then
      ExcludedAfterAppend(list, uname);
      list + [uname]
    else list
  }

  lemma ExcludedAfterAppend(list: seq<string>, u: string)
    ensures IsExcluded(list + [u], u)
    ensures (list + [u])[..|list|] == list
  {
    assert (list + [u])[|list|] == u;
  }

  /** Banning the same player twice leaves the list as the first ban did. */
  lemma AddExcludedIdempotent(list: seq<string>, uname: string)
    ensures AddExcluded(AddExcluded(list, uname), uname) == AddExcluded(list, uname)
  {
  }

  /** room:unban's list update: every case-insensitive match of the name is removed, the rest kept in order. */
  function RemoveExcluded(list: seq<string>, name: string): (r: seq<string>)
    ensures !IsExcluded(r, name)
    ensures !IsExcluded(list, name) ==> r == list
    ensures forall u :: u in r ==> u in list
    ensures forall u :: u in list && !EqualsIgnoreCase(u, name) ==> u in r
  {
    if list == [] then []
    else
      var rest := RemoveExcluded(list[1..], name);
      if EqualsIgnoreCase(list[0], name) then rest
      else
        assert list == [list[0]] + list[1..];
        assert !IsExcluded([list[0]] + rest, name) by {
          forall i | 0 <= i < |[list[0]] + rest| ensures !EqualsIgnoreCase(([list[0]] + rest)[i], name) {
            if i > 0 { assert ([list[0]] + rest)[i] == rest[i - 1]; }
          }
        }
        assert !IsExcluded(list, name) ==> !IsExcluded(list[1..], name) by {
          if !IsExcluded(list, name) {
            forall i | 0 <= i < |list[1..]| ensures !EqualsIgnoreCase(list[1..][i], name) {
              assert list[1..][i] == list[i + 1];
            }
          }
        }
        [list[0]] + rest
  }

  /**
   * The ban stores the trimmed name but join compares the raw one: a player
   * whose name ends in white space (banned as "bob" for "bob ") can still join
   * under that name.
   */
  lemma BanMissesPaddedName(list: seq<string>, username: string)
    requires !IsExcluded(list, username)
    requires |username| > 0 && IsSpace(username[|username| - 1])
    ensures !IsExcluded(AddExcluded(list, Trim(username)), username)
  {
    var t := Trim(username);
    if t != "" && !IsExcluded(list, t) {
      assert |ToLower(t)| != |ToLower(username)|;
      var r := list + [t];
      forall i | 0 <= i < |r| ensures !EqualsIgnoreCase(r[i], username) {
        if i < |list| {
          assert r[i] == list[i];
        }
      }
    }
  }
}

=== FILE: rooms_http.dfy ===
/**
 * The HTTP room routes (niwot/api/src/routes/rooms.ts): room codes, the JSON
 * shape of a room, creation defaults, the join admission rules and the PATCH
 * field validation. The store is a parameter: the room row read before the
 * handler acts, the set of codes already taken, and the random draws.
 */
module RoomsHttp {
  import opened Wrappers
  import opened Text
  import RoomTypes

  // ---------------------------------------------------------------------
  // Room codes

  const CodeAlphabet := "ABCDEFGHIJKLMNOPQRSTUVWXYZ0123456789"

  /** A room code as code6 produces it: six characters from `A-Z0-9`. */
  predicate IsRoomCode(c: string) {
    |c| == 6 && forall i :: 0 <= i < 6 ==> IsUpper(c[i]) || IsDigit(c[i])
  }

  /** Six draws of `Math.floor(Math.random() * 36)`. */
  predicate ValidDraws(draws: seq<nat>) {
    |draws| == 6 && forall i :: 0 <= i < 6 ==> draws[i] < |CodeAlphabet|
  }

  /** The position of a code character in the alphabet. */
  function CodeIndex(c: char): (k: int)
    ensures IsUpper(c) || IsDigit(c) ==> 0 <= k < |CodeAlphabet| && CodeAlphabet[k] == c
  {
    if IsUpper(c) then c as int - 'A' as int else c as int - '0' as int + 26
  }

  lemma AlphabetIndex(k: nat)
    requires k < |CodeAlphabet|
    ensures IsUpper(CodeAlphabet[k]) || IsDigit(CodeAlphabet[k])
    ensures CodeIndex(CodeAlphabet[k]) == k
  {
  }

  /** code6, with the random draws as a parameter. */
  function Code6(draws: seq<nat>): (c: string)
    requires ValidDraws(draws)
    ensures IsRoomCode(c)
  {
    forall i | 0 <= i < 6 { AlphabetIndex(draws[i]); }
    seq(6, i requires 0 <= i < 6 => CodeAlphabet[draws[i]])
  }

  /** Different draws give different codes: the code determines its draws. */
  lemma Code6Injective(d1: seq<nat>, d2: seq<nat>)
    requires ValidDraws(d1) && ValidDraws(d2)
    ensures Code6(d1) == Code6(d2) ==> d1 == d2
  {
    if Code6(d1) == Code6(d2) {
      forall i | 0 <= i < 6 ensures d1[i] == d2[i] {
        AlphabetIndex(d1[i]);
        AlphabetIndex(d2[i]);
        assert Code6(d1)[i] == Code6(d2)[i];
      }
    }
  }

  /** Every room code is reachable: some draws produce it. */
  lemma Code6Onto(c: string)
    requires IsRoomCode(c)
    ensures exists d :: ValidDraws(d) && Code6(d) == c
  {
    var d: seq<nat> := seq(6, i requires 0 <= i < 6 => CodeIndex(c[i]) as nat);
    assert ValidDraws(d);
    assert Code6(d) == c;
  }

  /**
   * genCodeUnique: draw codes until the store has none like it. The endless
   * retry is bounded by the finite list of draws the caller supplies; when every
   * one of them is taken the model returns None.
   */
  method GenCodeUnique(attempts: seq<seq<nat>>, taken: set<string>) returns (code: Option<string>)
    requires forall i :: 0 <= i < |attempts| ==> ValidDraws(attempts[i])
    ensures code.Some? ==> IsRoomCode(code.value) && code.value !in taken
    ensures code.Some? ==>
      exists i :: 0 <= i < |attempts| && code.value == Code6(attempts[i])
                  && forall j :: 0 <= j < i ==> Code6(attempts[j]) in taken
    ensures code.None? <==> forall i :: 0 <= i < |attempts| ==> Code6(attempts[i]) in taken
  {
    var i := 0;
    while i < |attempts|
      invariant 0 <= i <= |attempts|
      invariant forall j :: 0 <= j < i ==> Code6(attempts[j]) in taken
    {
      var c := Code6(attempts[i]);
      if c !in taken {
        return Some(c);
      }
      i := i + 1;
    }
    return None;
  }

  // ---------------------------------------------------------------------
  // Stored rows and their JSON shape

  datatype Visibility = Public | Private
  datatype PointMode = Degressive | Fixed

  datatype UserRow = UserRow(id: int, username: string, profileImage: Option<string>)
  datatype MemberRow = MemberRow(userId: int, user: Option<UserRow>, ready: bool, isHost: bool)
  datatype RoomRow = RoomRow(
    code: string, name: string, hostId: int, visibility: Visibility, maxPlayers: int,
    excludedUsernames: Option<seq<string>>, categories: Option<seq<real>>,
    answerTimeSec: int, targetPoints: int, pointMode: PointMode, showProposals: bool,
    members: seq<MemberRow>)

  datatype MemberJson = MemberJson(userId: int, username: string, profileImage: Option<string>, ready: bool, isHost: bool)
  datatype SettingsJson = SettingsJson(
    visibility: Visibility, maxPlayers: int, excludedUsernames: seq<string>, categories: seq<real>,
    answerTimeSec: int, targetPoints: int, pointMode: PointMode, showProposals: bool)
  datatype RoomJson = RoomJson(code: string, name: string, hostId: int, youAreHost: bool,
                               members: seq<MemberJson>, settings: SettingsJson)

  function MemberOut(m: MemberRow): (j: MemberJson)
    ensures j.userId == m.userId && j.ready == m.ready && j.isHost == m.isHost
    ensures m.user.None? ==> j.username == "" && j.profileImage.None?
    ensures m.user.Some? ==> j.username == m.user.value.username && j.profileImage == m.user.value.profileImage
  {
    match m.user
    case None => MemberJson(m.userId, "", None, m.ready, m.isHost)
    case Some(u) => MemberJson(m.userId, u.username, u.profileImage, m.ready, m.isHost)
  }

  /** serialize: the room as the requester sees it. */
  function Serialize(row: RoomRow, requesterId: int): (j: RoomJson)
    ensures j.youAreHost <==> row.hostId == requesterId
    ensures j.code == row.code && j.name == row.name && j.hostId == row.hostId
    ensures |j.members| == |row.members|
    ensures forall i :: 0 <= i < |j.members| ==> j.members[i] == MemberOut(row.members[i])
    ensures j.settings.excludedUsernames == row.excludedUsernames.GetOr([])
    ensures j.settings.categories == row.categories.GetOr([])
    ensures j.settings.visibility == row.visibility && j.settings.maxPlayers == row.maxPlayers
    ensures j.settings.answerTimeSec == row.answerTimeSec && j.settings.targetPoints == row.targetPoints
    ensures j.settings.pointMode == row.pointMode && j.settings.showProposals == row.showProposals
  {
    RoomJson(row.code, row.name, row.hostId, row.hostId == requesterId,
             seq(|row.members|, i requires 0 <= i < |row.members| => MemberOut(row.members[i])),
             SettingsJson(row.visibility, row.maxPlayers, row.excludedUsernames.GetOr([]), row.categories.GetOr([]),
                          row.answerTimeSec, row.targetPoints, row.pointMode, row.showProposals))
  }

  // ---------------------------------------------------------------------
  // POST /rooms

  /** The create name: the trimmed input cut to 80 characters, or "Salle de <username>" when that is empty. */
  function CreateName(name: Option<string>, username: string): (r: string)
    ensures name.Some? && !IsBlank(name.value) ==> r == Prefix(Trim(name.value), 80) && 0 < |r| <= 80
    ensures name.None? || IsBlank(name.value) ==> r == "Salle de " + username
    ensures r != ""
  {
    if name.Some? && Trim(name.value) != "" then Prefix(Trim(name.value), 80) else "Salle de " + username
  }

  /** The visibility field: private only for exactly "private". */
  function VisibilityOf(v: Option<string>): (r: Visibility)
    ensures r == Private <==> v == Some("private")
  {
    if v == Some("private") then Private else Public
  }

  /** POST /rooms, given the requester's user row, a fresh code and the body fields. */
  function CreateRoom(user: Option<UserRow>, code: string, name: Option<string>, visibility: Option<string>): (r: Result<RoomRow>)
    ensures user.None? <==> r == Err(401, "Non authentifié")
    ensures r.Ok? ==>
      r.value.code == code && r.value.hostId == user.value.id
      && r.value.members == [MemberRow(user.value.id, user, false, true)]
      && r.value.name == CreateName(name, user.value.username)
      && (r.value.visibility == Private <==> visibility == Some("private"))
    ensures r.Ok? ==>
      r.value.maxPlayers == 10 && r.value.answerTimeSec == 15 && r.value.targetPoints == 100
      && r.value.pointMode == Degressive && r.value.showProposals
      && r.value.excludedUsernames == Some([]) && r.value.categories == Some([])
  {
    match user
    case None => Err(401, "Non authentifié")
    case Some(u) =>
      Ok(RoomRow(code, CreateName(name, u.username), u.id, VisibilityOf(visibility), 10, Some([]), Some([]),
                 15, 100, Degressive, true, [MemberRow(u.id, user, false, true)]))
  }

  /** The creator is the room's only member and its host, and sees itself as host. */
  lemma CreatorIsHost(user: UserRow, code: string, name: Option<string>, visibility: Option<string>)
    ensures var r := CreateRoom(Some(user), code, name, visibility);
      r.Ok? && Serialize(r.value, user.id).youAreHost && |r.value.members| == 1 && r.value.members[0].isHost
  {
  }

  // ---------------------------------------------------------------------
  // POST /rooms/:code/join

  predicate IsMember(members: seq<MemberRow>, userId: int) {
    exists i :: 0 <= i < |members| && members[i].userId == userId
  }

  /**
   * POST /rooms/:code/join, given the requester's user row and the room row
   * stored under the upper-cased code: 401, then 404, then 403 for an excluded
   * name, then 409 for a newcomer to a full room; otherwise the room with the
   * newcomer appended (an existing member is left as is).
   */
  function HttpJoin(user: Option<UserRow>, room: Option<RoomRow>): (r: Result<RoomRow>)
    ensures user.None? ==> r == Err(401, "Non authentifié")
    ensures user.Some? && room.None? ==> r == Err(404, "Salle introuvable")
    ensures user.Some? && room.Some? && RoomTypes.IsExcluded(room.value.excludedUsernames.GetOr([]), user.value.username)
      ==> r == Err(403, "Vous êtes exclu de cette salle")
    ensures r.Ok? ==> user.Some? && room.Some? && !RoomTypes.IsExcluded(room.value.excludedUsernames.GetOr([]), user.value.username)
    ensures r.Ok? && IsMember(room.value.members, user.value.id) ==> r.value == room.value
    ensures r.Ok? && !IsMember(room.value.members, user.value.id) ==>
      |room.value.members| < room.value.maxPlayers
      && r.value == room.value.(members := room.value.members + [MemberRow(user.value.id, user, false, false)])
    ensures r.Ok? ==> IsMember(r.value.members, user.value.id)
    ensures user.Some? && room.Some? && !RoomTypes.IsExcluded(room.value.excludedUsernames.GetOr([]), user.value.username)
      && !IsMember(room.value.members, user.value.id) && |room.value.members| >= room.value.maxPlayers
      ==> r == Err(409, "Salle pleine")
  {
    if user.None? then Err(401, "Non authentifié")
    else if room.None? then Err(404, "Salle introuvable")
    else
      var u := user.value;
      var row := room.value;
      if RoomTypes.IsExcluded(row.excludedUsernames.GetOr([]), u.username) then Err(403, "Vous êtes exclu de cette salle")
      else if IsMember(row.members, u.id) then Ok(row)
      else if |row.members| >= row.maxPlayers then Err(409, "Salle pleine")
      else
        var ms := row.members + [MemberRow(u.id, user, false, false)];
        assert ms[|row.members|].userId == u.id;
        Ok(row.(members := ms))
  }

  /** Joining twice changes nothing the second time: a member is never inserted again. */
  lemma HttpJoinIdempotent(user: UserRow, room: RoomRow)
    requires HttpJoin(Some(user), Some(room)).Ok?
    ensures var once := HttpJoin(Some(user), Some(room)).value;
      HttpJoin(Some(user), Some(once)) == Ok(once)
  {
  }

  // ---------------------------------------------------------------------
  // PATCH /rooms/:code

  /** A body value after `Number(...)`: finite, or NaN/Infinity. */
  datatype Num = Finite(x: real) | NonFinite

  datatype PatchBody = PatchBody(
    name: Option<string>, visibility: Option<string>, maxPlayers: Option<Num>,
    excludedUsernames: Option<seq<string>>, categories: Option<seq<Num>>,
    answerTimeSec: Option<Num>, targetPoints: Option<Num>, pointMode: Option<string>,
    showProposals: Option<bool>)

  /** The `data` object of the update: an absent field is left as stored. */
  datatype PatchData = PatchData(
    name: Option<string>, visibility: Option<Visibility>, maxPlayers: Option<int>,
    excludedUsernames: Option<seq<string>>, categories: Option<seq<real>>,
    answerTimeSec: Option<int>, targetPoints: Option<int>, pointMode: Option<PointMode>,
    showProposals: Option<bool>)

  /** A numeric field kept only when present, finite and within [lo, hi], then cut to an integer (`v|0`). */
  function Ranged(v: Option<Num>, lo: int, hi: int): (r: Option<int>)
    ensures r.Some? <==> v.Some? && v.value.Finite? && lo as real <= v.value.x <= hi as real
    ensures r.Some? ==> lo <= r.value <= hi && r.value == v.value.x.Floor
  {
    if v.Some? && v.value.Finite? && lo as real <= v.value.x <= hi as real then Some(v.value.x.Floor) else None
  }

  /** `categories.map(Number).filter(Number.isFinite)`. */
  function FiniteOnly(xs: seq<Num>): (r: seq<real>)
    ensures |r| <= |xs|
    ensures forall x :: x in r <==> Finite(x) in xs
  {
    if xs == [] then []
    else
      var rest := FiniteOnly(xs[1..]);
      assert forall n :: n in xs <==> n == xs[0] || n in xs[1..];
      if xs[0].Finite? then [xs[0].x] + rest else rest
  }

  /** Builds the update field by field, as the handler fills `data`. */
  method BuildPatch(body: PatchBody) returns (data: PatchData)
    ensures data.name.Some? <==> body.name.Some? && body.name.value != ""
    ensures data.name.Some? ==> data.name.value == Prefix(Trim(body.name.value), 80)
    ensures data.visibility.Some? <==> body.visibility.Some? && body.visibility.value != ""
    ensures data.visibility == Some(Private) <==> body.visibility == Some("private")
    ensures data.maxPlayers == Ranged(body.maxPlayers, 2, 16)
    ensures data.excludedUsernames == body.excludedUsernames
    ensures data.categories.Some? <==> body.categories.Some?
    ensures data.categories.Some? ==> data.categories.value == FiniteOnly(body.categories.value)
    ensures data.answerTimeSec == Ranged(body.answerTimeSec, 5, 60)
    ensures data.targetPoints == Ranged(body.targetPoints, 50, 500)
    ensures data.pointMode.Some? <==> body.pointMode.Some? && body.pointMode.value != ""
    ensures data.pointMode == Some(Fixed) <==> body.pointMode == Some("fixed")
    ensures data.showProposals == body.showProposals
  {
    var name: Option<string> := None;
    if body.name.Some? && body.name.value != "" {
      name := Some(Prefix(Trim(body.name.value), 80));
    }
    var visibility: Option<Visibility> := None;
    if body.visibility.Some? && body.visibility.value != "" {
      visibility := Some(if body.visibility.value == "private" then Private else Public);
    }
    var maxPlayers := Ranged(body.maxPlayers, 2, 16);
    var excluded: Option<seq<string>> := None;
    if body.excludedUsernames.Some? {
      excluded := body.excludedUsernames;
    }
    var categories: Option<seq<real>> := None;
    if body.categories.Some? {
      categories := Some(FiniteOnly(body.categories.value));
    }
    var answerTimeSec := Ranged(body.answerTimeSec, 5, 60);
    var targetPoints := Ranged(body.targetPoints, 50, 500);
    var pointMode: Option<PointMode> := None;
    if body.pointMode.Some? && body.pointMode.value != "" {
      pointMode := Some(if body.pointMode.value == "fixed" then Fixed else Degressive);
    }
    var showProposals: Option<bool> := None;
    if body.showProposals.Some? {
      showProposals := body.showProposals;
    }
    data := PatchData(name, visibility, maxPlayers, excluded, categories,
                      answerTimeSec, targetPoints, pointMode, showProposals);
  }

  /** The store's update: every field present in `data` replaces the stored one. */
  function ApplyPatch(row: RoomRow, data: PatchData): (r: RoomRow)
    ensures r.code == row.code && r.hostId == row.hostId && r.members == row.members
    ensures r.name == data.name.GetOr(row.name) && r.maxPlayers == data.maxPlayers.GetOr(row.maxPlayers)
    ensures r.answerTimeSec == data.answerTimeSec.GetOr(row.answerTimeSec)
    ensures r.targetPoints == data.targetPoints.GetOr(row.targetPoints)
    ensures data == PatchData(None, None, None, None, None, None, None, None, None) ==> r == row
  {
    row.(name := data.name.GetOr(row.name),
         visibility := data.visibility.GetOr(row.visibility),
         maxPlayers := data.maxPlayers.GetOr(row.maxPlayers),
         excludedUsernames := if data.excludedUsernames.Some? then data.excludedUsernames else row.excludedUsernames,
         categories := if data.categories.Some? then data.categories else row.categories,
         answerTimeSec := data.answerTimeSec.GetOr(row.answerTimeSec),
         targetPoints := data.targetPoints.GetOr(row.targetPoints),
         pointMode := data.pointMode.GetOr(row.pointMode),
         showProposals := data.showProposals.GetOr(row.showProposals))
  }

  /**
   * PATCH /rooms/:code: 404 for an unknown code, 403 for anyone but the host
   * (nothing is written), otherwise the stored row updated with the valid fields.
   */
  method HttpPatch(userId: int, room: Option<RoomRow>, body: PatchBody) returns (r: Result<RoomRow>)
    ensures room.None? ==> r == Err(404, "Salle introuvable")
    ensures room.Some? && room.value.hostId != userId ==> r == Err(403, "Réservé à l'hôte")
    ensures r.Ok? <==> room.Some? && room.value.hostId == userId
    ensures r.Ok? ==> r.value.code == room.value.code && r.value.hostId == userId && r.value.members == room.value.members
    ensures r.Ok? ==> r.value.maxPlayers == room.value.maxPlayers || 2 <= r.value.maxPlayers <= 16
    ensures r.Ok? ==> r.value.answerTimeSec == room.value.answerTimeSec || 5 <= r.value.answerTimeSec <= 60
    ensures r.Ok? ==> r.value.targetPoints == room.value.targetPoints || 50 <= r.value.targetPoints <= 500
    ensures r.Ok? && body.maxPlayers.None? ==> r.value.maxPlayers == room.value.maxPlayers
    ensures r.Ok? && body.name.Some? && body.name.value != "" ==> r.value.name == Prefix(Trim(body.name.value), 80)
    ensures r.Ok? && body.name.Some? && body.name.value != "" ==> (r.value.name == "" <==> IsBlank(body.name.value))
    ensures r.Ok? && (body.name.None? || body.name.value == "") ==> r.value.name == room.value.name
    ensures r.Ok? ==> r.value.maxPlayers == Ranged(body.maxPlayers, 2, 16).GetOr(room.value.maxPlayers)
    ensures r.Ok? ==> r.value.answerTimeSec == Ranged(body.answerTimeSec, 5, 60).GetOr(room.value.answerTimeSec)
    ensures r.Ok? ==> r.value.targetPoints == Ranged(body.targetPoints, 50, 500).GetOr(room.value.targetPoints)
    ensures r.Ok? && body.visibility.Some? && body.visibility.value != "" ==>
      (r.value.visibility == Private <==> body.visibility.value == "private")
    ensures r.Ok? && (body.visibility.None? || body.visibility.value == "") ==> r.value.visibility == room.value.visibility
    ensures r.Ok? && body.pointMode.Some? && body.pointMode.value != "" ==>
      (r.value.pointMode == Fixed <==> body.pointMode.value == "fixed")
    ensures r.Ok? && (body.pointMode.None? || body.pointMode.value == "") ==> r.value.pointMode == room.value.pointMode
    ensures r.Ok? ==> r.value.showProposals == body.showProposals.GetOr(room.value.showProposals)
    ensures r.Ok? ==> r.value.excludedUsernames == (if body.excludedUsernames.Some? then body.excludedUsernames else room.value.excludedUsernames)
    ensures r.Ok? && body.categories.Some? ==> r.value.categories == Some(FiniteOnly(body.categories.value))
    ensures r.Ok? && body.categories.None? ==> r.value.categories == room.value.categories
  {
    if room.None? {
      return Err(404, "Salle introuvable");
    }
    if room.value.hostId != userId {
      return Err(403, "Réservé à l'hôte");
    }
    var data := BuildPatch(body);
    r := Ok(ApplyPatch(room.value, data));
  }
}

=== FILE: sorting.dfy ===
/**
 * An insertion sort by a total preorder, standing for JavaScript's
 * `Array.prototype.sort` wherever the application sorts a freshly built
 * array. Its result is sorted and a permutation of the input; where the
 * application relies on the order of ties, the tie-break is part of the
 * preorder itself.
 */
module Sorting {

  /** `le` is total and transitive: what a consistent `sort` comparator describes. */
  ghost predicate TotalPreorder<T(!new)>(le: (T, T) -> bool) {
    && (forall x, y :: le(x, y) || le(y, x))
    && (forall x, y, z :: le(x, y) && le(y, z) ==> le(x, z))
  }

  predicate SortedBy<T>(s: seq<T>, le: (T, T) -> bool) {
    forall i, j :: 0 <= i < j < |s| ==> le(s[i], s[j])
  }

  /** Inserts `x` before the first element it may precede. */
  function Insert<T>(x: T, s: seq<T>, le: (T, T) -> bool): (r: seq<T>)
    ensures multiset(r) == multiset(s) + multiset{x}
  {
    if s == [] then [x]
    else if le(x, s[0]) then [x] + s
    else
      assert s == [s[0]] + s[1..];
      [s[0]] + Insert(x, s[1..], le)
  }

  lemma {:induction false} InsertSorted<T(!new)>(x: T, s: seq<T>, le: (T, T) -> bool)
    requires TotalPreorder(le)
    requires SortedBy(s, le)
    ensures SortedBy(Insert(x, s, le), le)
  {
    if s != [] {
      if le(x, s[0]) {
        var r := [x] + s;
        forall i, j | 0 <= i < j < |r| ensures le(r[i], r[j]) {
          if i == 0 && j > 1 {
            assert le(s[0], s[j - 1]);
          }
        }
      } else {
        var rest := Insert(x, s[1..], le);
        InsertSorted(x, s[1..], le);
        assert s == [s[0]] + s[1..];
        forall k | 0 <= k < |rest| ensures le(s[0], rest[k]) {
          assert rest[k] in multiset(rest);
          if rest[k] != x {
            assert rest[k] in multiset(s[1..]);
            var m :| 0 <= m < |s[1..]| && s[1..][m] == rest[k];
            assert s[m + 1] == rest[k];
          }
        }
        var r := [s[0]] + rest;
        forall i, j | 0 <= i < j < |r| ensures le(r[i], r[j]) {
          if i == 0 {
            assert r[j] == rest[j - 1];
          } else {
            assert r[i] == rest[i - 1] && r[j] == rest[j - 1];
          }
        }
      }
    }
  }

  /** The sorted arrangement of `s`. */
  function SortBy<T(!new)>(s: seq<T>, le: (T, T) -> bool): (r: seq<T>)
    requires TotalPreorder(le)
    ensures multiset(r) == multiset(s)
    ensures SortedBy(r, le)
  {
    if s == [] then [] else
      assert s == [s[0]] + s[1..];
      var rest := SortBy(s[1..], le);
      InsertSorted(s[0], rest, le);
      Insert(s[0], rest, le)
  }
}

=== FILE: text.dfy ===
/**
 * String helpers with the meaning JavaScript gives them on the texts the
 * application handles: ASCII letter classes, ASCII case mapping,
 * `String.prototype.trim`, `startsWith`, `slice` and `split` on one character.
 */
module Text {

  predicate IsUpper(c: char) { 'A' <= c <= 'Z' }
  predicate IsLower(c: char) { 'a' <= c <= 'z' }
  predicate IsDigit(c: char) { '0' <= c <= '9' }
  /** The class `[A-Za-z0-9]`. */
  predicate IsAlnum(c: char) { IsUpper(c) || IsLower(c) || IsDigit(c) }

  function UpperChar(c: char): (u: char)
    ensures IsLower(c) ==> IsUpper(u)
    ensures !IsLower(c) ==> u == c
  {
    if IsLower(c) then (c as int - 32) as char else c
  }

  function LowerChar(c: char): (l: char)
    ensures IsUpper(c) ==> IsLower(l)
    ensures !IsUpper(c) ==> l == c
  {
    if IsUpper(c) then (c as int + 32) as char else c
  }

  /** `toUpperCase`, restricted to the ASCII letters. */
  function ToUpper(s: string): (r: string)
    ensures |r| == |s|
    ensures forall i :: 0 <= i < |s| ==> r[i] == UpperChar(s[i])
  {
    seq(|s|, i requires 0 <= i < |s| => UpperChar(s[i]))
  }

  /** `toLowerCase`, restricted to the ASCII letters. */
  function ToLower(s: string): (r: string)
    ensures |r| == |s|
    ensures forall i :: 0 <= i < |s| ==> r[i] == LowerChar(s[i])
  {
    seq(|s|, i requires 0 <= i < |s| => LowerChar(s[i]))
  }

  /** `a.toLowerCase() === b.toLowerCase()`. */
  predicate EqualsIgnoreCase(a: string, b: string) {
    ToLower(a) == ToLower(b)
  }

  /** Keeps, in order, the characters that satisfy `keep`. */
  function Filter(s: string, keep: char -> bool): (r: string)
    ensures |r| <= |s|
    ensures forall i :: 0 <= i < |r| ==> keep(r[i])
    ensures (forall i :: 0 <= i < |s| ==> keep(s[i])) ==> r == s
  {
    if s == [] then []
    else (if keep(s[0]) then [s[0]] else []) + Filter(s[1..], keep)
  }

  lemma {:induction false} FilterAppend(a: string, b: string, keep: char -> bool)
    ensures Filter(a + b, keep) == Filter(a, keep) + Filter(b, keep)
  {
    if a != [] {
      assert (a + b)[1..] == a[1..] + b;
      FilterAppend(a[1..], b, keep);
    } else {
      assert a + b == b;
    }
  }

  /** The white space JavaScript's `trim` and the regular-expression class `\s` remove. */
  predicate IsSpace(c: char) {
    c == ' ' || c == '\t' || c == '\n' || c == '\r' || c == '\U{000B}' || c == '\U{000C}'
    || c == '\U{00A0}' || c == '\U{1680}' || ('\U{2000}' <= c <= '\U{200A}')
    || c == '\U{2028}' || c == '\U{2029}' || c == '\U{202F}' || c == '\U{205F}'
    || c == '\U{3000}' || c == '\U{FEFF}'
  }

  predicate IsBlank(s: string) { forall i :: 0 <= i < |s| ==> IsSpace(s[i]) }

  function TrimStart(s: string): (r: string)
    ensures |r| <= |s| && r == s[|s| - |r|..]
    ensures r == [] || !IsSpace(r[0])
    ensures IsBlank(s[..|s| - |r|])
  {
    if s != [] && IsSpace(s[0]) then TrimStart(s[1..]) else s
  }

  function TrimEnd(s: string): (r: string)
    ensures |r| <= |s| && r == s[..|r|]
    ensures r == [] || !IsSpace(r[|r| - 1])
    ensures IsBlank(s[|r|..])
  {
    if s != [] && IsSpace(s[|s| - 1]) then TrimEnd(s[..|s| - 1]) else s
  }

  /** `String.prototype.trim`. */
  function Trim(s: string): (r: string)
    ensures r == [] || (!IsSpace(r[0]) && !IsSpace(r[|r| - 1]))
    ensures r == [] <==> IsBlank(s)
  {
    var t := TrimStart(s);
    var r := TrimEnd(t);
    assert r == [] ==> IsBlank(s) by {
      if r == [] {
        assert s == s[..|s| - |t|] + t;
        assert IsBlank(t);
      }
    }
    r
  }

  /** `s.slice(0, n)` for a non-negative `n`. */
  function Prefix<T>(s: seq<T>, n: nat): (r: seq<T>)
    ensures |r| == if |s| < n then |s| else n
    ensures r == s[..|r|]
  {
    if |s| <= n then s else s[..n]
  }

  /** `s.split(sep)` with a one-character separator: never empty, and no piece holds `sep`. */
  function Split(s: string, sep: char): (r: seq<string>)
    ensures |r| >= 1
    ensures forall i :: 0 <= i < |r| ==> sep !in r[i]
  {
    if s == [] then [[]]
    else
      var rest := Split(s[1..], sep);
      if s[0] == sep then [[]] + rest
      else [[s[0]] + rest[0]] + rest[1..]
  }

  /** `pieces.join(sep)`. */
  function Join(pieces: seq<string>, sep: char): string
    requires |pieces| >= 1
  {
    if |pieces| == 1 then pieces[0] else pieces[0] + [sep] + Join(pieces[1..], sep)
  }

  /** Splitting loses nothing: joining the pieces back with the separator gives the input. */
  lemma {:induction false} SplitJoin(s: string, sep: char)
    ensures Join(Split(s, sep), sep) == s
  {
    if s != [] {
      var rest := Split(s[1..], sep);
      SplitJoin(s[1..], sep);
      if s[0] == sep {
        assert Split(s, sep)[1..] == rest;
      } else {
        var r := Split(s, sep);
        assert r[0] == [s[0]] + rest[0];
        if |rest| > 1 {
          assert r[1..] == rest[1..];
        }
      }
    }
  }
}

=== FILE: wrappers.dfy ===
/** Optional values and results shared by every module of the model. */
module Wrappers {

  /** A JavaScript value that may be `null`/`undefined` (None) or present (Some). */
  datatype Option<+T> = None | Some(value: T) {
    function GetOr(default: T): T {
      match this
      case Some(v) => v
      case None => default
    }
  }

  /** An HTTP-style outcome: a success value or an error status with its message. */
  datatype Result<+R> = Ok(value: R) | Err(status: int, message: string)

  /** A JavaScript string value that is truthy: present and not empty. */
  predicate Truthy(s: Option<string>) { s.Some? && s.value != "" }
}
